=== FILE: README.md ===
# lavo-system core in Dafny

A model of the server and dashboard logic of lavo-system. The system is a
Next.js back office for laundromats: shops with door devices, and a
face-recognition feed of customer accesses. Everything that remains once the
database, the UI and the cryptography are removed is modelled as pure
functions over immutable data. It is grouped as follows:

- **TTL cache** (`TtlCache`). The string-keyed cache that the dashboard
  routes share:
  - a 10 000 ms time to live, with strict expiry;
  - lazy eviction on `get`;
  - a `ttl` argument that is ignored.

  It is modelled as a state machine with an explicit clock. A reference
  reading of a whole history of calls comes with it.
- **KPI routes** (`Kpis` for `route.ts`, `KpisNew` for `route.new.ts`). Each
  covers the window start, the store restriction, the cache key, the
  counters, the top customers, the peak-hour histogram, `processChartData`
  (`Charts`), the time-series buckets of `route.ts`, and the cache/response
  path. Supporting modules:
  - `Histogram`: grouping by first appearance, and the hour table read back
    in ascending key order;
  - `Sorting`: the sort and the top-k selection. The sort is stable, as
    `Array.prototype.sort` is: ties keep their input order
    (`Records.SortByStable`, `Records.TopByStable`);
  - `Clock`: `getHours`, `setHours` and `toISOString` under a fixed time-zone
    offset.
- **Client-side aggregations**:
  - the 24-hour traffic chart (`Traffic`);
  - the device page's counters, its form round trip and the status toggle
    (`DevicesPage`);
  - the shop-owner search and its admin guard (`UserSearch`).
- **Access control**:
  - `Authorization: Bearer` parsing (section 2.1 of RFC 6750, with the scheme
    matched case-sensitively as the code does), authentication, and the
    401/403 guards (`Auth`);
  - the role-filtered menus of both navigation bars (`Navbar`).
- **Request validators and table transitions**. The access list
  (`AccessRoute`), device list and creation (`DevicesRoute`), device linking
  (`LinkRoute`), customers (`CustomersRoute`), both versions of the stores
  route (`StoresRoute`, `StoresRouteNew`), registration and the user list
  (`RegisterRoute`), password recovery (`RecoverRoute`), password reset
  (`ResetRoute`), and the singleton system configuration
  (`SystemConfigRoute`).

**Modelling conventions**

- The database (`Records.Db`) is a record of immutable tables in insertion
  order. A write returns the new `Db` along with its `Http.Reply`.
- Whether the database answers is a parameter, `Http.Io`. When it is `Down`,
  the first query throws, and the route's `catch` answers 500.
- JavaScript values that matter are modelled explicitly:
  - `Js.JsNum` is an integer or NaN;
  - `Js.JsValue` covers `undefined`, `null`, a number or a string;
  - `Text.ParseInt` and `Text.NumberOf` are `parseInt` and `Number`.
- The clock (`now`), the server's time-zone offset, `toLocaleDateString`,
  bcrypt's hash and the JWT verifier are function parameters.

**Where the model follows the code rather than the intended behaviour**

- In `route.ts`, the average confidence is the raw aggregate. It is absent
  (`null`) over an empty window. Only `route.new.ts` defaults it to 0.
- `route.ts` calls `now.setHours` inside the peak-hour map. That moves `now`
  to the last peak's hour of the day, and the time series is anchored there
  (`Kpis.StampTimesSpec`, `Kpis.SeriesPartition`).
- `route.ts` hands ISO date strings to `processChartData`. Its
  `split(':')[0]` therefore reads `YYYY-MM-DDTHH`, and `parseInt` of that
  reads the year. The chart is ordered by year, not by hour
  (`Kpis.ChartKeyIsYear`). Within one year every key ties, so the chart
  shows the peaks in rank order (`Kpis.PeakChartInRankOrder`).
- In `route.ts`, `customerId: { not: undefined }` excludes nothing. Accesses
  without a customer form a group of their own. When that group is among the
  top five, `findUnique({ where: { id: null } })` is rejected and the whole
  request answers 500 (`Kpis.TopClients`).
- Assumed rather than shown by the code: a query argument that is NaN or
  `null` where an integer id is required is rejected by the database client,
  and the route answers 500 (see "Left out"). This covers:
  - the NaN store id in `route.new.ts`;
  - the NaN owner id in the stores routes;
  - the NaN store id in the customer list.
- The generated id of a new row is one more than the largest id in its
  table.

## Model

| member | source | states |
|---|---|---|
| TtlCache.Empty | src/lib/cache.ts:7 | a new cache holds no key |
| TtlCache.Set | src/lib/cache.ts:10-15 | `set` stores the data stamped with the current clock under the key, and every other key keeps its entry |
| TtlCache.Get | src/lib/cache.ts:17-28 | `get` answers exactly when the key has an entry not older than the time to live; it then gives that entry's data and changes nothing; an expired entry is answered with nothing and deleted |
| TtlCache.Invalidate | src/lib/cache.ts:30-32 | `invalidate` removes the key and leaves every other entry as it was |
| TtlCache.Clear | src/lib/cache.ts:34-36 | after `clear` no key has an entry |
| TtlCache.GetWithinTtl | src/lib/cache.ts:8-27 | a `get` within 10 000 ms of a key's `set` returns exactly the data stored |
| TtlCache.ExpiryIsStrict | src/lib/cache.ts:21 | an entry aged exactly 10 000 ms is still served; one ms later it is not |
| TtlCache.ExpiredStaysGone | src/lib/cache.ts:21-25 | a `get` that finds an expired entry returns nothing and deletes it, so a later `get` finds nothing |
| TtlCache.SetOverwrites | src/lib/cache.ts:10-15 | a second `set` of a key replaces both the data and the timestamp of the first |
| TtlCache.SetIgnoresTtl | src/lib/cache.ts:10-15 | the `ttl` argument of `set` makes no difference |
| TtlCache.GetNeverSet | src/lib/cache.ts:18-19 | a key never set is answered with nothing |
| TtlCache.GetAfterClear | src/lib/cache.ts:34-36 | after `clear` every `get` answers nothing |
| TtlCache.InvalidateKeepsOthers | src/lib/cache.ts:30-32 | invalidating one key does not change the answer of `get` for any other key |
| TtlCache.RunAgrees | src/lib/cache.ts:10-36 | after any history of calls, a stored entry is the one from the last `set` of its key not undone by `invalidate` or `clear`; any such `set` whose entry is gone had expired |
| TtlCache.GetAfterHistory | src/lib/cache.ts:8-36 | after any history, `get` returns the data of the last surviving `set` of the key if it is at most 10 000 ms old, and nothing otherwise |
| Charts.ChartOrder | src/app/api/dashboard/kpis/route.ts:13-17 | the chart sort is a permutation of the points |
| Charts.ProcessChartData | src/app/api/dashboard/kpis/route.ts:11-23 | labels and series have the input's length; the i-th label is the i-th sorted point's `createdAt` + `h`, and the i-th value is its count |
| Charts.ChartOrderStable | src/app/api/dashboard/kpis/route.ts:13-17 | when every key parses, the points sharing an hour keep their input order |
| Charts.ChartOrderSameKey | src/app/api/dashboard/kpis/route.ts:13-17 | points whose keys are all equal (or all unparsable) are not reordered |
| Charts.ChartOrderSorted | src/app/api/dashboard/kpis/route.new.ts:170-174 | when every point's text before `:` parses as an integer, the chart is in ascending order of that number |
| Charts.HourMarkKey | src/app/api/dashboard/kpis/route.new.ts:127 | the key the chart sort reads from an `` `${hour}:00` `` point is that hour |
| Charts.HourLabelShape | src/app/dashboard/trafego/page.tsx:106 | an hour label is exactly two digits whose value is the hour, followed by `:00` |
| Charts.HourLabelInjective | src/app/dashboard/trafego/page.tsx:104-107 | different hours get different labels |
| Clock.LocalHour | src/app/api/dashboard/kpis/route.ts:227 | `getHours` is an hour of the day, 0 to 23 |
| Clock.SetHoursParts | src/app/api/dashboard/kpis/route.ts:240 | `setHours(h, 0, 0, 0)` keeps the local day and lands on local hour h |
| Clock.SetHoursTwice | src/app/api/dashboard/kpis/route.ts:239-242 | setting the hours twice is the same as setting them once to the second hour |
| Clock.ParseYearField | src/app/api/dashboard/kpis/route.ts:14 | `parseInt` of an ISO year field followed by `-...` gives the year, including signed six-digit years |
| Clock.IsoFirstFieldIsYear | src/app/api/dashboard/kpis/route.ts:240 | `parseInt` of the text before the first `:` of an ISO string is its UTC year |
| Kpis.TimeRange | src/app/api/dashboard/kpis/route.ts:29 | the range is the parameter when it is non-empty, otherwise `24h`; it is never empty |
| Kpis.CacheKeyParts | src/app/api/dashboard/kpis/route.ts:32 | a key splits back into its store part and its range |
| Kpis.CacheKeyDistinct | src/app/api/dashboard/kpis/route.ts:32 | when store ids contain no `:`, two requests share a cache key if and only if they have the same store part and the same range |
| Kpis.AllSharesKey | src/app/api/dashboard/kpis/route.ts:32 | a store id spelled `all` names the cache entry of the unfiltered request |
| Kpis.WindowStartSpec | src/app/api/dashboard/kpis/route.ts:29-50 | the window starts 7 days back for `7d`, 30 days back for `30d`, and 24 hours back for every other range, including an absent one |
| Kpis.Restrict | src/app/api/dashboard/kpis/route.ts:53-55 | no restriction without a store id or with a non-numeric one; otherwise the parsed store |
| Kpis.KpiCards | src/app/api/dashboard/kpis/route.ts:248-253 | exactly four cards, Lojas, Clientes, Dispositivos and Acessos no Período, carrying the four counts in that order |
| Kpis.Counters | src/app/api/dashboard/kpis/route.ts:60-73 | the store card counts every store, unfiltered; the other three counts never exceed their table's size |
| Kpis.CountersWithoutStore | src/app/api/dashboard/kpis/route.ts:62-64 | without a store parameter, the customer and device counts are the table sizes |
| Kpis.Client | src/app/api/dashboard/kpis/route.ts:153-167 | an entry carries the group's id and count and a non-empty name: the found customer's name and image, `Cliente <id>` for an empty name, and `Cliente <id>` without an image when no customer has the id |
| Kpis.TopClients | src/app/api/dashboard/kpis/route.ts:151-169 | the details exist exactly when no top group lacks a customer; each entry keeps its group's id and count, in order |
| Kpis.ClientMissing | src/app/api/dashboard/kpis/route.ts:164 | a customer with no row is listed as `Cliente <id>` without an image |
| Kpis.TopGroupsRanked | src/app/api/dashboard/kpis/route.ts:138-148 | at most five groups (fewer only when there are fewer), in descending count, and no group left out outranks one kept |
| Kpis.TopGroupsCounted | src/app/api/dashboard/kpis/route.ts:138-148 | each top group's count is its customer's number of accesses in the window, at least one, and no customer appears twice |
| Kpis.HoursOf | src/app/api/dashboard/kpis/route.ts:226-229 | each access is given its local hour, in 0..23 |
| Kpis.StampTimes | src/app/api/dashboard/kpis/route.ts:239-242 | one stamp per peak |
| Kpis.Stamp | src/app/api/dashboard/kpis/route.ts:239-242 | one chart point per peak, carrying the peak's count and the ISO string of the instant `now` holds after that peak's `setHours` |
| Kpis.StampPoints | src/app/api/dashboard/kpis/route.ts:239-242 | each point is its peak's count at the ISO instant of the peak's hour on the request's local day |
| Kpis.StampTimesSpec | src/app/api/dashboard/kpis/route.ts:239-242 | because `setHours` mutates `now`, the k-th stamp is the k-th peak's hour on the request's local day, and `now` ends at the last peak's hour |
| Kpis.PeakHoursRanked | src/app/api/dashboard/kpis/route.ts:232-238 | at most three peaks, in descending count, and no hour left out outranks one kept |
| Kpis.PeakHoursCounted | src/app/api/dashboard/kpis/route.ts:225-236 | each peak is an hour of the day with its number of accesses in the window, at least one, and no hour repeats |
| Kpis.ChartKeyIsYear | src/app/api/dashboard/kpis/route.ts:240-245 | the chart of this route sorts peaks by the UTC year of their ISO stamp, not by hour |
| Kpis.PeakChartInRankOrder | src/app/api/dashboard/kpis/route.ts:237-246 | when the peaks' stamps fall in one UTC year, the chart lists them in rank order, by descending count |
| Kpis.Interval | src/app/api/dashboard/kpis/route.ts:256-258 | the bucket width is one day for `30d`, six hours for `7d`, and one hour for every other range |
| Kpis.SeriesSpan | src/app/api/dashboard/kpis/route.ts:256-269 | the buckets together span exactly the window's length (30 days, 7 days, 24 hours), shifted one interval later than the window |
| Kpis.TimeSeries | src/app/api/dashboard/kpis/route.ts:263-283 | 30, 28 or 24 labels and counts, one per bucket |
| Kpis.TimeLabels | src/app/api/dashboard/kpis/route.ts:277-281 | a bucket's label is the locale date of its start for `30d`, and otherwise two digits of its start's local hour followed by `:00` |
| Kpis.BucketCounts | src/app/api/dashboard/kpis/route.ts:267-276 | one count per bucket, in order from the oldest bucket |
| Kpis.BucketCountsCount | src/app/api/dashboard/kpis/route.ts:268-275 | each bucket counts the restricted accesses from its start up to, but not including, the next bucket's start |
| Kpis.BucketsAdjacent | src/app/api/dashboard/kpis/route.ts:267-269 | consecutive buckets touch, and the newest starts at the anchor |
| Kpis.SeriesPartition | src/app/api/dashboard/kpis/route.ts:267-283 | the series adds up to the accesses from the first bucket's start to one interval past the anchor, so the buckets partition that span |
| Kpis.AvgConfidence | src/app/api/dashboard/kpis/route.ts:91-97 | the average is absent exactly when the window has no access |
| Kpis.CacheHitShortCircuits | src/app/api/dashboard/kpis/route.ts:33-36 | a fresh cached answer is returned as is, whatever the database holds or whether it answers |
| Kpis.FailureCachesNothing | src/app/api/dashboard/kpis/route.ts:303-311 | a failure is a 500 and leaves no entry under the request's key |
| Kpis.RepeatWithinTtl | src/app/api/dashboard/kpis/route.ts:303-304 | a computed answer is cached, and the same query within the time to live gets the same answer, whatever the database then holds |
| KpisNew.Scope | src/app/api/dashboard/kpis/route.new.ts:36 | no restriction without a store id; the parsed store otherwise; a non-numeric id is rejected rather than dropped |
| KpisNew.FetchedSpec | src/app/api/dashboard/kpis/route.new.ts:57-77 | the fetched rows are the 100 newest of the window's accesses with a customer (all of them when fewer), newest first, and none left out is newer than one kept |
| KpisNew.FetchedRows | src/app/api/dashboard/kpis/route.new.ts:57-62 | every fetched row is an access in the window and the store restriction, and has a customer |
| KpisNew.ClientIdsCount | src/app/api/dashboard/kpis/route.new.ts:93-106 | each nonzero customer id is counted once per fetched row of that customer, and 0 is never counted |
| KpisNew.NewClientOf | src/app/api/dashboard/kpis/route.new.ts:96-100 | an entry carries its group's id and count and a non-empty name: the first matching customer's image, and its name or `Cliente não identificado` when that name is empty; a customer without a row gets `Cliente não identificado` and an empty image |
| KpisNew.TopIdsRanked | src/app/api/dashboard/kpis/route.new.ts:108-116 | at most five customers, in descending count, and no customer left out outranks one kept |
| KpisNew.TopIdsCounted | src/app/api/dashboard/kpis/route.new.ts:92-116 | each listed customer id is nonzero and counted once per fetched row of that customer, at least once; no id repeats |
| KpisNew.TopIdsTieOrder | src/app/api/dashboard/kpis/route.new.ts:92-116 | of two listed customers with equal counts, the one whose newest fetched row comes first is listed first; at a tie for the fifth place, that customer is kept over the one left out |
| KpisNew.GroupsTotal | src/app/api/dashboard/kpis/route.new.ts:92-106 | the per-customer counts sum to the number of counted rows, which is at most the number fetched |
| KpisNew.TopHoursRanked | src/app/api/dashboard/kpis/route.new.ts:125-131 | at most five hours, in descending count, and no hour left out outranks one kept |
| KpisNew.TopHoursCounted | src/app/api/dashboard/kpis/route.new.ts:119-131 | each listed hour is in 0..23 and carries its number of fetched rows, at least one; no hour repeats |
| KpisNew.TopHoursTieOrder | src/app/api/dashboard/kpis/route.new.ts:119-131 | of two listed hours with equal counts, the hour of the more recent fetched row is listed first, and is the one kept at a tie for the fifth place |
| KpisNew.HoursTotal | src/app/api/dashboard/kpis/route.new.ts:119-123 | the hour counts add up to the number of fetched rows |
| KpisNew.HourChartSorted | src/app/api/dashboard/kpis/route.new.ts:168-174 | in this route the chart reads each point's hour back, so the peaks are charted in ascending hour |
| KpisNew.AvgOrZero | src/app/api/dashboard/kpis/route.new.ts:149 | the average confidence is 0 over an empty window, and otherwise times the row count gives the sum |
| KpisNew.UnparsedStoreFails | src/app/api/dashboard/kpis/route.new.ts:36-62 | a non-numeric store id fails the request with 500 and caches nothing, unless a fresh answer is cached |
| KpisNew.RepeatWithinTtlNew | src/app/api/dashboard/kpis/route.new.ts:14-19 | a computed answer is served again, unchanged, within the time to live |
| KpisNew.AnswersWhenUp | src/app/api/dashboard/kpis/route.new.ts:36-158 | with no store id or a numeric one, the route always answers while the database is up |
| Traffic.Put | src/app/dashboard/trafego/page.tsx:107 | writing a key appends it when new and otherwise replaces its value in place |
| Traffic.Tick | src/app/dashboard/trafego/page.tsx:112 | counting an access keeps the keys and their order |
| Traffic.Fill | src/app/dashboard/trafego/page.tsx:109-113 | counting the accesses keeps the keys and their order |
| Traffic.TrafficChart | src/app/dashboard/trafego/page.tsx:114-115 | labels and data have equal length, and data[i] is the count under labels[i] |
| Traffic.HourBack | src/app/dashboard/trafego/page.tsx:105-106 | going back i hours takes i off the local hour, modulo 24 |
| Traffic.KeysDistinct | src/app/dashboard/trafego/page.tsx:104-107 | the 24 loop keys are pairwise different |
| Traffic.StartShape | src/app/dashboard/trafego/page.tsx:104-108 | distinct keys give one zero bucket each, in loop order |
| Traffic.FillCounts | src/app/dashboard/trafego/page.tsx:109-113 | each bucket gains exactly the number of accesses carrying its key |
| Traffic.FillTotal | src/app/dashboard/trafego/page.tsx:109-113 | when every access's key is a bucket, the counts grow by the number of accesses |
| Traffic.TrafficChartSpec | src/app/dashboard/trafego/page.tsx:101-115 | 24 distinct labels, oldest hour first, ending with the current hour; each value is the number of accesses in that local hour |
| Traffic.StartBuckets | src/app/dashboard/trafego/page.tsx:104-108 | the chart starts with 24 zero buckets with distinct keys |
| Traffic.EveryAccessCounted | src/app/dashboard/trafego/page.tsx:109-113 | the values add up to the number of accesses, since every hour has a bucket |
| Traffic.HourHasBucket | src/app/dashboard/trafego/page.tsx:109-112 | any instant's hour label is one of the 24 keys |
| Traffic.LoopIndex | src/app/dashboard/trafego/page.tsx:104-112 | names the bucket any instant falls in |
| DevicesPage.Kpis | src/app/dashboard/dispositivos/page.tsx:61-66 | the total is the number of devices; the active and free counts never exceed it, and are positive when such a device exists |
| DevicesPage.KpisSplit | src/app/dashboard/dispositivos/page.tsx:62-65 | active plus inactive is the total, and free plus linked is the total |
| DevicesPage.KpisFull | src/app/dashboard/dispositivos/page.tsx:62-65 | all devices are active if and only if the active count equals the total, and likewise for free devices |
| DevicesPage.ListParameter | src/app/dashboard/dispositivos/page.tsx:43-44 | no parameter for `all`; otherwise text that `Number` reads back as the selected id |
| DevicesPage.OpenCreate | src/app/dashboard/dispositivos/page.tsx:68-72 | an empty form whose store is empty exactly when `all` is selected |
| DevicesPage.OpenEdit | src/app/dashboard/dispositivos/page.tsx:74-83 | the form holds the device's fields; the store is empty exactly for a device without a store or with store 0 |
| DevicesPage.SubmitBody | src/app/dashboard/dispositivos/page.tsx:89-94 | the body copies the form, and sends an empty store as `null` and any other as `Number` of it |
| DevicesPage.Submit | src/app/dashboard/dispositivos/page.tsx:85-94 | editing sends PUT to the device's URL; creating sends POST to `/api/devices` |
| DevicesPage.CreateSendsSelection | src/app/dashboard/dispositivos/page.tsx:68-94 | creating from a selected store sends that store's id, and from `all` sends `null` |
| DevicesPage.EditRoundTrip | src/app/dashboard/dispositivos/page.tsx:74-94 | editing and submitting unchanged sends the device's own fields and store back |
| DevicesPage.EditZeroStoreUnlinks | src/app/dashboard/dispositivos/page.tsx:80 | a device with store 0 is sent back without a store |
| DevicesPage.Toggle | src/app/dashboard/dispositivos/page.tsx:119 | the next status is INACTIVE exactly for an ACTIVE device, and ACTIVE otherwise |
| DevicesPage.ToggleTwice | src/app/dashboard/dispositivos/page.tsx:119 | toggling twice restores an ACTIVE or INACTIVE status |
| DevicesPage.ToggleRequest | src/app/dashboard/dispositivos/page.tsx:118-120 | the request goes to the device's status URL and asks for a status different from the current one |
| UserSearch.FilteredMembers | src/app/dashboard/lojistas/page.tsx:58-61 | a user is kept if and only if the lower-cased term occurs in the lower-cased name or e-mail |
| UserSearch.FilteredInOrder | src/app/dashboard/lojistas/page.tsx:58-61 | the result is an order-preserving subsequence of the users |
| UserSearch.EmptyTermKeepsAll | src/app/dashboard/lojistas/page.tsx:58-61 | an empty term keeps every user |
| UserSearch.MatchesPrefix | src/app/dashboard/lojistas/page.tsx:58-61 | a user matching a term matches every prefix of it |
| UserSearch.ExtendingNarrows | src/app/dashboard/lojistas/page.tsx:58-61 | the result for t + s is the result for t, filtered further; it never gains users |
| UserSearch.OnMount | src/app/dashboard/lojistas/page.tsx:25-37 | unauthenticated visitors go to the login page; only an ADM loads the users |
| UserSearch.Rendered | src/app/dashboard/lojistas/page.tsx:63-65 | the list is rendered only for an authenticated ADM, and is the filtered users |
| UserSearch.RenderedOnlyWhenLoaded | src/app/dashboard/lojistas/page.tsx:25-65 | the page renders a list exactly when it loaded the users |
| Text.ToLowerIdempotent | src/app/dashboard/lojistas/page.tsx:59-60 | lower-casing an already lower-cased text changes nothing |
| Text.ContainsPrefixOfNeedle | src/app/dashboard/lojistas/page.tsx:59-60 | a text containing t + u contains t |
| Text.ParseIntOfIntString | src/app/api/dashboard/kpis/route.ts:234 | `parseInt(String(n))` is n for every integer |
| Text.NumberOfIntString | src/app/dashboard/dispositivos/page.tsx:93 | `Number(String(n))` is n for every integer |
| Text.PadStart | src/app/dashboard/trafego/page.tsx:106 | `padStart` reaches the width with the fill character on the left and keeps the text at the end |
| Text.PadNatValue | src/app/dashboard/trafego/page.tsx:106 | zero-padding does not change a number's value |
| Text.FirstField | src/app/api/dashboard/kpis/route.ts:14 | `split(sep)[0]` is the longest prefix without the separator |
| Text.FirstFieldAfter | src/app/api/dashboard/kpis/route.ts:14 | a prefix free of the separator is kept whole by `split(sep)[0]` |
| Text.ParseIntPrefix | src/app/api/dashboard/kpis/route.ts:14 | `parseInt` of a signed digit run followed by a non-digit is the run's value |
| Histogram.Tally | src/app/api/dashboard/kpis/route.new.ts:92-106 | grouping gives one group per distinct value, holding its number of occurrences |
| Histogram.TallyOrder | src/app/api/dashboard/kpis/route.new.ts:92-108 | the groups are listed in the order their values first occur (a `Map`'s insertion order, read back by `Array.from(map.entries())`) |
| Histogram.TallyTotal | src/app/api/dashboard/kpis/route.new.ts:119-123 | the group counts add up to the number of values |
| Histogram.HourCounts | src/app/api/dashboard/kpis/route.ts:225-236 | the hour table read back lists each hour that occurs once, in ascending order, with its number of occurrences |
| Sorting.TopBySpec | src/app/api/dashboard/kpis/route.ts:237-238 | sorting by a key in descending order and keeping n takes min(n, size) elements of the input, in descending key order, and none left out has a larger key than one kept |
| Records.SortByStable | src/app/api/dashboard/kpis/route.ts:13-17 | for a comparator that orders by a key, the elements sharing any key value come out in their input order |
| Records.TopByStable | src/app/api/dashboard/kpis/route.new.ts:108-116 | among the entries that tie on the key, the kept ones are the first of them in input order |
| Records.TopByTieOrder | src/app/api/dashboard/kpis/route.new.ts:115-116 | over an input listed in increasing rank, kept entries with equal keys are in increasing rank, and a tied entry left out ranks after every tied entry kept |
| Records.ProfileIgnoresPassword | src/app/api/auth/register/route.ts:45 | two users have the same public profile if and only if they differ at most in the password |
| Records.NewestFirstSorted | src/app/api/stores/route.ts:26 | `orderBy: { createdAt: 'desc' }` is a permutation in descending creation order |
| Records.NewestFirstFilter | src/app/api/devices/route.ts:14-16 | a filtered, newest-first listing is a permutation of the filtered rows, all satisfying the filter, in descending creation order |
| AccessRoute.Since | src/app/api/access/route.ts:9 | the window starts exactly 86 400 000 ms before now |
| Text.NumberParam | src/app/api/access/route.ts:12-13 | an absent or empty numeric parameter sets no condition; any other is `Number` of it, possibly NaN (also the owner id of src/app/api/stores/route.ts:25) |
| AccessRoute.List | src/app/api/access/route.ts:9-51 | a non-numeric store id answers 500 with its message; the list answers exactly when the id is acceptable and the database is up; `count` is the number of rows |
| AccessRoute.SelectionSpec | src/app/api/access/route.ts:10-22 | the listed accesses are exactly those in the window and the store, each once, newest first |
| AccessRoute.ListRows | src/app/api/access/route.ts:20-39 | the answer lists the window's accesses of the store, newest first, each with its customer |
| AccessRoute.ViewCustomer | src/app/api/access/route.ts:29-34 | an access carries its customer's name and image exactly when that customer exists |
| AccessRoute.NoStoreNoRestriction | src/app/api/access/route.ts:10-12 | an absent store id and an empty one both list every access in the window |
| Auth.BearerToken | src/lib/auth.ts:39-44 | a token exists exactly when the header starts with `Bearer `, and it is the rest of the header |
| Auth.BearerRoundTrip | src/lib/auth.ts:40-44 | any token sent after `Bearer ` is read back exactly |
| Auth.SchemeIsCaseSensitive | src/lib/auth.ts:40 | a lower-case `bearer` header authenticates nothing |
| Auth.AuthenticateSpec | src/lib/auth.ts:38-67 | a request is authenticated exactly when its token verifies and names an existing user; the session carries that user's profile and the header's token |
| Auth.RequireAuth | src/lib/auth.ts:69-79 | 401 without authentication; the handler's answer otherwise |
| Auth.RequireRole | src/lib/auth.ts:81-97 | 401 without authentication, 403 for a role not allowed, the handler's answer otherwise |
| Auth.RefusalIgnoresHandler | src/lib/auth.ts:69-92 | a refused request never reaches the handler: any two handlers give the same answer |
| Auth.RoleComesFromUser | src/lib/auth.ts:84-94 | the role checked is the stored user's, so an allowed user passes to the handler with its profile and token |
| Navbar.Visible | src/components/Navbar.tsx:32 | the visible entries are no more than the table |
| Navbar.VisibleIsFilter | src/components/Navbar.tsx:32 | the visible entries are the entries whose roles include the user's |
| Navbar.VisibleSpec | src/components/Navbar.tsx:32 | an entry is visible if and only if its roles include the user's, in table order |
| Navbar.UnlistedRoleSeesNothing | src/components/Navbar.tsx:32 | a role listed nowhere sees no entry |
| Navbar.ListedEverywhereSeesAll | src/components/Navbar.tsx:32 | a role listed in every entry sees the whole table |
| Navbar.SidebarAdm | src/components/Navbar.tsx:21-30 | ADM sees all eight entries |
| Navbar.SidebarLojistaTail | src/components/Navbar.tsx:26-29 | of the last four entries, LOJISTA sees Dispositivos and Configurações |
| Navbar.SidebarLojista | src/components/Navbar.tsx:21-30 | LOJISTA sees exactly Dashboard, Lojas, Clientes, Tráfego, Dispositivos and Configurações |
| Navbar.SidebarTecnico | src/components/Navbar.tsx:21-30 | TECNICO sees exactly Dashboard, Vincular Dispositivo and Configurações |
| Navbar.TitleShown | src/components/Navbar.tsx:32 | a shown title belongs to an entry listing the role |
| Navbar.SystemSettingsAdminOnly | src/components/Navbar.tsx:28-32 | Config. do Sistema is shown only to ADM |
| Navbar.SidebarUnknownRole | src/components/Navbar.tsx:21-32 | an unrecognised role sees no entry |
| Navbar.HeaderAdm | components/Navbar.tsx:32-37 | ADM sees Home, Gerenciar Lojistas and Configurações |
| Navbar.HeaderLojista | components/Navbar.tsx:32-37 | LOJISTA sees Home and Configurações |
| Navbar.HeaderTecnico | components/Navbar.tsx:32-37 | TECNICO sees Home, Técnico and Configurações |
| Navbar.HeaderUnknownRole | components/Navbar.tsx:32-41 | an unrecognised role sees no entry |
| DevicesRoute.List | src/app/api/devices/route.ts:4-23 | the list answers exactly when the store id is numeric (or overridden) and the database is up; it otherwise answers 500 and lists no more devices than exist |
| DevicesRoute.SelectionSpec | src/app/api/devices/route.ts:14-18 | the listed devices are exactly those the filter selects, each once, newest first |
| DevicesRoute.FreeOverridesStore | src/app/api/devices/route.ts:10-12 | `free=true` lists the unlinked devices whatever the store id |
| DevicesRoute.NoParametersListsAll | src/app/api/devices/route.ts:10-16 | without parameters every device is listed, newest first |
| DevicesRoute.PageListsSelection | src/app/api/devices/route.ts:10-16 | the device page's request lists the selected store's devices, or every device for `all` |
| DevicesRoute.Create | src/app/api/devices/route.ts:25-35 | creation succeeds exactly when the database is up and accepts the row; it then appends one device with a fresh id, and otherwise answers 500 and writes nothing |
| DevicesRoute.CreateDefaults | src/app/api/devices/route.ts:30 | an absent store becomes `null`, an absent status becomes ACTIVE, and the serial is the given one |
| DevicesRoute.CreateKeepsSerialsUnique | src/app/api/devices/route.ts:30-34 | creation keeps serial numbers unique |
| LinkRoute.Link | src/app/api/technician/link/route.ts:4-20 | a missing serial or store answers 400 and nothing changes on failure; a link leaves the device ACTIVE at `Number` of the given, existing store |
| LinkRoute.UnknownSerial | src/app/api/technician/link/route.ts:11-12 | an unknown serial answers 404 |
| LinkRoute.LinkedRefused | src/app/api/technician/link/route.ts:13 | a device that already has a store is refused with 400 and left as it was |
| LinkRoute.LinkWritesOneDevice | src/app/api/technician/link/route.ts:15-16 | a link changes exactly that device's store and status; every other device and table is untouched |
| LinkRoute.LinkKeepsSerialsUnique | src/app/api/technician/link/route.ts:15 | linking keeps serial numbers unique |
| LinkRoute.LinkTwiceRefused | src/app/api/technician/link/route.ts:13-15 | after a successful link, linking the same serial again is refused with 400 |
| CustomersRoute.List | src/app/api/customers/route.ts:4-39 | without a store id the answer is an empty list; failures are 500 |
| CustomersRoute.ListSpec | src/app/api/customers/route.ts:13-18 | a numeric store id lists exactly that store's customers, each once, newest first |
| CustomersRoute.NoStoreNoQuery | src/app/api/customers/route.ts:9-11 | without a store id the answer does not depend on the database at all |
| CustomersRoute.Create | src/app/api/customers/route.ts:41-84 | a falsy store, name or image answers 400; creation succeeds exactly when the row is acceptable and the database is up; failures write nothing and otherwise answer 500 |
| CustomersRoute.CreateSpec | src/app/api/customers/route.ts:60-72 | one customer is appended with a fresh id and the given fields, status as given or NEW, and is returned with its store |
| StoresRoute.List | src/app/api/stores/route.ts:4-59 | a connection failure and a non-numeric owner id each answer 500 with their own message; the list answers otherwise |
| StoresRoute.OwnedSpec | src/app/api/stores/route.ts:24-34 | the listing holds exactly the owner's stores (all of them without an owner), each once, newest first |
| StoresRoute.Insert | src/app/api/stores/route.ts:92-98 | the write succeeds exactly when the owner exists; it appends one store with the given name, address and owner and a fresh id; otherwise 500 and nothing written |
| StoresRoute.Create | src/app/api/stores/route.ts:61-110 | a missing name or address answers 400; a created store carries the given name and address and an existing owner; failures write nothing |
| StoresRoute.CreateOwner | src/app/api/stores/route.ts:74-90 | the owner is the given truthy numeric id, and otherwise the first LOJISTA in table order |
| StoresRoute.NoOwnerRefused | src/app/api/stores/route.ts:76-87 | with no usable owner id and no LOJISTA, the answer is 400 and nothing is written |
| StoresRoute.NonNumericOwnerFallsBack | src/app/api/stores/route.ts:74-76 | a non-numeric owner id is treated as no owner id |
| StoresRouteNew.List | src/app/api/stores/route.new.ts:4-25 | the list answers exactly when the database is up and the owner id is not NaN; every failure is a 500 `Erro ao listar lojas` |
| StoresRouteNew.ListsAgree | src/app/api/stores/route.new.ts:9-13 | both versions of the route list the same stores whenever they answer |
| StoresRouteNew.Create | src/app/api/stores/route.new.ts:27-69 | a missing name or address answers 400; every other failure is a 500 `Erro ao criar loja` and writes nothing |
| StoresRouteNew.AbsentOwnerFails | src/app/api/stores/route.new.ts:39-57 | with no owner id and no LOJISTA, the store is written with `Number(undefined)` and the answer is 500 |
| StoresRouteNew.CreatesAgree | src/app/api/stores/route.new.ts:39-57 | given a numeric owner, or none while a LOJISTA exists, both versions create the same store; where the first answers 400 for want of an owner, this one answers 500 |
| RegisterRoute.Register | src/app/api/auth/register/route.ts:6-59 | a missing name, e-mail or password answers 400; an e-mail in use answers 400; failures write nothing |
| RegisterRoute.RegisterSpec | src/app/api/auth/register/route.ts:9-50 | one user is appended with a fresh id, the given name and e-mail, the hash of the password, and the given role (or LOJISTA when absent); the reply is that user without the password |
| RegisterRoute.RegisterKeepsEmailsUnique | src/app/api/auth/register/route.ts:20-42 | registration keeps e-mail addresses unique |
| RegisterRoute.ListNeedsOnlyAuthentication | src/app/api/auth/register/route.ts:62-83 | any authenticated user gets every user newest first, whatever the role; anyone else gets 401 |
| RecoverRoute.Recover | src/app/api/auth/recover/route.ts:5-51 | a missing e-mail answers 400; success is always the same message; a token is issued only alongside that message |
| RecoverRoute.SameAnswerEitherWay | src/app/api/auth/recover/route.ts:22-42 | the answer is the same whether or not the e-mail is registered |
| RecoverRoute.TokenForRegisteredOnly | src/app/api/auth/recover/route.ts:18-34 | a token is issued if and only if a user has the e-mail; it names that user and e-mail and expires in one hour |
| ResetRoute.Reset | src/app/api/auth/reset/route.ts:6-61 | a missing token or password answers 400; a token that fails verification answers 400; failures write nothing |
| ResetRoute.MissingUser | src/app/api/auth/reset/route.ts:30-39 | a verified token naming no user answers 404 |
| ResetRoute.ResetChangesOnlyThatPassword | src/app/api/auth/reset/route.ts:41-52 | success sets that user's password to the hash of the new one and changes nothing else |
| SystemConfigRoute.Read | src/app/api/system/config/route.ts:4-14 | the first configuration is returned; with none, `{ id: 1, systemName: 'Lavo System' }` is created and returned; failures answer 500 |
| SystemConfigRoute.ReadTwice | src/app/api/system/config/route.ts:6-10 | a second read returns the same configuration and creates nothing |
| SystemConfigRoute.Save | src/app/api/system/config/route.ts:16-31 | the stored configuration is id 1 and only the configuration table changes; failures answer 500 and write nothing |
| SystemConfigRoute.SaveKeepsMissingFields | src/app/api/system/config/route.ts:21-23 | an update changes only the fields given; absent or null fields keep their value, so the logo cannot be cleared |
| SystemConfigRoute.SaveCreates | src/app/api/system/config/route.ts:24 | with no configuration, id 1 is created with the name given (`Lavo System` when empty or absent) and the logo given |
| SystemConfigRoute.SingletonKept | src/app/api/system/config/route.ts:4-25 | reads and writes keep at most one configuration, with id 1 |
| SystemConfigRoute.ReadAfterSave | src/app/api/system/config/route.ts:6-25 | reading after a save returns what the save stored |
| SystemConfigRoute.SaveIdempotent | src/app/api/system/config/route.ts:21-25 | saving the same body twice stores the same thing, except when the first save creates the row from an empty name |
| SystemConfigRoute.EmptyNameTwice | src/app/api/system/config/route.ts:23-24 | an empty name creates `Lavo System`, but the same body sent again stores the empty name |

## Left out

- The database engine: transactions, `$connect`/`$disconnect`, the raw SQL text, the reconnect interceptors and column narrowing by `select` are not modelled. Tables are sequences, and queries are filters and sorts.
- `Promise.all` concurrency: parallel queries are evaluated in sequence against one database state.
- The order of equal keys under `groupBy`'s `orderBy` is the database's own. It is modelled as order of first appearance.
- Records.NewestFirst: rows with equal `createdAt` come back from `findMany` with `orderBy: { createdAt: 'desc' }` in the database's own order, since no unique tie-breaker is given. The model puts them in table order, a choice rather than a promise. The contracts (`Records.NewestFirstSorted`, `Records.NewestFirstFilter`) state only the permutation and the descending stamps. This affects every newest-first listing (accesses, devices, customers, stores, users). It also decides which rows `take: 100` keeps in `route.new.ts` (`KpisNew.Fetched`), and through them which customer or hour `KpisNew.TopIdsTieOrder` and `KpisNew.TopHoursTieOrder` put first at a count tie.
- Real time zones and daylight saving: the local hour uses one fixed offset.
- `toLocaleDateString('pt-BR')`: a parameter.
- JSON serialisation: instants are integers. `Clock.IsoString` renders them where a response carries one (the access list's `since`, the peak-hour stamps), and the rest of the JSON encoding is not modelled.
- The shared cache between the two KPI routes: each route is modelled with its own cache of its own payload type.
- `Number` of fractions, hexadecimal and exponent notation is NaN in the model. JavaScript numbers are integers or NaN.
- The access confidence is a `real`, so floating-point rounding is not modelled.
- `parseInt` of hexadecimal prefixes is not modelled.
- `parseInt` and `Number` skip only ASCII white space in the model; JavaScript also trims Unicode white space such as U+00A0, so `parseInt("\u00A012")` is 12 there and NaN here. `Number("Infinity")` is NaN here, where JavaScript gives Infinity.
- Rejection of a NaN or `null` id argument by the database is an assumption of the model, not something the code shows. It is most doubtful for the raw SQL of `src/app/api/customers/route.ts` (lines 13-17), where the model answers 500.
- Kpis.Handle and KpisNew.HandleNew: the cache entry is stamped with the instant `now` at which the request starts. The source's `set` reads `Date.now()` after the route's queries, so an entry in the model expires earlier, by the time the request took.
- Text.ToLower: maps only the capitals A-Z and À-Þ (except ×), one character to one. JavaScript's `toLowerCase` lower-cases all of Unicode (`Ł`, `Σ`, `Д`), and can change the length (`İ` becomes two characters).
- UserSearch.FilteredMembers: the search lemmas hold for the model's lower-casing, so they describe the page only for names, e-mails and terms whose capitals are ASCII or Latin-1. A term `Ł` finds a user named `łukasz` on the page, but not in the model.
- Non-string values in string body fields, and a token payload without `userId`: the TypeScript types are taken at their word.
- bcrypt and jsonwebtoken: `hash` and `verify` are parameters. Signing is not modelled beyond the recovery token's payload and lifetime.
- A database failure during authentication is not modelled. `Auth.Authenticate` reads the user table directly.
- Logging (`console.log`, including the recovery token) and the `stores: []` field of the stores route's error bodies are not modelled.
- The parts of `src/app/api/dashboard/kpis/route.ts` that never reach the response are not modelled: the first `groupBy` and the hour map of the parallel block (lines 76-86 and 113-126) and the second detail lookup (lines 175-197).
- Page rendering, form state and the store selector's own fetch are not modelled. Only the logic named in the model is.
- Kpis.Counters: states the unfiltered store count and bounds. The exact restricted counts are what the function computes; the lemma about them is `Kpis.CountersWithoutStore`.
- Kpis.TimeSeries: states only the number of labels and counts. The labels are stated by `Kpis.TimeLabels` and the counts by `Kpis.BucketCountsCount` and `Kpis.SeriesPartition`.
- Kpis.StampTimes: states only one stamp per peak. What the stamps are is `Kpis.StampTimesSpec`.
- DevicesPage.Kpis: states bounds and positivity. The exact complements are `DevicesPage.KpisSplit` and `DevicesPage.KpisFull`.
- Navbar.Visible: states only a bound. The meaning is in `Navbar.VisibleSpec`.
- Records.FreshId: a new id is one more than the largest in the table, standing in for the database's autoincrement sequence.

=== FILE: access_route.dfy ===
/**
  `GET /api/access`: the accesses of the last 24 hours, newest first,
  optionally for one store.
 */
module AccessRoute {
  import opened Wrappers
  import opened Js
  import opened Text
  import opened Sorting
  import opened Records
  import opened Http
  import Clock

  const DayMs: int := 24 * 3600 * 1000

  const ListError := "Erro ao listar acessos"

  /** The message of the error thrown for a store id that is not a number. */
  const BadStore := "ID da loja inválido"

  /** The customer columns joined onto an access, when it has a customer. */
  datatype CustomerRef = CustomerRef(name: string, imageUrl: string)

  /** An access as listed: the selected columns and the joined customer. */
  datatype AccessRow = AccessRow(
    id: int, storeId: int, deviceId: int, capturedImageUrl: string, createdAt: int,
    customer: Option<CustomerRef>)

  /** The response body: the rows, how many there are, and the window start as an ISO string. */
  datatype AccessList = AccessList(accesses: seq<AccessRow>, count: nat, since: string)

  /** The start of the window: exactly one day before the request. */
  function Since(now: int): (t: int)
    ensures now - t == 86400000
  {
    now - DayMs
  }

  /** The `where` of the query: recent enough, and at the given store if one is given. */
  function Recent(since: int, store: Option<int>): Access -> bool {
    (a: Access) => a.createdAt >= since && (store.None? || a.storeId == store.value)
  }

  function CreatedAt(a: Access): int {
    a.createdAt
  }

  /** The accesses the query returns, newest first. */
  function Selection(accesses: seq<Access>, since: int, store: Option<int>): seq<Access> {
    NewestFirst(Filter(accesses, Recent(since, store)), CreatedAt)
  }

  function View(customers: seq<Customer>, a: Access): AccessRow {
    var c := if a.customerId.None? then None else Find(customers, (c: Customer) => c.id == a.customerId.value);
    AccessRow(a.id, a.storeId, a.deviceId, a.capturedImageUrl, a.createdAt,
              if c.None? then None else Some(CustomerRef(c.value.name, c.value.imageUrl)))
  }

  function Views(customers: seq<Customer>, s: seq<Access>): (r: seq<AccessRow>)
    ensures |r| == |s|
    ensures forall i :: 0 <= i < |s| ==> r[i] == View(customers, s[i])
  {
    seq(|s|, i requires 0 <= i < |s| => View(customers, s[i]))
  }

  function List(storeId: Option<string>, db: Db, io: Io, now: int): (r: Reply<AccessList>)
    ensures NumberParam(storeId) == Some(NaN) ==> r == Fail(500, ListError, Message(BadStore))
    ensures r.Ok? <==> NumberParam(storeId) != Some(NaN) && io.Up?
    ensures r.Fail? ==> r.status == 500 && r.error == ListError
    ensures r.Ok? ==> r.body.count == |r.body.accesses|
  {
    var store := NumberParam(storeId);
    if store == Some(NaN) then Fail(500, ListError, Message(BadStore))
    else if io.Down? then Fail(500, ListError, Message(io.message))
    else
      var rows := Views(db.customers, Selection(db.accesses, Since(now), if store.None? then None else Some(store.value.value)));
      Ok(AccessList(rows, |rows|, Clock.IsoString(Since(now))))
  }

  /**
    The selection is exactly the accesses since the window start at the
    given store (any store when none is given), each once, newest first.
   */
  lemma SelectionSpec(accesses: seq<Access>, since: int, store: Option<int>)
    ensures var sel := Selection(accesses, since, store);
            && multiset(sel) == multiset(Filter(accesses, Recent(since, store)))
            && (forall i, j :: 0 <= i < j < |sel| ==> sel[i].createdAt >= sel[j].createdAt)
            && (forall i :: 0 <= i < |sel| ==> sel[i].createdAt >= since)
            && (forall i :: 0 <= i < |sel| && store.Some? ==> sel[i].storeId == store.value)
  {
    NewestFirstFilter(accesses, Recent(since, store), CreatedAt);
  }

  /** The listed rows are the selection of the last day at the requested store, with their customers. */
  lemma ListRows(storeId: Option<string>, db: Db, now: int)
    requires NumberParam(storeId) != Some(NaN)
    ensures var store := if NumberParam(storeId).None? then None else Some(NumberParam(storeId).value.value);
            List(storeId, db, Up, now).body.accesses == Views(db.customers, Selection(db.accesses, now - 86400000, store))
  {
  }

  /**
    A row carries the name and image of its access's customer when that
    customer exists, and no customer when the access has none.
   */
  lemma ViewCustomer(customers: seq<Customer>, a: Access)
    ensures a.customerId.None? ==> View(customers, a).customer.None?
    ensures (exists c :: c in customers && Some(c.id) == a.customerId) ==> View(customers, a).customer.Some?
    ensures View(customers, a).customer.Some? ==>
              exists c :: c in customers && Some(c.id) == a.customerId
                       && View(customers, a).customer.value == CustomerRef(c.name, c.imageUrl)
  {
    if a.customerId.Some? {
      var p := (c: Customer) => c.id == a.customerId.value;
      var found := Find(customers, p);
      forall c | c in customers && Some(c.id) == a.customerId
        ensures found.Some?
      {
        var j :| 0 <= j < |customers| && customers[j] == c;
        assert p(customers[j]);
      }
    }
  }

  /** An absent or empty `storeId` places no store restriction: only the time window applies. */
  lemma NoStoreNoRestriction(db: Db, now: int)
    ensures List(None, db, Up, now) == List(Some(""), db, Up, now)
    ensures List(None, db, Up, now).body.accesses ==
              Views(db.customers, NewestFirst(Filter(db.accesses, (a: Access) => a.createdAt >= now - 86400000), CreatedAt))
  {
    assert NumberParam(None) == None && NumberParam(Some("")) == None;
    var p := (a: Access) => a.createdAt >= now - 86400000;
    FilterSame(db.accesses, Recent(now - 86400000, None), p);
    assert Selection(db.accesses, Since(now), None) == NewestFirst(Filter(db.accesses, p), CreatedAt);
  }
}

=== FILE: auth.dfy ===
/**
  Request authentication: the `Authorization: Bearer <token>` header
  (section 2.1 of RFC 6750, with the scheme name matched case-sensitively),
  token verification, the user lookup, and the two wrappers that answer 401
  or 403 before a handler runs. Token verification is a parameter: a token
  either decodes to its claims or is rejected.
 */
module Auth {
  import opened Wrappers
  import opened Text
  import opened Records
  import opened Http

  const Prefix := "Bearer "

  /** The claims a valid token carries. */
  datatype Claims = Claims(userId: int, role: string)

  /** The authenticated user and the token that authenticated it. */
  datatype Session = Session(user: UserData, token: string)

  /** The token of an `Authorization` header, if it is a bearer header. */
  function BearerToken(header: Option<string>): (t: Option<string>)
    ensures t.Some? <==> header.Some? && StartsWith(header.value, Prefix)
    ensures t.Some? ==> header.value == Prefix + t.value
  {
    if header.None? || header.value == "" || !StartsWith(header.value, Prefix) then None
    else
      assert header.value == header.value[..7] + header.value[7..];
      Some(header.value[7..])
  }

  /** Any token sent with the bearer prefix is read back exactly. */
  lemma BearerRoundTrip(token: string)
    ensures BearerToken(Some(Prefix + token)) == Some(token)
  {
    assert (Prefix + token)[..7] == Prefix;
    assert (Prefix + token)[7..] == token;
  }

  /** The scheme name is matched as written: a lower-case `bearer` is no bearer header. */
  lemma SchemeIsCaseSensitive(token: string)
    ensures BearerToken(Some("bearer " + token)).None?
  {
    assert ("bearer " + token)[0] == 'b';
  }

  /**
    `authenticateUser`: the bearer token, its verification, and the user its
    claims name, without the password.
   */
  function Authenticate(header: Option<string>, verify: string -> Option<Claims>, users: seq<User>): (r: Option<Session>)
  {
    var token := BearerToken(header);
    if token.None? then None
    else
      var claims := verify(token.value);
      if claims.None? then None
      else
        var user := Find(users, (u: User) => u.id == claims.value.userId);
        if user.None? then None else Some(Session(Profile(user.value), token.value))
  }

  /**
    A request is authenticated exactly when it has a bearer token that
    verifies and whose user exists; it then carries that user's profile and
    the header's token.
   */
  lemma AuthenticateSpec(header: Option<string>, verify: string -> Option<Claims>, users: seq<User>)
    ensures Authenticate(header, verify, users).Some? <==>
              && BearerToken(header).Some?
              && verify(BearerToken(header).value).Some?
              && exists u :: u in users && u.id == verify(BearerToken(header).value).value.userId
    ensures Authenticate(header, verify, users).Some? ==>
              var s := Authenticate(header, verify, users).value;
              && header.value == Prefix + s.token
              && exists u :: u in users && u.id == verify(s.token).value.userId && s.user == Profile(u)
  {
    var token := BearerToken(header);
    if token.Some? && verify(token.value).Some? {
      var id := verify(token.value).value.userId;
      var p := (u: User) => u.id == id;
      forall u | u in users && u.id == id
        ensures Find(users, p).Some?
      {
        var j :| 0 <= j < |users| && users[j] == u;
        assert p(users[j]);
      }
    }
  }

  // ---------------------------------------------------------------------
  // Guards

  const Unauthorized := "Unauthorized"

  const Forbidden := "Forbidden"

  /** `requireAuth(handler)`: 401 unless authenticated, otherwise the handler's answer. */
  function RequireAuth<T>(handler: Session -> Reply<T>, header: Option<string>,
                          verify: string -> Option<Claims>, users: seq<User>): (r: Reply<T>)
    ensures Authenticate(header, verify, users).None? ==> r == Fail(401, Unauthorized, NoDetails)
    ensures Authenticate(header, verify, users).Some? ==> r == handler(Authenticate(header, verify, users).value)
  {
    var auth := Authenticate(header, verify, users);
    if auth.None? then Fail(401, Unauthorized, NoDetails) else handler(auth.value)
  }

  /** `requireRole(allowedRoles)(handler)`: 401 unless authenticated, 403 unless the role is allowed. */
  function RequireRole<T>(allowed: seq<string>, handler: Session -> Reply<T>, header: Option<string>,
                          verify: string -> Option<Claims>, users: seq<User>): (r: Reply<T>)
    ensures Authenticate(header, verify, users).None? ==> r == Fail(401, Unauthorized, NoDetails)
    ensures Authenticate(header, verify, users).Some? && Authenticate(header, verify, users).value.user.role !in allowed ==>
              r == Fail(403, Forbidden, NoDetails)
    ensures Authenticate(header, verify, users).Some? && Authenticate(header, verify, users).value.user.role in allowed ==>
              r == handler(Authenticate(header, verify, users).value)
  {
    var auth := Authenticate(header, verify, users);
    if auth.None? then Fail(401, Unauthorized, NoDetails)
    else if auth.value.user.role !in allowed then Fail(403, Forbidden, NoDetails)
    else handler(auth.value)
  }

  /**
    A refused request never reaches the handler: whatever the handler would
    answer, the guards answer the same.
   */
  lemma RefusalIgnoresHandler<T>(allowed: seq<string>, h1: Session -> Reply<T>, h2: Session -> Reply<T>,
                                 header: Option<string>, verify: string -> Option<Claims>, users: seq<User>)
    ensures Authenticate(header, verify, users).None? ==>
              RequireAuth(h1, header, verify, users) == RequireAuth(h2, header, verify, users)
    ensures (Authenticate(header, verify, users).None? || Authenticate(header, verify, users).value.user.role !in allowed) ==>
              RequireRole(allowed, h1, header, verify, users) == RequireRole(allowed, h2, header, verify, users)
  {
  }

  /**
    The role check is the stored user's role, not the token's claim: a user
    whose role is allowed passes however the token was issued.
   */
  lemma RoleComesFromUser<T>(allowed: seq<string>, handler: Session -> Reply<T>, token: string,
                             verify: string -> Option<Claims>, users: seq<User>, u: User)
    requires verify(token).Some? && u in users && u.id == verify(token).value.userId
    requires forall v :: v in users && v.id == u.id ==> v == u
    requires u.role in allowed
    ensures RequireRole(allowed, handler, Some(Prefix + token), verify, users) ==
              handler(Session(Profile(u), token))
  {
    BearerRoundTrip(token);
    AuthenticateSpec(Some(Prefix + token), verify, users);
  }
}

=== FILE: cache.dfy ===
/**
  The in-memory cache the dashboard routes share: a map from string keys to
  the stored data and the instant it was stored, with one instance-wide time
  to live of 10 000 ms and lazy eviction (an expired entry is removed by the
  `get` that finds it). The clock is a parameter: `now` is `Date.now()` at
  the call.
 */
module TtlCache {
  import opened Wrappers

  /** The instance-wide time to live, in milliseconds. */
  const Ttl: int := 10000

  datatype Entry<V> = Entry(data: V, timestamp: int)

  datatype Cache<V> = Cache(entries: map<string, Entry<V>>)

  /** A fresh cache holds nothing. */
  function Empty<V>(): (c: Cache<V>)
    ensures forall k :: k !in c.entries
  {
    Cache(map[])
  }

  /**
    `cache.set(key, data, ttl)`: stores `data` stamped with the current
    clock, replacing any entry of `key`. The `ttl` argument is accepted and
    ignored.
   */
  function Set<V>(c: Cache<V>, key: string, data: V, ttl: Option<int>, now: int): (r: Cache<V>)
    ensures key in r.entries && r.entries[key] == Entry(data, now)
    ensures forall k :: k != key ==> (k in r.entries <==> k in c.entries)
    ensures forall k :: k != key && k in c.entries ==> r.entries[k] == c.entries[k]
  {
    Cache(c.entries[key := Entry(data, now)])
  }

  /** An entry stored at `timestamp` has expired at `now` when strictly more than `Ttl` ms have passed. */
  predicate Expired<V>(e: Entry<V>, now: int) {
    now - e.timestamp > Ttl
  }

  /**
    `cache.get(key)`: the stored data when there is an entry that has not
    expired; otherwise nothing, and an expired entry is deleted. The first
    component is the cache after the call.
   */
  function Get<V>(c: Cache<V>, key: string, now: int): (r: (Cache<V>, Option<V>))
    ensures r.1.Some? <==> key in c.entries && !Expired(c.entries[key], now)
    ensures r.1.Some? ==> r.1.value == c.entries[key].data && r.0 == c
    ensures key !in c.entries ==> r.0 == c
    ensures key in c.entries && Expired(c.entries[key], now) ==> r.0.entries == c.entries - {key}
  {
    if key !in c.entries then (c, None)
    else if Expired(c.entries[key], now) then (Cache(c.entries - {key}), None)
    else (c, Some(c.entries[key].data))
  }

  /** `cache.invalidate(key)`: removes the entry of `key` and nothing else. */
  function Invalidate<V>(c: Cache<V>, key: string): (r: Cache<V>)
    ensures key !in r.entries
    ensures forall k :: k != key ==> (k in r.entries <==> k in c.entries)
    ensures forall k :: k != key && k in c.entries ==> r.entries[k] == c.entries[k]
  {
    Cache(c.entries - {key})
  }

  /** `cache.clear()`: removes every entry. */
  function Clear<V>(c: Cache<V>): (r: Cache<V>)
    ensures forall k :: k !in r.entries
  {
    Cache(map[])
  }

  // ---------------------------------------------------------------------
  // Properties of single operations

  /** A `get` within `Ttl` ms of the `set` of its key returns the data that `set` stored. */
  lemma GetWithinTtl<V>(c: Cache<V>, key: string, data: V, ttl: Option<int>, stored: int, now: int)
    requires now - stored <= Ttl
    ensures Get(Set(c, key, data, ttl, stored), key, now) == (Set(c, key, data, ttl, stored), Some(data))
  {
  }

  /** Expiry is strict: at exactly `Ttl` ms the entry is still served, one millisecond later it is not. */
  lemma ExpiryIsStrict<V>(c: Cache<V>, key: string, data: V, ttl: Option<int>, stored: int)
    ensures Get(Set(c, key, data, ttl, stored), key, stored + Ttl).1 == Some(data)
    ensures Get(Set(c, key, data, ttl, stored), key, stored + Ttl + 1).1 == None
  {
  }

  /** A `get` that finds an expired entry deletes it, so every later `get` of that key finds nothing. */
  lemma ExpiredStaysGone<V>(c: Cache<V>, key: string, now: int, later: int)
    requires key in c.entries && Expired(c.entries[key], now)
    ensures Get(c, key, now).1 == None
    ensures key !in Get(c, key, now).0.entries
    ensures Get(Get(c, key, now).0, key, later).1 == None
  {
  }

  /** A second `set` of a key overwrites the first: the data and the timestamp are the new ones. */
  lemma SetOverwrites<V>(c: Cache<V>, key: string, a: V, b: V, ta: Option<int>, tb: Option<int>, t1: int, t2: int)
    ensures Set(Set(c, key, a, ta, t1), key, b, tb, t2) == Set(c, key, b, tb, t2)
  {
  }

  /** The `ttl` argument of `set` makes no difference to the cache. */
  lemma SetIgnoresTtl<V>(c: Cache<V>, key: string, data: V, t1: Option<int>, t2: Option<int>, now: int)
    ensures Set(c, key, data, t1, now) == Set(c, key, data, t2, now)
  {
  }

  /** `get` of a key that was never set, in a fresh cache, finds nothing and changes nothing. */
  lemma GetNeverSet<V>(key: string, now: int)
    ensures Get(Empty<V>(), key, now) == (Empty<V>(), None)
  {
  }

  /** After `clear`, every `get` finds nothing. */
  lemma GetAfterClear<V>(c: Cache<V>, key: string, now: int)
    ensures Get(Clear(c), key, now).1 == None
  {
  }

  /** `invalidate(k)` leaves the answers of `get` for every other key as they were. */
  lemma InvalidateKeepsOthers<V>(c: Cache<V>, k: string, key: string, now: int)
    requires key != k
    ensures Get(Invalidate(c, k), key, now).1 == Get(c, key, now).1
  {
  }

  // ---------------------------------------------------------------------
  // Histories

  /** A call on the cache; `at` is the clock reading of the calls that read it. */
  datatype Op<V> =
    | SetOp(key: string, data: V, ttl: Option<int>, at: int)
    | GetOp(key: string, at: int)
    | InvalidateOp(key: string)
    | ClearOp

  /** The clock readings of a history are all at most `now`. */
  predicate NotAfter<V>(ops: seq<Op<V>>, now: int) {
    forall i :: 0 <= i < |ops| && (ops[i].SetOp? || ops[i].GetOp?) ==> ops[i].at <= now
  }

  /** The cache after a history of calls, starting from a fresh one. */
  function Run<V>(ops: seq<Op<V>>): Cache<V> {
    if ops == [] then Empty()
    else
      var c := Run(ops[..|ops| - 1]);
      match ops[|ops| - 1]
      case SetOp(k, d, t, at) => Set(c, k, d, t, at)
      case GetOp(k, at) => Get(c, k, at).0
      case InvalidateOp(k) => Invalidate(c, k)
      case ClearOp => Clear(c)
  }

  /**
    The reference reading of a history: the entry of the last `set` of `key`
    not followed by an `invalidate` of `key` or a `clear`.
   */
  function LastSet<V>(ops: seq<Op<V>>, key: string): Option<Entry<V>> {
    if ops == [] then None
    else
      match ops[|ops| - 1]
      case SetOp(k, d, _, at) => if k == key then Some(Entry(d, at)) else LastSet(ops[..|ops| - 1], key)
      case GetOp(_, _) => LastSet(ops[..|ops| - 1], key)
      case InvalidateOp(k) => if k == key then None else LastSet(ops[..|ops| - 1], key)
      case ClearOp => None
  }

  /**
    What `Run` keeps is the last `set`, and what lazy eviction dropped had
    expired already at any instant not before the history.
   */
  ghost predicate Agrees<V>(c: Cache<V>, ops: seq<Op<V>>, now: int) {
    forall key ::
      && (key in c.entries ==> LastSet(ops, key) == Some(c.entries[key]))
      && (key !in c.entries && LastSet(ops, key).Some? ==> Expired(LastSet(ops, key).value, now))
  }

  lemma {:induction false} RunAgrees<V>(ops: seq<Op<V>>, now: int)
    requires NotAfter(ops, now)
    ensures Agrees(Run(ops), ops, now)
  {
    if ops != [] {
      var p := ops[..|ops| - 1];
      assert NotAfter(p, now) by {
        forall i | 0 <= i < |p| && (p[i].SetOp? || p[i].GetOp?) ensures p[i].at <= now {
          assert p[i] == ops[i];
        }
      }
      RunAgrees(p, now);
      var last := ops[|ops| - 1];
      if last.GetOp? {
        assert last.at <= now;
      }
    }
  }

  /**
    Under a clock that reads at most `now` during the history, `get(key)` at
    `now` returns the data of the last `set` of `key` not undone by an
    `invalidate` or `clear`, provided it is at most `Ttl` ms old, and
    nothing otherwise.
   */
  lemma GetAfterHistory<V>(ops: seq<Op<V>>, key: string, now: int)
    requires NotAfter(ops, now)
    ensures Get(Run(ops), key, now).1 ==
              match LastSet(ops, key)
              case None => None
              case Some(e) => if Expired(e, now) then None else Some(e.data)
  {
    RunAgrees(ops, now);
  }
}

=== FILE: charts.dfy ===
/**
  The chart helpers both KPI routes share: `processChartData`, which orders
  peak-hour points by the number before the first `:` of their `createdAt`
  and splits them into labels and a series, and the hour labels the charts
  print.
 */
module Charts {
  import opened Js
  import opened Text
  import opened Sorting
  import opened Records

  /** A peak-hour point `{ createdAt, _count }`. */
  datatype ChartPoint = ChartPoint(createdAt: string, count: nat)

  datatype Chart = Chart(labels: seq<string>, series: seq<nat>)

  /** `parseInt(p.createdAt.split(':')[0])`. */
  function ChartKey(p: ChartPoint): JsNum {
    ParseInt(FirstField(p.createdAt, ':'))
  }

  /**
    The comparator `(a, b) => hourA - hourB` is negative: both keys are
    numbers and the first is smaller (a NaN difference counts as equal).
   */
  predicate EarlierKey(a: ChartPoint, b: ChartPoint) {
    ChartKey(a).Int? && ChartKey(b).Int? && ChartKey(a).value < ChartKey(b).value
  }

  /** The points in the order `processChartData` sorts them. */
  function ChartOrder(data: seq<ChartPoint>): (q: seq<ChartPoint>)
    ensures multiset(q) == multiset(data)
  {
    SortBy(data, EarlierKey)
  }

  /** `processChartData(data)`: labels `createdAt + 'h'` and the counts, in chart order. */
  function ProcessChartData(data: seq<ChartPoint>): (c: Chart)
    ensures |c.labels| == |data| && |c.series| == |data|
    ensures forall i :: 0 <= i < |data| ==>
              c.labels[i] == ChartOrder(data)[i].createdAt + "h" && c.series[i] == ChartOrder(data)[i].count
  {
    var q := ChartOrder(data);
    Chart(seq(|q|, i requires 0 <= i < |q| => q[i].createdAt + "h"),
          seq(|q|, i requires 0 <= i < |q| => q[i].count))
  }

  /** The key of a point whose `createdAt` parses; 0 for the others. */
  function KeyValue(p: ChartPoint): int {
    if ChartKey(p).Int? then ChartKey(p).value else 0
  }

  /** When every key parses, the chart order is ascending by key. */
  lemma ChartOrderSorted(data: seq<ChartPoint>)
    requires forall i :: 0 <= i < |data| ==> ChartKey(data[i]).Int?
    ensures forall i, j :: 0 <= i < j < |data| ==> KeyValue(ChartOrder(data)[i]) <= KeyValue(ChartOrder(data)[j])
  {
    forall a, b | a in data && b in data ensures EarlierKey(a, b) <==> KeyValue(a) < KeyValue(b) {
    }
    assert OrdersByKey(data, EarlierKey, KeyValue);
    SortBySorted(data, EarlierKey, KeyValue);
  }

  /**
    When every key parses, the sort is stable: the points that share an
    hour keep their input order.
   */
  lemma ChartOrderStable(data: seq<ChartPoint>, h: int)
    requires forall i :: 0 <= i < |data| ==> ChartKey(data[i]).Int?
    ensures Filter(ChartOrder(data), KeyIs(KeyValue, h)) == Filter(data, KeyIs(KeyValue, h))
  {
    forall a, b | a in data && b in data ensures EarlierKey(a, b) <==> KeyValue(a) < KeyValue(b) {
    }
    SortByStable(data, EarlierKey, KeyValue, h);
  }

  /**
    Points that all carry the same key (or all fail to parse) are never
    swapped: the chart keeps them in the order the route built them.
   */
  lemma ChartOrderSameKey(data: seq<ChartPoint>)
    requires forall i, j :: 0 <= i < |data| && 0 <= j < |data| ==> ChartKey(data[i]) == ChartKey(data[j])
    ensures ChartOrder(data) == data
  {
    var flat := (p: ChartPoint) => 0;
    forall a, b | a in data && b in data ensures !EarlierKey(a, b) {
      var i :| 0 <= i < |data| && data[i] == a;
      var j :| 0 <= j < |data| && data[j] == b;
    }
    assert OrdersByKey(data, EarlierKey, flat);
    SortByStable(data, EarlierKey, flat, 0);
    FilterAll(ChartOrder(data), KeyIs(flat, 0));
    FilterAll(data, KeyIs(flat, 0));
  }

  // ---------------------------------------------------------------------
  // Hour labels

  /** `` `${hour}:00` `` */
  function HourMark(h: int): string {
    IntToString(h) + ":00"
  }

  /** `String(h).padStart(2, '0') + ':00'` */
  function HourLabel(h: nat): string {
    PadNat(h, 2) + ":00"
  }

  /** The key `processChartData` reads from an `` `${hour}:00` `` point is the hour. */
  lemma HourMarkKey(h: int, count: nat)
    ensures ChartKey(ChartPoint(HourMark(h), count)) == Int(h)
  {
    var s := IntToString(h);
    assert ':' !in s by {
      if h < 0 {
        assert s == "-" + NatToString(-h);
      }
    }
    FirstFieldAfter(s, ":00", ':');
    assert FirstField(":00", ':') == [];
    assert s + [] == s;
    ParseIntOfIntString(h);
  }

  /** An hour label is the hour in exactly two digits followed by `:00`. */
  lemma HourLabelShape(h: nat)
    requires h < 24
    ensures |HourLabel(h)| == 5 && HourLabel(h)[2..] == ":00"
    ensures AllDigits(HourLabel(h)[..2]) && DigitsValue(HourLabel(h)[..2]) == h
  {
    PadTwoDigits(h);
    PadNatValue(h, 2);
    assert HourLabel(h)[..2] == PadNat(h, 2);
  }

  /** Hour labels of distinct hours differ. */
  lemma HourLabelInjective(a: nat, b: nat)
    requires HourLabel(a) == HourLabel(b)
    ensures a == b
  {
    var la := HourLabel(a);
    assert la[..|la| - 3] == PadNat(a, 2);
    assert la[..|la| - 3] == PadNat(b, 2);
    PadNatValue(a, 2);
    PadNatValue(b, 2);
  }
}

=== FILE: clock.dfy ===
/**
  Time as the routes see it: instants are integers of milliseconds since the
  Unix epoch (`Date.getTime()`); `getHours`/`setHours` read and write the
  wall clock of one fixed time zone, `offset` milliseconds east of UTC; and
  `toISOString` renders the UTC calendar date.
 */
module Clock {
  import opened Js
  import opened Text

  const MinuteMs: int := 60 * 1000
  const HourMs: int := 60 * MinuteMs
  const DayMs: int := 24 * HourMs

  lemma DivModUnique(x: int, d: int, q: int, r: int)
    requires 0 < d && 0 <= r < d && x == d * q + r
    ensures x / d == q && x % d == r
  {
    var k := q - x / d;
    assert d * k == x % d - r;
    if k > 0 {
      MulAtLeast(d, k);
    } else if k < 0 {
      MulAtLeast(d, -k);
    }
  }

  lemma {:induction false} MulAtLeast(d: int, k: int)
    requires 0 < d && 1 <= k
    ensures d * k >= d
  {
    if k > 1 {
      MulAtLeast(d, k - 1);
      assert d * k == d * (k - 1) + d;
    }
  }

  /** `new Date(t).getHours()` in the zone `offset` ms east of UTC. */
  function LocalHour(t: int, offset: int): (h: int)
    ensures 0 <= h < 24
  {
    ((t + offset) / HourMs) % 24
  }

  /** The local calendar day of `t`, as a day count. */
  function LocalDay(t: int, offset: int): int {
    (t + offset) / DayMs
  }

  /** `d.setHours(h, 0, 0, 0)` on a date whose time is `t`: local hour `h` of the same local day. */
  function SetHours(t: int, offset: int, h: int): int {
    var local := t + offset;
    local - local % DayMs + h * HourMs - offset
  }

  lemma SetHoursParts(t: int, offset: int, h: int)
    requires 0 <= h < 24
    ensures LocalDay(SetHours(t, offset, h), offset) == LocalDay(t, offset)
    ensures LocalHour(SetHours(t, offset, h), offset) == h
  {
    var q := (t + offset) / DayMs;
    var local := SetHours(t, offset, h) + offset;
    assert local == DayMs * q + h * HourMs;
    DivModUnique(local, DayMs, q, h * HourMs);
    DivModUnique(local, HourMs, 24 * q + h, 0);
    DivModUnique(24 * q + h, 24, q, h);
  }

  /** Setting the hours twice is setting them once: the day is kept, the first hour is forgotten. */
  lemma SetHoursTwice(t: int, offset: int, a: int, b: int)
    requires 0 <= a < 24
    ensures SetHours(SetHours(t, offset, a), offset, b) == SetHours(t, offset, b)
  {
    var u := SetHours(t, offset, a);
    SetHoursParts(t, offset, a);
    var q := LocalDay(t, offset);
    assert (u + offset) - (u + offset) % DayMs == DayMs * q;
    assert (t + offset) - (t + offset) % DayMs == DayMs * q;
  }

  // ---------------------------------------------------------------------
  // The proleptic Gregorian calendar, for `toISOString`

  predicate IsLeap(y: int) {
    y % 4 == 0 && (y % 100 != 0 || y % 400 == 0)
  }

  function YearLength(y: int): int {
    if IsLeap(y) then 366 else 365
  }

  /**
    The year holding day `d`, where day 0 is 1 January of year `y`, and the
    index of that day within its year.
   */
  function YearAndDay(d: int, y: int): (r: (int, int))
    ensures 0 <= r.1 < YearLength(r.0)
    decreases if d < 0 then 366 - d else d
  {
    if d < 0 then YearAndDay(d + YearLength(y - 1), y - 1)
    else if d >= YearLength(y) then YearAndDay(d - YearLength(y), y + 1)
    else (y, d)
  }

  function MonthLength(y: int, m: int): int {
    if m == 2 then (if IsLeap(y) then 29 else 28)
    else if m == 4 || m == 6 || m == 9 || m == 11 then 30
    else 31
  }

  /** Month (1-12) and day of month (from 1) of day `doy` counted from the first of month `m`. */
  function MonthAndDay(doy: nat, y: int, m: int): (r: (int, int))
    requires 1 <= m <= 12
    ensures 1 <= r.0 <= 12 && 1 <= r.1
    decreases 12 - m
  {
    if m == 12 || doy < MonthLength(y, m) then (m, doy + 1)
    else MonthAndDay(doy - MonthLength(y, m), y, m + 1)
  }

  /** The UTC year of instant `t`. */
  function UtcYear(t: int): int {
    YearAndDay(t / DayMs, 1970).0
  }

  /** The year as `toISOString` writes it: four digits, or a sign and six digits outside 0..9999. */
  function YearField(y: int): string {
    if 0 <= y <= 9999 then PadNat(y, 4)
    else if y < 0 then "-" + PadNat(-y, 6)
    else "+" + PadNat(y, 6)
  }

  /** The part of the ISO string between the year and the minutes: `-MM-DDTHH`. */
  function MonthDayHour(t: int): string {
    var (y, doy) := YearAndDay(t / DayMs, 1970);
    var (month, day) := MonthAndDay(doy, y, 1);
    "-" + PadNat(month, 2) + "-" + PadNat(day, 2) + "T" + PadNat((t % DayMs) / HourMs, 2)
  }

  /** The part of the ISO string after the hour: `:mm:ss.sssZ`. */
  function MinutesOn(t: int): string {
    var ms := t % DayMs;
    ":" + PadNat((ms % HourMs) / MinuteMs, 2) + ":" + PadNat((ms % MinuteMs) / 1000, 2)
      + "." + PadNat(ms % 1000, 3) + "Z"
  }

  /** `new Date(t).toISOString()`: `YYYY-MM-DDTHH:mm:ss.sssZ` in UTC. */
  function IsoString(t: int): string {
    YearField(UtcYear(t)) + MonthDayHour(t) + MinutesOn(t)
  }

  lemma NoColonInDigits(s: string)
    requires AllDigits(s)
    ensures ':' !in s
  {
  }

  lemma NoColonBeforeMinutes(t: int)
    ensures ':' !in YearField(UtcYear(t)) + MonthDayHour(t)
  {
    var (y, doy) := YearAndDay(t / DayMs, 1970);
    var (month, day) := MonthAndDay(doy, y, 1);
    NoColonInDigits(PadNat(month, 2));
    NoColonInDigits(PadNat(day, 2));
    NoColonInDigits(PadNat((t % DayMs) / HourMs, 2));
    NoColonInDigits(PadNat(if y < 0 then -y else y, 4));
    NoColonInDigits(PadNat(if y < 0 then -y else y, 6));
  }

  /** `parseInt` reads a year field back, whatever follows it after a `-`. */
  lemma ParseYearField(y: int, tail: string)
    requires tail != [] && tail[0] == '-'
    ensures ParseInt(YearField(y) + tail) == Int(y)
  {
    if 0 <= y <= 9999 {
      ParseFourDigitYear(y, tail);
    } else if y < 0 {
      ParseNegativeYear(y, tail);
    } else {
      ParsePositiveYear(y, tail);
    }
  }

  lemma ParseFourDigitYear(y: int, tail: string)
    requires 0 <= y <= 9999
    requires tail != [] && tail[0] == '-'
    ensures ParseInt(YearField(y) + tail) == Int(y)
  {
    var digits := PadNat(y, 4);
    assert YearField(y) == digits;
    assert YearField(y) + tail == (if false then "-" else "") + digits + tail;
    PadNatValue(y, 4);
    assert SignedValue(false, digits) == y;
    ParseIntPrefix(false, digits, tail);
  }

  lemma ParseNegativeYear(y: int, tail: string)
    requires y < 0
    requires tail != [] && tail[0] == '-'
    ensures ParseInt(YearField(y) + tail) == Int(y)
  {
    var digits := PadNat(-y, 6);
    PadNatValue(-y, 6);
    ParseIntPrefix(true, digits, tail);
    assert "-" + digits + tail == YearField(y) + tail;
  }

  lemma ParsePositiveYear(y: int, tail: string)
    requires y > 9999
    requires tail != [] && tail[0] == '-'
    ensures ParseInt(YearField(y) + tail) == Int(y)
  {
    var digits := PadNat(y, 6);
    PadNatValue(y, 6);
    ParseIntPlusPrefix(digits, tail);
    assert "+" + digits + tail == YearField(y) + tail;
  }

  /**
    `parseInt(iso.split(':')[0])` of an ISO date string is its year: the split
    keeps `YYYY-MM-DDTHH`, and `parseInt` stops at the first `-`.
   */
  lemma IsoFirstFieldIsYear(t: int)
    ensures ParseInt(FirstField(IsoString(t), ':')) == Int(UtcYear(t))
  {
    var head := YearField(UtcYear(t)) + MonthDayHour(t);
    NoColonBeforeMinutes(t);
    FirstFieldAfter(head, MinutesOn(t), ':');
    assert FirstField(MinutesOn(t), ':') == [];
    assert FirstField(IsoString(t), ':') == head;
    ParseYearField(UtcYear(t), MonthDayHour(t));
  }
}

=== FILE: customers_route.dfy ===
/**
  `GET /api/customers` (one store's customers, newest first) and
  `POST /api/customers` (customer creation).
 */
module CustomersRoute {
  import opened Wrappers
  import opened Js
  import opened Text
  import opened Sorting
  import opened Records
  import opened Http
  import DevicesRoute

  const ListError := "Erro ao listar clientes"

  const Required := "storeId, name e imageUrl são obrigatórios"

  const CreateError := "Erro ao criar cliente"

  /** The statuses a customer may have. */
  const Statuses: set<string> := {"NEW", "ACTIVE", "VIP", "WARNING", "BLOCKED"}

  function CreatedAt(c: Customer): int {
    c.createdAt
  }

  function AtStore(id: int): Customer -> bool {
    (c: Customer) => c.storeId == id
  }

  /**
    The listing: nothing without a store id, and no query is made then;
    otherwise `parseInt` of it picks the store, and a NaN is refused by the
    database.
   */
  function List(storeId: Option<string>, db: Db, io: Io): (r: Reply<seq<Customer>>)
    ensures storeId.None? || storeId.value == "" ==> r == Ok([])
    ensures r.Fail? ==> r.status == 500 && r.error == ListError
  {
    if storeId.None? || storeId.value == "" then Ok([])
    else if io.Down? then Fail(500, ListError, Message(io.message))
    else match ParseInt(storeId.value)
      case NaN => Fail(500, ListError, RejectedArgument)
      case Int(id) => Ok(NewestFirst(Filter(db.customers, AtStore(id)), CreatedAt))
  }

  /** A numeric store id lists that store's customers, each once, newest first. */
  lemma ListSpec(storeId: string, db: Db, id: int)
    requires storeId != "" && ParseInt(storeId) == Int(id)
    ensures List(Some(storeId), db, Up).Ok?
    ensures var rows := List(Some(storeId), db, Up).body;
            && multiset(rows) == multiset(Filter(db.customers, AtStore(id)))
            && (forall i :: 0 <= i < |rows| ==> rows[i].storeId == id)
            && (forall i, j :: 0 <= i < j < |rows| ==> rows[i].createdAt >= rows[j].createdAt)
  {
    var f := Filter(db.customers, AtStore(id));
    NewestFirstFilter(db.customers, AtStore(id), CreatedAt);
    assert List(Some(storeId), db, Up) == Ok(NewestFirst(f, CreatedAt));
  }

  /** Without a store id the answer is an empty list whatever the state of the database. */
  lemma NoStoreNoQuery(db1: Db, db2: Db, io1: Io, io2: Io)
    ensures List(None, db1, io1) == List(None, db2, io2) == Ok([])
  {
  }

  // ---------------------------------------------------------------------
  // Creation

  datatype NewCustomer = NewCustomer(
    storeId: JsValue, name: Option<string>, email: Option<string>, phone: Option<string>,
    imageUrl: Option<string>, status: Option<string>)

  /** `status || 'NEW'`. */
  function StatusOf(s: Option<string>): string {
    if s.Some? && s.value != "" then s.value else "NEW"
  }

  predicate Present(s: Option<string>) {
    s.Some? && s.value != ""
  }

  /**
    Whether the database accepts the row: an integer store id naming a
    store and a known status.
   */
  predicate Accepts(b: NewCustomer, db: Db) {
    && b.storeId.Num? && b.storeId.num.Int?
    && DevicesRoute.StoreExists(db.stores, b.storeId.num.value)
    && StatusOf(b.status) in Statuses
  }

  /** The created customer together with its store (`include: { store: true }`). */
  datatype Created = Created(customer: Customer, store: Store)

  function Create(b: NewCustomer, db: Db, io: Io, now: int): (r: (Db, Reply<Created>))
    ensures r.1.Fail? ==> r.0 == db
    ensures !Truthy(b.storeId) || !Present(b.name) || !Present(b.imageUrl) ==> r.1 == Fail(400, Required, NoDetails)
    ensures r.1.Ok? <==> Truthy(b.storeId) && Present(b.name) && Present(b.imageUrl) && io.Up? && Accepts(b, db)
    ensures r.1.Fail? && r.1.status != 400 ==> r.1 == Fail(500, CreateError, NoDetails)
  {
    if !Truthy(b.storeId) || !Present(b.name) || !Present(b.imageUrl) then (db, Fail(400, Required, NoDetails))
    else if io.Down? || !Accepts(b, db) then (db, Fail(500, CreateError, NoDetails))
    else
      var storeId := b.storeId.num.value;
      var c := Customer(FreshId(Ids(db.customers, (c: Customer) => c.id)), storeId, b.name.value, b.email, b.phone,
                        b.imageUrl.value, StatusOf(b.status), now);
      var s := Find(db.stores, (s: Store) => s.id == storeId);
      (db.(customers := db.customers + [c]), Ok(Created(c, s.value)))
  }

  /**
    A creation adds exactly one customer, with a fresh id, the given fields,
    the given status or NEW, joined with the store it belongs to; no other
    table changes.
   */
  lemma CreateSpec(b: NewCustomer, db: Db, io: Io, now: int)
    requires Create(b, db, io, now).1.Ok?
    ensures var (db2, r) := Create(b, db, io, now);
            var c := r.body.customer;
            && db2 == db.(customers := db.customers + [c])
            && (forall i :: 0 <= i < |db.customers| ==> db.customers[i].id < c.id)
            && Num(Int(c.storeId)) == b.storeId
            && Some(c.name) == b.name && Some(c.imageUrl) == b.imageUrl
            && c.email == b.email && c.phone == b.phone
            && (b.status.None? ==> c.status == "NEW")
            && (Present(b.status) ==> c.status == b.status.value)
            && c.status in Statuses
            && r.body.store in db.stores && r.body.store.id == c.storeId
  {
    var storeId := b.storeId.num.value;
    var p := (s: Store) => s.id == storeId;
    var i :| 0 <= i < |db.stores| && db.stores[i].id == storeId;
    assert p(db.stores[i]);
  }
}

=== FILE: devices_page.dfy ===
/**
  The device management page: the three counters above the device list, the
  form that creates or edits a device, the request its submission sends and
  the status toggle. The page's own state (the selected store filter, the
  device being edited, the form fields) is passed in explicitly.
 */
module DevicesPage {
  import opened Wrappers
  import opened Js
  import opened Text
  import opened Records

  // ---------------------------------------------------------------------
  // Counters

  /** The counters shown above the list: all devices, active ones, unlinked ones. */
  datatype DeviceKpis = DeviceKpis(total: nat, ativos: nat, livres: nat)

  predicate IsActive(d: Device) {
    d.status == "ACTIVE"
  }

  /** `d.storeId == null`: a device linked to no store. */
  predicate IsFree(d: Device) {
    d.storeId.None?
  }

  function Kpis(devices: seq<Device>): (k: DeviceKpis)
    ensures k.total == |devices|
    ensures k.ativos <= k.total && k.livres <= k.total
    ensures forall i :: 0 <= i < |devices| && IsActive(devices[i]) ==> k.ativos >= 1
    ensures forall i :: 0 <= i < |devices| && IsFree(devices[i]) ==> k.livres >= 1
  {
    var active := Filter(devices, IsActive);
    var free := Filter(devices, IsFree);
    assert forall i :: 0 <= i < |devices| && IsActive(devices[i]) ==> devices[i] in active;
    assert forall i :: 0 <= i < |devices| && IsFree(devices[i]) ==> devices[i] in free;
    DeviceKpis(|devices|, |active|, |free|)
  }

  /**
    Every device is either active or not, and either free or linked: the
    active counter plus the inactive devices, and the free counter plus the
    linked devices, both make up the total.
   */
  lemma KpisSplit(devices: seq<Device>)
    ensures Kpis(devices).ativos + Count(devices, (d: Device) => !IsActive(d)) == Kpis(devices).total
    ensures Kpis(devices).livres + Count(devices, (d: Device) => d.storeId.Some?) == Kpis(devices).total
  {
    var any := (d: Device) => true;
    FilterAll(devices, any);
    CountSplit(devices, IsActive, (d: Device) => !IsActive(d), any);
    CountSplit(devices, IsFree, (d: Device) => d.storeId.Some?, any);
  }

  /** The counters reach the total exactly when every device is active, or every device is free. */
  lemma KpisFull(devices: seq<Device>)
    ensures Kpis(devices).ativos == Kpis(devices).total <==> forall i :: 0 <= i < |devices| ==> IsActive(devices[i])
    ensures Kpis(devices).livres == Kpis(devices).total <==> forall i :: 0 <= i < |devices| ==> IsFree(devices[i])
  {
    FilterFull(devices, IsActive);
    FilterFull(devices, IsFree);
  }

  // ---------------------------------------------------------------------
  // The device form

  /** The store filter above the list: every store, or one store's id. */
  datatype Selection = All | Selected(id: int)

  /** The form fields, all text; `storeId` is the text of the store selector. */
  datatype Form = Form(tag: string, doorName: string, serialNumber: string, storeId: string)

  /** The `storeId` search parameter the list is fetched with, if any. */
  function ListParameter(sel: Selection): (p: Option<string>)
    ensures p.None? <==> sel.All?
    ensures sel.Selected? ==> NumberOf(p.value) == Int(sel.id)
  {
    match sel
    case All => None
    case Selected(id) =>
      NumberOfIntString(id);
      Some(IntToString(id))
  }

  /** A blank form, pre-set to the selected store when there is one. */
  function OpenCreate(sel: Selection): (f: Form)
    ensures f.tag == "" && f.doorName == "" && f.serialNumber == ""
    ensures f.storeId == "" <==> sel.All?
  {
    Form("", "", "", if sel.All? then "" else IntToString(sel.id))
  }

  /** The form filled from a device; a null or zero store id shows as no store. */
  function OpenEdit(d: Device): (f: Form)
    ensures f.tag == d.tag && f.doorName == d.doorName && f.serialNumber == d.serialNumber
    ensures f.storeId == "" <==> d.storeId.None? || d.storeId.value == 0
  {
    Form(d.tag, d.doorName, d.serialNumber,
         if d.storeId.Some? && d.storeId.value != 0 then IntToString(d.storeId.value) else "")
  }

  /**
    The JSON body a submission sends; a `storeId` of None is `null`. A
    `Some(NaN)` would also be sent as `null` by `JSON.stringify`, but the
    store select only offers numeric ids, so the form never holds one.
   */
  datatype Body = Body(tag: string, doorName: string, serialNumber: string, storeId: Option<JsNum>)

  function SubmitBody(f: Form): (b: Body)
    ensures b.tag == f.tag && b.doorName == f.doorName && b.serialNumber == f.serialNumber
    ensures b.storeId.None? <==> f.storeId == ""
    ensures f.storeId != "" ==> b.storeId.value == NumberOf(f.storeId)
  {
    Body(f.tag, f.doorName, f.serialNumber, if f.storeId == "" then None else Some(NumberOf(f.storeId)))
  }

  datatype Method = Post | Put

  /** Where a submission goes: an update of the device being edited, or a creation. */
  datatype Request = Request(verb: Method, url: string, body: Body)

  function DeviceUrl(id: int): string {
    "/api/devices/" + IntToString(id)
  }

  function Submit(editing: Option<Device>, f: Form): (r: Request)
    ensures r.verb == Put <==> editing.Some?
    ensures editing.Some? ==> r.url == DeviceUrl(editing.value.id)
    ensures editing.None? ==> r.url == "/api/devices"
    ensures r.body == SubmitBody(f)
  {
    match editing
    case Some(d) => Request(Put, DeviceUrl(d.id), SubmitBody(f))
    case None => Request(Post, "/api/devices", SubmitBody(f))
  }

  /** Creating from a fresh form sends the selected store's id, or null for every store. */
  lemma CreateSendsSelection(sel: Selection)
    ensures Submit(None, OpenCreate(sel)).verb == Post
    ensures Submit(None, OpenCreate(sel)).body.storeId ==
              match sel case All => None case Selected(id) => Some(Int(id))
  {
    if sel.Selected? {
      NumberOfIntString(sel.id);
    }
  }

  /**
    Opening a device for editing and submitting the form unchanged sends back
    the fields it had, its store id included when that is null or non-zero,
    as an update of that device.
   */
  lemma EditRoundTrip(d: Device)
    requires d.storeId.None? || d.storeId.value != 0
    ensures Submit(Some(d), OpenEdit(d)).verb == Put
    ensures Submit(Some(d), OpenEdit(d)).url == DeviceUrl(d.id)
    ensures Submit(Some(d), OpenEdit(d)).body ==
              Body(d.tag, d.doorName, d.serialNumber,
                   match d.storeId case None => None case Some(id) => Some(Int(id)))
  {
    if d.storeId.Some? {
      NumberOfIntString(d.storeId.value);
    }
  }

  /** A device linked to store 0 is unlinked by an unchanged edit, since 0 is falsy. */
  lemma EditZeroStoreUnlinks(d: Device)
    requires d.storeId == Some(0)
    ensures Submit(Some(d), OpenEdit(d)).body.storeId.None?
  {
  }

  // ---------------------------------------------------------------------
  // Status toggle

  /** The status the toggle button sends: INACTIVE for an active device, ACTIVE otherwise. */
  function Toggle(status: string): (next: string)
    ensures next == "ACTIVE" || next == "INACTIVE"
    ensures next == "INACTIVE" <==> status == "ACTIVE"
  {
    if status == "ACTIVE" then "INACTIVE" else "ACTIVE"
  }

  /** Toggling twice restores either of the two statuses the page knows. */
  lemma ToggleTwice(status: string)
    requires status == "ACTIVE" || status == "INACTIVE"
    ensures Toggle(Toggle(status)) == status
  {
  }

  /** The status request for a device: a PUT to its status path. */
  datatype StatusRequest = StatusRequest(url: string, status: string)

  function ToggleRequest(d: Device): (r: StatusRequest)
    ensures r.url == DeviceUrl(d.id) + "/status"
    ensures r.status != d.status
  {
    StatusRequest(DeviceUrl(d.id) + "/status", Toggle(d.status))
  }
}

=== FILE: devices_route.dfy ===
/**
  `GET /api/devices` (the device list, optionally for one store or only the
  unlinked devices) and `POST /api/devices` (device creation).
 */
module DevicesRoute {
  import opened Wrappers
  import opened Js
  import opened Text
  import opened Sorting
  import opened Records
  import opened Http
  import DevicesPage

  const ListError := "Erro ao listar dispositivos"

  const CreateError := "Erro ao criar dispositivo"

  // ---------------------------------------------------------------------
  // Listing

  /** The `where` a listing runs with. */
  datatype DeviceWhere = Everything | Unlinked | AtStore(id: JsNum)

  /**
    A non-empty `storeId` asks for that store; `free=true` then overrides it
    with `storeId: null`; with neither there is no condition.
   */
  function WhereOf(storeId: Option<string>, free: Option<string>): DeviceWhere {
    var w := if storeId.Some? && storeId.value != "" then AtStore(NumberOf(storeId.value)) else Everything;
    if free == Some("true") then Unlinked else w
  }

  function Satisfies(w: DeviceWhere): Device -> bool
    requires w != AtStore(NaN)
  {
    match w
    case Everything => (d: Device) => true
    case Unlinked => (d: Device) => d.storeId.None?
    case AtStore(n) => (d: Device) => d.storeId == Some(n.value)
  }

  /** A device as listed: every column but the creation instant. */
  datatype DeviceRow = DeviceRow(
    id: int, tag: string, doorName: string, serialNumber: string, status: string, storeId: Option<int>)

  function Row(d: Device): DeviceRow {
    DeviceRow(d.id, d.tag, d.doorName, d.serialNumber, d.status, d.storeId)
  }

  function Rows(s: seq<Device>): (r: seq<DeviceRow>)
    ensures |r| == |s|
    ensures forall i :: 0 <= i < |s| ==> r[i] == Row(s[i])
  {
    seq(|s|, i requires 0 <= i < |s| => Row(s[i]))
  }

  function CreatedAt(d: Device): int {
    d.createdAt
  }

  /** The devices a condition selects, newest first. */
  function Selection(devices: seq<Device>, w: DeviceWhere): seq<Device>
    requires w != AtStore(NaN)
  {
    NewestFirst(Filter(devices, Satisfies(w)), CreatedAt)
  }

  /** The listing; a store id that is not a number makes the query, and so the request, fail. */
  function List(storeId: Option<string>, free: Option<string>, db: Db, io: Io): (r: Reply<seq<DeviceRow>>)
    ensures r.Ok? <==> WhereOf(storeId, free) != AtStore(NaN) && io.Up?
    ensures r.Fail? ==> r == Fail(500, ListError, NoDetails)
    ensures r.Ok? ==> |r.body| <= |db.devices|
  {
    var w := WhereOf(storeId, free);
    if w == AtStore(NaN) || io.Down? then Fail(500, ListError, NoDetails)
    else Ok(Rows(Selection(db.devices, w)))
  }

  /** The selected devices are those the condition accepts, each once, newest first. */
  lemma SelectionSpec(devices: seq<Device>, w: DeviceWhere)
    requires w != AtStore(NaN)
    ensures multiset(Selection(devices, w)) == multiset(Filter(devices, Satisfies(w)))
    ensures forall i, j :: 0 <= i < j < |Selection(devices, w)| ==>
              Selection(devices, w)[i].createdAt >= Selection(devices, w)[j].createdAt
  {
    NewestFirstSorted(Filter(devices, Satisfies(w)), CreatedAt);
  }

  /** `free=true` lists the unlinked devices whatever store id is also given. */
  lemma FreeOverridesStore(storeId: Option<string>, db: Db)
    ensures List(storeId, Some("true"), db, Up) == Ok(Rows(Selection(db.devices, Unlinked)))
    ensures forall d :: d in Filter(db.devices, Satisfies(Unlinked)) <==> d in db.devices && d.storeId.None?
  {
    var f := Filter(db.devices, Satisfies(Unlinked));
    forall d | d in db.devices && d.storeId.None?
      ensures d in f
    {
      var i :| 0 <= i < |db.devices| && db.devices[i] == d;
    }
  }

  /** With neither parameter every device is listed. */
  lemma NoParametersListsAll(db: Db)
    ensures List(None, None, db, Up) == Ok(Rows(NewestFirst(db.devices, CreatedAt)))
  {
    FilterAll(db.devices, Satisfies(Everything));
  }

  /**
    The list the devices page asks for holds, for a selected store, exactly
    that store's devices, and for every store, all devices.
   */
  lemma PageListsSelection(sel: DevicesPage.Selection, db: Db)
    ensures List(DevicesPage.ListParameter(sel), None, db, Up).Ok?
    ensures sel.Selected? ==>
              List(DevicesPage.ListParameter(sel), None, db, Up).body ==
              Rows(NewestFirst(Filter(db.devices, (d: Device) => d.storeId == Some(sel.id)), CreatedAt))
    ensures sel.All? ==> List(DevicesPage.ListParameter(sel), None, db, Up).body == Rows(NewestFirst(db.devices, CreatedAt))
  {
    match sel
    case All =>
      NoParametersListsAll(db);
    case Selected(id) =>
      var p := DevicesPage.ListParameter(sel);
      assert |p.value| >= 1;
      assert WhereOf(p, None) == AtStore(Int(id));
      FilterSame(db.devices, Satisfies(AtStore(Int(id))), (d: Device) => d.storeId == Some(id));
  }

  // ---------------------------------------------------------------------
  // Creation

  /** The fields of a creation request body. */
  datatype NewDevice = NewDevice(
    storeId: JsValue, tag: Option<string>, doorName: Option<string>,
    serialNumber: Option<string>, status: Option<string>)

  /** `storeId ?? null`: the store reference written, None for `null`, or nothing when it is no integer. */
  function StoreRef(v: JsValue): Option<Option<int>> {
    match v
    case Undefined => Some(None)
    case Null => Some(None)
    case Num(Int(n)) => Some(Some(n))
    case _ => None
  }

  /** `status || 'ACTIVE'`. */
  function StatusOf(s: Option<string>): string {
    if s.Some? && s.value != "" then s.value else "ACTIVE"
  }

  /** The serial numbers of the devices are pairwise different (the column is unique). */
  predicate UniqueSerials(devices: seq<Device>) {
    forall i, j :: 0 <= i < j < |devices| ==> devices[i].serialNumber != devices[j].serialNumber
  }

  predicate SerialUsed(devices: seq<Device>, serial: string) {
    exists i :: 0 <= i < |devices| && devices[i].serialNumber == serial
  }

  predicate StoreExists(stores: seq<Store>, id: int) {
    exists i :: 0 <= i < |stores| && stores[i].id == id
  }

  /**
    Whether the database accepts the row: a store reference that is an
    integer or null and names a store, the three text columns present, a
    known status and an unused serial number.
   */
  predicate Accepts(b: NewDevice, db: Db) {
    && StoreRef(b.storeId).Some?
    && (StoreRef(b.storeId).value.Some? ==> StoreExists(db.stores, StoreRef(b.storeId).value.value))
    && b.tag.Some? && b.doorName.Some? && b.serialNumber.Some?
    && StatusOf(b.status) in {"ACTIVE", "INACTIVE"}
    && !SerialUsed(db.devices, b.serialNumber.value)
  }

  /** The row a creation writes. */
  function Created(b: NewDevice, db: Db, now: int): Device
    requires Accepts(b, db)
  {
    Device(FreshId(Ids(db.devices, (d: Device) => d.id)), b.tag.value, b.doorName.value, b.serialNumber.value,
           StoreRef(b.storeId).value, StatusOf(b.status), now)
  }

  /** Device creation; any row the database refuses fails with 500 and writes nothing. */
  function Create(b: NewDevice, db: Db, io: Io, now: int): (r: (Db, Reply<Device>))
    ensures r.1.Ok? <==> io.Up? && Accepts(b, db)
    ensures r.1.Fail? ==> r.0 == db && r.1 == Fail(500, CreateError, NoDetails)
    ensures r.1.Ok? ==> r.0 == db.(devices := db.devices + [r.1.body])
    ensures r.1.Ok? ==> forall i :: 0 <= i < |db.devices| ==> db.devices[i].id < r.1.body.id
  {
    if io.Down? || !Accepts(b, db) then (db, Fail(500, CreateError, NoDetails))
    else
      var d := Created(b, db, now);
      (db.(devices := db.devices + [d]), Ok(d))
  }

  /** A device created without a store is unlinked, and one created without a status is active. */
  lemma CreateDefaults(b: NewDevice, db: Db, io: Io, now: int)
    requires Create(b, db, io, now).1.Ok?
    ensures b.storeId in {Undefined, Null} ==> Create(b, db, io, now).1.body.storeId.None?
    ensures b.status.None? ==> Create(b, db, io, now).1.body.status == "ACTIVE"
    ensures b.status.Some? && b.status.value != "" ==> Create(b, db, io, now).1.body.status == b.status.value
    ensures Create(b, db, io, now).1.body.serialNumber == b.serialNumber.value
  {
  }

  /** Creation keeps serial numbers unique. */
  lemma CreateKeepsSerialsUnique(b: NewDevice, db: Db, io: Io, now: int)
    requires UniqueSerials(db.devices)
    ensures UniqueSerials(Create(b, db, io, now).0.devices)
  {
    var r := Create(b, db, io, now);
    if r.1.Ok? {
      var ds := r.0.devices;
      forall i, j | 0 <= i < j < |ds|
        ensures ds[i].serialNumber != ds[j].serialNumber
      {
        if j == |db.devices| {
          assert ds[i] == db.devices[i];
          assert !SerialUsed(db.devices, b.serialNumber.value);
        } else {
          assert ds[i] == db.devices[i] && ds[j] == db.devices[j];
        }
      }
    }
  }
}

=== FILE: histogram.dfy ===
/**
  Counting occurrences, the way the routes build their histograms: a
  JavaScript `Map` filled with `map.set(k, (map.get(k) || 0) + 1)` and read
  back with `Array.from(map.entries())` (first-appearance order), and an
  object with small integer keys read back with `Object.entries` (ascending
  key order).
 */
module Histogram {
  import opened Sorting

  datatype Group<K> = Group(key: K, count: nat)

  /** The number of positions of `s` holding `k`. */
  function Occurrences<K(==)>(s: seq<K>, k: K): nat {
    if s == [] then 0 else Occurrences(s[..|s| - 1], k) + (if s[|s| - 1] == k then 1 else 0)
  }

  lemma OccurrencesSnoc<K>(s: seq<K>, x: K, k: K)
    ensures Occurrences(s + [x], k) == Occurrences(s, k) + (if x == k then 1 else 0)
  {
    assert (s + [x])[..|s|] == s;
  }

  lemma {:induction false} OccurrencesAbsent<K>(s: seq<K>, k: K)
    requires k !in s
    ensures Occurrences(s, k) == 0
  {
    if s != [] {
      assert forall x :: x in s[..|s| - 1] ==> x in s;
      OccurrencesAbsent(s[..|s| - 1], k);
    }
  }

  /**
    The first position of `k` in `s` (`s.indexOf(k)`), or `|s|` when `k`
    does not occur.
   */
  function FirstAt<K(==)>(s: seq<K>, k: K): (i: nat)
    ensures i <= |s|
    ensures i < |s| <==> k in s
    ensures i < |s| ==> s[i] == k
    ensures forall j :: 0 <= j < i ==> s[j] != k
  {
    if s == [] then 0
    else if s[0] == k then 0
    else 1 + FirstAt(s[1..], k)
  }

  /** A value already present in `s` is first found where it was before `x` was appended. */
  lemma FirstAtSnoc<K>(s: seq<K>, x: K, k: K)
    ensures k in s ==> FirstAt(s + [x], k) == FirstAt(s, k)
    ensures k !in s && k == x ==> FirstAt(s + [x], k) == |s|
  {
    var t := s + [x];
    if k in s {
      var i, j := FirstAt(t, k), FirstAt(s, k);
      assert t[j] == k;
    } else if k == x {
      assert t[|s|] == k;
      assert forall j :: 0 <= j < |s| ==> t[j] == s[j];
    }
  }

  /** The position in `s` where the key of a group first occurs. */
  function FirstSeen<K(==)>(s: seq<K>): Group<K> -> int {
    (g: Group<K>) => FirstAt(s, g.key)
  }

  /** The groups are listed in the order their keys first occur in `s` (a `Map`'s insertion order). */
  ghost predicate FirstAppearance<K>(gs: seq<Group<K>>, s: seq<K>) {
    forall i, j :: 0 <= i < j < |gs| ==> FirstAt(s, gs[i].key) < FirstAt(s, gs[j].key)
  }

  /** Some group of `gs` has key `k` (`map.has(k)`). */
  predicate HasKey<K(==)>(gs: seq<Group<K>>, k: K) {
    exists i :: 0 <= i < |gs| && gs[i].key == k
  }

  ghost predicate DistinctKeys<K>(gs: seq<Group<K>>) {
    forall i, j :: 0 <= i < j < |gs| ==> gs[i].key != gs[j].key
  }

  /** Each group counts exactly the occurrences of its key in `s`, and at least one. */
  ghost predicate CountsOf<K>(gs: seq<Group<K>>, s: seq<K>) {
    forall i :: 0 <= i < |gs| ==> gs[i].count == Occurrences(s, gs[i].key) >= 1
  }

  /** Every value of `s` has a group, and every group's key is a value of `s`. */
  ghost predicate KeysOf<K>(gs: seq<Group<K>>, s: seq<K>) {
    && (forall i :: 0 <= i < |s| ==> HasKey(gs, s[i]))
    && (forall i :: 0 <= i < |gs| ==> gs[i].key in s)
  }

  /** The sum of the counts. */
  function Total<K>(gs: seq<Group<K>>): nat {
    if gs == [] then 0 else Total(gs[..|gs| - 1]) + gs[|gs| - 1].count
  }

  lemma {:induction false} TotalUpdate<K>(gs: seq<Group<K>>, i: nat, g: Group<K>)
    requires i < |gs|
    ensures Total(gs[i := g]) + gs[i].count == Total(gs) + g.count
  {
    var n := |gs| - 1;
    if i < n {
      assert gs[i := g][..n] == gs[..n][i := g];
      TotalUpdate(gs[..n], i, g);
    } else {
      assert gs[i := g][..n] == gs[..n];
    }
  }

  /** The position of the group with key `k`, or -1 (`map.get(k)` finding nothing). */
  function IndexOf<K(==)>(gs: seq<Group<K>>, k: K): (i: int)
    ensures -1 <= i < |gs|
    ensures i >= 0 ==> gs[i].key == k
    ensures i < 0 ==> !HasKey(gs, k)
  {
    if gs == [] then -1
    else if gs[|gs| - 1].key == k then |gs| - 1
    else
      var i := IndexOf(gs[..|gs| - 1], k);
      assert forall j :: 0 <= j < |gs| - 1 ==> gs[..|gs| - 1][j] == gs[j];
      i
  }

  /** `map.set(k, (map.get(k) || 0) + 1)`: bump the group of `k`, or append a new one. */
  function Bump<K(==)>(gs: seq<Group<K>>, k: K): seq<Group<K>> {
    var i := IndexOf(gs, k);
    if i < 0 then gs + [Group(k, 1)] else gs[i := Group(k, gs[i].count + 1)]
  }

  lemma BumpUnfold<K>(gs: seq<Group<K>>, k: K)
    ensures IndexOf(gs, k) < 0 ==> Bump(gs, k) == gs + [Group(k, 1)]
    ensures IndexOf(gs, k) >= 0 ==> Bump(gs, k) == gs[IndexOf(gs, k) := Group(k, gs[IndexOf(gs, k)].count + 1)]
  {
  }

  lemma BumpTotal<K>(gs: seq<Group<K>>, k: K)
    ensures Total(Bump(gs, k)) == Total(gs) + 1
  {
    BumpUnfold(gs, k);
    var i := IndexOf(gs, k);
    if i < 0 {
      assert (gs + [Group(k, 1)])[..|gs|] == gs;
    } else {
      TotalUpdate(gs, i, Group(k, gs[i].count + 1));
    }
  }

  lemma BumpNew<K>(gs: seq<Group<K>>, s: seq<K>, k: K)
    requires DistinctKeys(gs) && CountsOf(gs, s) && KeysOf(gs, s)
    requires IndexOf(gs, k) < 0
    ensures DistinctKeys(Bump(gs, k)) && CountsOf(Bump(gs, k), s + [k]) && KeysOf(Bump(gs, k), s + [k])
  {
    BumpNewCounts(gs, s, k);
    BumpNewKeys(gs, s, k);
  }

  lemma BumpNewCounts<K>(gs: seq<Group<K>>, s: seq<K>, k: K)
    requires DistinctKeys(gs) && CountsOf(gs, s) && KeysOf(gs, s)
    requires IndexOf(gs, k) < 0
    ensures DistinctKeys(Bump(gs, k)) && CountsOf(Bump(gs, k), s + [k])
  {
    var r := gs + [Group(k, 1)];
    var t := s + [k];
    BumpUnfold(gs, k);
    assert k !in s;
    OccurrencesAbsent(s, k);
    OccurrencesSnoc(s, k, k);
    forall j | 0 <= j < |gs| ensures r[j].count == Occurrences(t, r[j].key) >= 1 {
      OccurrencesSnoc(s, k, gs[j].key);
    }
  }

  lemma BumpNewKeys<K>(gs: seq<Group<K>>, s: seq<K>, k: K)
    requires KeysOf(gs, s)
    requires IndexOf(gs, k) < 0
    ensures KeysOf(Bump(gs, k), s + [k])
  {
    var r := gs + [Group(k, 1)];
    var t := s + [k];
    BumpUnfold(gs, k);
    forall j | 0 <= j < |t| ensures HasKey(r, t[j]) {
      if j < |s| {
        var m :| 0 <= m < |gs| && gs[m].key == s[j];
        assert r[m].key == t[j];
      } else {
        assert r[|gs|].key == t[j];
      }
    }
    assert forall x :: x in s ==> x in t;
  }

  lemma BumpOld<K>(gs: seq<Group<K>>, s: seq<K>, k: K)
    requires DistinctKeys(gs) && CountsOf(gs, s) && KeysOf(gs, s)
    requires IndexOf(gs, k) >= 0
    ensures DistinctKeys(Bump(gs, k)) && CountsOf(Bump(gs, k), s + [k]) && KeysOf(Bump(gs, k), s + [k])
  {
    BumpOldCounts(gs, s, k);
    BumpOldKeys(gs, s, k);
  }

  lemma BumpOldCounts<K>(gs: seq<Group<K>>, s: seq<K>, k: K)
    requires DistinctKeys(gs) && CountsOf(gs, s)
    requires IndexOf(gs, k) >= 0
    ensures DistinctKeys(Bump(gs, k)) && CountsOf(Bump(gs, k), s + [k])
  {
    var i := IndexOf(gs, k);
    var r := gs[i := Group(k, gs[i].count + 1)];
    var t := s + [k];
    BumpUnfold(gs, k);
    assert forall j :: 0 <= j < |gs| ==> r[j].key == gs[j].key;
    forall j | 0 <= j < |r| ensures r[j].count == Occurrences(t, r[j].key) >= 1 {
      OccurrencesSnoc(s, k, gs[j].key);
      if j != i {
        assert gs[j].key != k;
        assert r[j] == gs[j];
      }
    }
  }

  lemma BumpOldKeys<K>(gs: seq<Group<K>>, s: seq<K>, k: K)
    requires KeysOf(gs, s)
    requires IndexOf(gs, k) >= 0
    ensures KeysOf(Bump(gs, k), s + [k])
  {
    var i := IndexOf(gs, k);
    var r := gs[i := Group(k, gs[i].count + 1)];
    var t := s + [k];
    BumpUnfold(gs, k);
    forall j | 0 <= j < |t| ensures HasKey(r, t[j]) {
      if j < |s| {
        var m :| 0 <= m < |gs| && gs[m].key == s[j];
        assert r[m].key == t[j];
      } else {
        assert r[i].key == t[j];
      }
    }
    assert forall x :: x in s ==> x in t;
    assert forall j :: 0 <= j < |gs| ==> r[j].key == gs[j].key;
  }

  lemma BumpStep<K>(gs: seq<Group<K>>, s: seq<K>, k: K)
    requires DistinctKeys(gs) && CountsOf(gs, s) && KeysOf(gs, s)
    ensures DistinctKeys(Bump(gs, k)) && CountsOf(Bump(gs, k), s + [k]) && KeysOf(Bump(gs, k), s + [k])
  {
    if IndexOf(gs, k) < 0 {
      BumpNew(gs, s, k);
    } else {
      BumpOld(gs, s, k);
    }
  }

  /** The per-key counts of `s`, keys in order of first appearance (`Array.from(map.entries())`). */
  function Tally<K(==)>(s: seq<K>): (gs: seq<Group<K>>)
    ensures DistinctKeys(gs) && CountsOf(gs, s) && KeysOf(gs, s)
  {
    if s == [] then []
    else
      var p := s[..|s| - 1];
      BumpStep(Tally(p), p, s[|s| - 1]);
      assert p + [s[|s| - 1]] == s;
      Bump(Tally(p), s[|s| - 1])
  }

  /**
    The groups come in the order their keys first occur in `s`: a `Map`
    keeps its keys in insertion order, and a key is inserted at its first
    occurrence.
   */
  lemma {:induction false} TallyOrder<K>(s: seq<K>)
    ensures FirstAppearance(Tally(s), s)
  {
    if s != [] {
      var p := s[..|s| - 1];
      TallyOrder(p);
      BumpOrder(Tally(p), p, s[|s| - 1]);
      assert p + [s[|s| - 1]] == s;
    }
  }

  /** Bumping keeps the groups in first-appearance order. */
  lemma BumpOrder<K>(gs: seq<Group<K>>, s: seq<K>, k: K)
    requires KeysOf(gs, s) && FirstAppearance(gs, s)
    ensures FirstAppearance(Bump(gs, k), s + [k])
  {
    forall m | 0 <= m < |gs| ensures FirstAt(s + [k], gs[m].key) == FirstAt(s, gs[m].key) {
      FirstAtSnoc(s, k, gs[m].key);
    }
    if IndexOf(gs, k) < 0 {
      assert k !in s;
      BumpOrderNew(gs, s, k);
    } else {
      BumpOrderOld(gs, s, k);
    }
  }

  /** Bumping a key already present changes no key's place. */
  lemma BumpOrderOld<K>(gs: seq<Group<K>>, s: seq<K>, k: K)
    requires FirstAppearance(gs, s) && IndexOf(gs, k) >= 0
    requires forall m :: 0 <= m < |gs| ==> FirstAt(s + [k], gs[m].key) == FirstAt(s, gs[m].key)
    ensures FirstAppearance(Bump(gs, k), s + [k])
  {
    var t := s + [k];
    var r := Bump(gs, k);
    BumpUnfold(gs, k);
    forall i, j | 0 <= i < j < |r| ensures FirstAt(t, r[i].key) < FirstAt(t, r[j].key) {
      assert r[i].key == gs[i].key && r[j].key == gs[j].key;
    }
  }

  /** A new key is appended after every key seen before. */
  lemma BumpOrderNew<K>(gs: seq<Group<K>>, s: seq<K>, k: K)
    requires FirstAppearance(gs, s) && IndexOf(gs, k) < 0 && k !in s
    requires forall m :: 0 <= m < |gs| ==> gs[m].key in s && FirstAt(s + [k], gs[m].key) == FirstAt(s, gs[m].key)
    ensures FirstAppearance(Bump(gs, k), s + [k])
  {
    var t := s + [k];
    var r := gs + [Group(k, 1)];
    BumpUnfold(gs, k);
    FirstAtSnoc(s, k, k);
    forall i, j | 0 <= i < j < |r| ensures FirstAt(t, r[i].key) < FirstAt(t, r[j].key) {
      assert r[i] == gs[i];
      if j < |gs| {
        assert r[j] == gs[j];
      }
    }
  }

  /** The counts add up to the number of values counted. */
  lemma {:induction false} TallyTotal<K>(s: seq<K>)
    ensures Total(Tally(s)) == |s|
  {
    if s != [] {
      var p := s[..|s| - 1];
      TallyTotal(p);
      BumpTotal(Tally(p), s[|s| - 1]);
    }
  }

  /** A value with no group does not occur. */
  lemma TallyAbsent<K>(s: seq<K>, k: K)
    requires !HasKey(Tally(s), k)
    ensures Occurrences(s, k) == 0
  {
    assert k !in s;
    OccurrencesAbsent(s, k);
  }

  /** Each hour of `lo..23` that occurs in `s` at least once, with its count. */
  ghost predicate HourCountsOf(gs: seq<Group<int>>, s: seq<int>, lo: nat) {
    HourKeys(gs, lo) && CountsOf(gs, s) && CoversHours(gs, s, lo)
  }

  /** The keys are hours of `lo..23`, strictly ascending. */
  ghost predicate HourKeys(gs: seq<Group<int>>, lo: nat) {
    && (forall i :: 0 <= i < |gs| ==> lo <= gs[i].key < 24)
    && (forall i, j :: 0 <= i < j < |gs| ==> gs[i].key < gs[j].key)
  }

  /** Every hour of `lo..23` occurring in `s` has a group. */
  ghost predicate CoversHours(gs: seq<Group<int>>, s: seq<int>, lo: nat) {
    forall h :: lo <= h < 24 && Occurrences(s, h) > 0 ==> HasKey(gs, h)
  }

  /**
    The per-key counts of `s` for the keys `lo`, `lo + 1`, ..., 23 that occur,
    in ascending key order (`Object.entries` of an object keyed by hour).
   */
  function HourCounts(s: seq<int>, lo: nat): (gs: seq<Group<int>>)
    ensures HourCountsOf(gs, s, lo)
    decreases 24 - lo
  {
    if lo >= 24 then []
    else
      var rest := HourCounts(s, lo + 1);
      var n := Occurrences(s, lo);
      if n > 0 then
        HourCountsCons(rest, s, lo);
        [Group(lo, n)] + rest
      else
        HourCountsSkip(rest, s, lo);
        rest
  }

  lemma HourCountsSkip(rest: seq<Group<int>>, s: seq<int>, lo: nat)
    requires lo < 24 && HourCountsOf(rest, s, lo + 1) && Occurrences(s, lo) == 0
    ensures HourCountsOf(rest, s, lo)
  {
  }

  lemma HourCountsCons(rest: seq<Group<int>>, s: seq<int>, lo: nat)
    requires lo < 24 && HourCountsOf(rest, s, lo + 1) && Occurrences(s, lo) > 0
    ensures HourCountsOf([Group(lo, Occurrences(s, lo))] + rest, s, lo)
  {
    var gs := [Group(lo, Occurrences(s, lo))] + rest;
    HourKeysCons(rest, lo, Occurrences(s, lo));
    assert forall i :: 0 < i < |gs| ==> gs[i] == rest[i - 1];
    forall h | lo <= h < 24 && Occurrences(s, h) > 0 ensures HasKey(gs, h) {
      if h == lo {
        assert gs[0].key == lo;
      } else {
        var j :| 0 <= j < |rest| && rest[j].key == h;
        assert gs[j + 1].key == h;
      }
    }
  }

  lemma HourKeysCons(rest: seq<Group<int>>, lo: nat, n: nat)
    requires lo < 24 && HourKeys(rest, lo + 1)
    ensures HourKeys([Group(lo, n)] + rest, lo)
  {
    var gs := [Group(lo, n)] + rest;
    assert forall i :: 0 < i < |gs| ==> gs[i] == rest[i - 1];
  }

  // ---------------------------------------------------------------------
  // Ranking groups

  /** The best `n` of distinct-keyed groups are groups of the input, with distinct keys. */
  lemma TopOfGroups<K>(gs: seq<Group<K>>, key: Group<K> -> int, n: nat)
    requires DistinctKeys(gs)
    ensures DistinctKeys(TopBy(gs, key, n))
    ensures forall i :: 0 <= i < |TopBy(gs, key, n)| ==> TopBy(gs, key, n)[i] in gs
  {
    var q := SortBy(gs, Descending(key));
    var r := TopBy(gs, key, n);
    DistinctPermutation(q, gs);
    assert r == q[..|r|];
    forall i | 0 <= i < |r| ensures r[i] in gs {
      assert r[i] == q[i];
      assert q[i] in multiset(gs);
    }
  }

  /** The best `n` of the groups of `s` are still groups of `s`, with distinct keys. */
  lemma TopCounts<K>(gs: seq<Group<K>>, s: seq<K>, key: Group<K> -> int, n: nat)
    requires DistinctKeys(gs) && CountsOf(gs, s)
    ensures DistinctKeys(TopBy(gs, key, n)) && CountsOf(TopBy(gs, key, n), s)
  {
    var r := TopBy(gs, key, n);
    TopOfGroups(gs, key, n);
    forall i | 0 <= i < |r| ensures r[i].count == Occurrences(s, r[i].key) >= 1 {
      var j :| 0 <= j < |gs| && gs[j] == r[i];
    }
  }

  /** The best `n` hour groups are hours of the day, each with its count in `s`, no hour twice. */
  lemma TopHours(gs: seq<Group<int>>, s: seq<int>, key: Group<int> -> int, n: nat)
    requires HourCountsOf(gs, s, 0)
    ensures DistinctKeys(TopBy(gs, key, n)) && CountsOf(TopBy(gs, key, n), s)
    ensures forall i :: 0 <= i < |TopBy(gs, key, n)| ==> 0 <= TopBy(gs, key, n)[i].key < 24
  {
    var r := TopBy(gs, key, n);
    assert DistinctKeys(gs);
    TopOfGroups(gs, key, n);
    TopCounts(gs, s, key, n);
    forall i | 0 <= i < |r| ensures 0 <= r[i].key < 24 {
      var j :| 0 <= j < |gs| && gs[j] == r[i];
    }
  }

  /** Reordering distinct-keyed groups keeps their keys distinct. */
  lemma DistinctPermutation<K>(q: seq<Group<K>>, gs: seq<Group<K>>)
    requires multiset(q) == multiset(gs) && DistinctKeys(gs)
    ensures DistinctKeys(q)
  {
    forall i, j | 0 <= i < j < |q| ensures q[i].key != q[j].key {
      if q[i].key == q[j].key {
        assert q[i] in multiset(gs) && q[j] in multiset(gs);
        var a :| 0 <= a < |gs| && gs[a] == q[i];
        var b :| 0 <= b < |gs| && gs[b] == q[j];
        assert a == b;
        TwiceInMultiset(q, i, j);
        DistinctOnce(gs, a);
      }
    }
  }

  lemma TwiceInMultiset<T>(q: seq<T>, i: nat, j: nat)
    requires i < j < |q| && q[i] == q[j]
    ensures multiset(q)[q[i]] >= 2
  {
    assert q == q[..i] + [q[i]] + q[i + 1..j] + [q[j]] + q[j + 1..];
  }

  /** In a distinct-keyed sequence every group occurs once. */
  lemma {:induction false} DistinctOnce<K>(gs: seq<Group<K>>, a: nat)
    requires DistinctKeys(gs) && a < |gs|
    ensures multiset(gs)[gs[a]] == 1
  {
    var p := gs[..|gs| - 1];
    assert gs == p + [gs[|gs| - 1]];
    assert DistinctKeys(p);
    if a == |gs| - 1 {
      assert gs[a] !in p;
    } else {
      DistinctOnce(p, a);
      assert p[a] == gs[a];
      assert gs[|gs| - 1].key != gs[a].key;
    }
  }
}

=== FILE: http.dfy ===
/**
  What a route handler hands back, and the state of the database connection
  it runs against.
 */
module Http {

  /** The `details` field of an error response. */
  datatype Details =
    | NoDetails
      /** `error.message` of an error the handler or the database raised. */
    | Message(text: string)
      /**
        The message of the error the database client raises when it rejects a
        query argument (a NaN or null id); its text is not modelled.
       */
    | RejectedArgument
      /**
        The message of the error the database raises when a write breaks a
        foreign-key or uniqueness constraint; its text is not modelled.
       */
    | ConstraintViolation

  /** A JSON response: the success body (status 200), or an error status with its `error` text. */
  datatype Reply<T> = Ok(body: T) | Fail(status: nat, error: string, details: Details)

  /**
    The database as a handler finds it: answering, or failing every query
    with an error whose message is given.
   */
  datatype Io = Up | Down(message: string)
}

=== FILE: kpis.dfy ===
/**
  `GET /api/dashboard/kpis`: the dashboard's counters, top customers, peak
  hours, chart and time series for one store (or all) over the last 24 h,
  7 d or 30 d, served from the shared TTL cache when a fresh answer exists.
  The request is handled at one instant `now`; `offset` fixes the server's
  time zone, and `localeDate` stands for `toLocaleDateString('pt-BR')`.
 */
module Kpis {
  import opened Wrappers
  import opened Js
  import opened Text
  import opened Clock
  import opened Sorting
  import opened Histogram
  import opened Records
  import opened Http
  import opened Charts
  import TtlCache

  /** The query string: `storeId` and `timeRange`, each possibly absent. */
  datatype Query = Query(storeId: Option<string>, timeRange: Option<string>)

  /** `searchParams.get('timeRange') || '24h'`. */
  function TimeRange(q: Query): (r: string)
    ensures r != ""
    ensures q.timeRange.Some? && q.timeRange.value != "" ==> r == q.timeRange.value
  {
    if q.timeRange.Some? && q.timeRange.value != "" then q.timeRange.value else "24h"
  }

  /** A `storeId` parameter that is present and not empty (JavaScript truthiness). */
  predicate HasStore(q: Query) {
    q.storeId.Some? && q.storeId.value != ""
  }

  /** `storeId || 'all'`. */
  function StorePart(q: Query): string {
    if HasStore(q) then q.storeId.value else "all"
  }

  /** `` `kpis:${storeId || 'all'}:${timeRange}` `` */
  function CacheKey(q: Query): string {
    "kpis:" + StorePart(q) + ":" + TimeRange(q)
  }

  /** The store part of a key can be read back: it is the text between the prefix and the next `:`. */
  lemma CacheKeyParts(q: Query)
    requires ':' !in StorePart(q)
    ensures FirstField(CacheKey(q)[5..], ':') == StorePart(q)
    ensures CacheKey(q)[5 + |StorePart(q)| + 1..] == TimeRange(q)
  {
    var a := StorePart(q);
    var k := CacheKey(q);
    assert k[5..] == a + (":" + TimeRange(q));
    FirstFieldAfter(a, ":" + TimeRange(q), ':');
    assert FirstField(":" + TimeRange(q), ':') == [];
    assert a + [] == a;
  }

  /**
    While store ids hold no `:`, two requests share a cache entry exactly
    when they name the same store part and the same range.
   */
  lemma CacheKeyDistinct(q1: Query, q2: Query)
    requires ':' !in StorePart(q1) && ':' !in StorePart(q2)
    ensures CacheKey(q1) == CacheKey(q2) <==> StorePart(q1) == StorePart(q2) && TimeRange(q1) == TimeRange(q2)
  {
    CacheKeyParts(q1);
    CacheKeyParts(q2);
  }

  /** A store id spelled `all` names the same cache entry as no store id at all. */
  lemma AllSharesKey(q: Query)
    requires q.storeId == Some("all")
    ensures CacheKey(q) == CacheKey(q.(storeId := None))
  {
  }

  /** The start of the reporting window: 7 or 30 days back, and 24 hours for any other range. */
  function WindowStart(now: int, range: string): int {
    if range == "7d" then now - 7 * DayMs
    else if range == "30d" then now - 30 * DayMs
    else now - DayMs
  }

  lemma WindowStartSpec(now: int, q: Query)
    ensures TimeRange(q) == "7d" ==> WindowStart(now, TimeRange(q)) == now - 604800000
    ensures TimeRange(q) == "30d" ==> WindowStart(now, TimeRange(q)) == now - 2592000000
    ensures TimeRange(q) != "7d" && TimeRange(q) != "30d" ==> WindowStart(now, TimeRange(q)) == now - 86400000
    ensures q.timeRange.None? ==> TimeRange(q) == "24h"
  {
  }

  /** The store restriction of a `where` clause. */
  datatype Restriction = AnyStore | OnlyStore(id: int)

  predicate InStore(r: Restriction, storeId: int) {
    r.AnyStore? || r.id == storeId
  }

  /**
    `storeId ? { storeId: isNaN(parseInt(storeId)) ? undefined : parseInt(storeId) } : {}`:
    an `undefined` condition restricts nothing.
   */
  function Restrict(q: Query): (r: Restriction)
    ensures !HasStore(q) ==> r == AnyStore
    ensures HasStore(q) && ParseInt(q.storeId.value).NaN? ==> r == AnyStore
    ensures HasStore(q) && ParseInt(q.storeId.value).Int? ==> r == OnlyStore(ParseInt(q.storeId.value).value)
  {
    if !HasStore(q) then AnyStore
    else match ParseInt(q.storeId.value)
      case NaN => AnyStore
      case Int(v) => OnlyStore(v)
  }

  // ---------------------------------------------------------------------
  // Counters

  /** One counter card: `{ label, value, icon, color }`. */
  datatype Kpi = Kpi(title: string, value: nat, icon: string, color: string)

  function KpiCards(stores: nat, customers: nat, devices: nat, accesses: nat): (r: seq<Kpi>)
    ensures |r| == 4
    ensures r[0].title == "Lojas" && r[1].title == "Clientes"
    ensures r[2].title == "Dispositivos" && r[3].title == "Acessos no Período"
    ensures r[0].value == stores && r[1].value == customers && r[2].value == devices && r[3].value == accesses
  {
    [ Kpi("Lojas", stores, "Store", "bg-blue-500"),
      Kpi("Clientes", customers, "UserCircle", "bg-green-500"),
      Kpi("Dispositivos", devices, "Cpu", "bg-purple-500"),
      Kpi("Acessos no Período", accesses, "Activity", "bg-orange-500") ]
  }

  function CustomerIn(r: Restriction): Customer -> bool {
    (c: Customer) => InStore(r, c.storeId)
  }

  /** An unrestricted count takes every device, linked or not; a store's count takes the devices linked to it. */
  function DeviceIn(r: Restriction): Device -> bool {
    (d: Device) => r.AnyStore? || d.storeId == Some(r.id)
  }

  /** The accesses of the restricted stores stamped in `[from, to)`; `to` is open-ended when absent. */
  function AccessIn(r: Restriction, from: int, to: Option<int>): Access -> bool {
    (a: Access) => InStore(r, a.storeId) && from <= a.createdAt && (to.None? || a.createdAt < to.value)
  }

  /** The store count is never filtered; the others follow the restriction, the accesses also the window. */
  function Counters(db: Db, r: Restriction, start: int): (k: seq<Kpi>)
    ensures |k| == 4 && k[0].title == "Lojas" && k[3].title == "Acessos no Período"
    ensures k[0].value == |db.stores|
    ensures k[1].value <= |db.customers| && k[2].value <= |db.devices| && k[3].value <= |db.accesses|
  {
    KpiCards(|db.stores|, Count(db.customers, CustomerIn(r)), Count(db.devices, DeviceIn(r)),
             Count(db.accesses, AccessIn(r, start, None)))
  }

  /** Without a store parameter nothing but the window is filtered. */
  lemma CountersWithoutStore(db: Db, q: Query, start: int)
    requires !HasStore(q)
    ensures Counters(db, Restrict(q), start)[0].value == |db.stores|
    ensures Counters(db, Restrict(q), start)[1].value == |db.customers|
    ensures Counters(db, Restrict(q), start)[2].value == |db.devices|
  {
    FilterAll(db.customers, CustomerIn(AnyStore));
    FilterAll(db.devices, DeviceIn(AnyStore));
  }

  // ---------------------------------------------------------------------
  // Top customers

  /** A `topClientes` entry; `imageUrl` is absent when the customer was not found. */
  datatype TopClient = TopClient(customerId: int, name: string, imageUrl: Option<string>, accessCount: nat)

  /** `_count.customerId` of a `groupBy` group: the rows with a non-null `customerId`. */
  function GroupCount(g: Group<Option<int>>): int {
    if g.key.None? then 0 else g.count
  }

  /**
    `groupBy({ by: ['customerId'], orderBy: { _count: { customerId: 'desc' } }, take: 5 })`
    over the window's rows; `customerId: { not: undefined }` excludes nothing, so
    rows without a customer form a group too.
   */
  function TopGroups(window: seq<Access>): seq<Group<Option<int>>> {
    TopBy(Tally(CustomerIds(window)), GroupCount, 5)
  }

  function CustomerIds(rows: seq<Access>): (ids: seq<Option<int>>)
    ensures |ids| == |rows| && forall i :: 0 <= i < |rows| ==> ids[i] == rows[i].customerId
  {
    seq(|rows|, i requires 0 <= i < |rows| => rows[i].customerId)
  }

  /**
    The entry of customer `id`: its name, or `Cliente <id>` when it has none
    or was not found; the image only of a found customer.
   */
  function Client(customers: seq<Customer>, id: int, count: nat): (t: TopClient)
    ensures t.customerId == id && t.accessCount == count
    ensures t.name != ""
    ensures (forall j :: 0 <= j < |customers| ==> customers[j].id != id) ==>
              t.name == "Cliente " + IntToString(id) && t.imageUrl.None?
    ensures forall j :: 0 <= j < |customers| && customers[j].id == id && (forall k :: 0 <= k < j ==> customers[k].id != id) ==>
              && t.imageUrl == Some(customers[j].imageUrl)
              && (customers[j].name != "" ==> t.name == customers[j].name)
              && (customers[j].name == "" ==> t.name == "Cliente " + IntToString(id))
  {
    match Find(customers, (c: Customer) => c.id == id)
    case None => TopClient(id, "Cliente " + IntToString(id), None, count)
    case Some(c) => TopClient(id, if c.name != "" then c.name else "Cliente " + IntToString(id), Some(c.imageUrl), count)
  }

  /**
    The details of each top group; `findUnique({ where: { id: null } })` is
    rejected by the database client, so a customer-less group among the top
    five makes the whole request fail.
   */
  function TopClients(customers: seq<Customer>, top: seq<Group<Option<int>>>): (r: Option<seq<TopClient>>)
    ensures r.Some? <==> forall i :: 0 <= i < |top| ==> top[i].key.Some?
    ensures r.Some? ==> |r.value| == |top|
    ensures r.Some? ==> forall i :: 0 <= i < |top| ==>
              r.value[i].customerId == top[i].key.value && r.value[i].accessCount == top[i].count
  {
    if forall i :: 0 <= i < |top| ==> top[i].key.Some? then
      Some(seq(|top|, i requires 0 <= i < |top| => Client(customers, top[i].key.value, top[i].count)))
    else None
  }

  /** A customer with no row in the table is listed as `Cliente <id>`. */
  lemma ClientMissing(customers: seq<Customer>, id: int, count: nat)
    requires forall i :: 0 <= i < |customers| ==> customers[i].id != id
    ensures Client(customers, id, count).name == "Cliente " + IntToString(id)
    ensures Client(customers, id, count).imageUrl == None
  {
  }

  /** At most five groups, by descending count, none outranked by a group left out. */
  lemma TopGroupsRanked(window: seq<Access>)
    ensures |TopGroups(window)| == if |Tally(CustomerIds(window))| <= 5 then |Tally(CustomerIds(window))| else 5
    ensures forall i, j :: 0 <= i < j < |TopGroups(window)| ==>
              GroupCount(TopGroups(window)[i]) >= GroupCount(TopGroups(window)[j])
    ensures forall g, t :: g in Tally(CustomerIds(window)) && g !in TopGroups(window) && t in TopGroups(window) ==>
              GroupCount(g) <= GroupCount(t)
  {
    TopBySpec(Tally(CustomerIds(window)), GroupCount, 5);
  }

  /** Each top group counts the rows of its customer in the window, and no customer appears twice. */
  lemma TopGroupsCounted(window: seq<Access>)
    ensures forall i :: 0 <= i < |TopGroups(window)| ==>
              TopGroups(window)[i].count == Occurrences(CustomerIds(window), TopGroups(window)[i].key) >= 1
    ensures forall i, j :: 0 <= i < j < |TopGroups(window)| ==> TopGroups(window)[i].key != TopGroups(window)[j].key
  {
    var ids := CustomerIds(window);
    TopCounts(Tally(ids), ids, GroupCount, 5);
  }

  // ---------------------------------------------------------------------
  // Peak hours

  /** The local hour of each access, `new Date(createdAt).getHours()`. */
  function HoursOf(rows: seq<Access>, offset: int): (hs: seq<int>)
    ensures |hs| == |rows|
    ensures forall i :: 0 <= i < |rows| ==> hs[i] == LocalHour(rows[i].createdAt, offset) && 0 <= hs[i] < 24
  {
    seq(|rows|, i requires 0 <= i < |rows| => LocalHour(rows[i].createdAt, offset))
  }

  /**
    The three hours with the most accesses: the `horariosCount` object read
    back with `Object.entries` (ascending hour; `parseInt` of a key gives the
    hour back, `Text.ParseIntOfIntString`), sorted by count descending.
   */
  function PeakHours(window: seq<Access>, offset: int): seq<Group<int>> {
    TopBy(HourCounts(HoursOf(window, offset), 0), CountOf, 3)
  }

  function CountOf(g: Group<int>): int {
    g.count
  }

  /**
    The successive values of `now` in `now.setHours(hora, 0, 0, 0)` for each
    peak in turn (the call mutates `now`), and its final value.
   */
  function StampTimes(peaks: seq<Group<int>>, now: int, offset: int): (r: (seq<int>, int))
    ensures |r.0| == |peaks|
  {
    if peaks == [] then ([], now)
    else
      var t := SetHours(now, offset, peaks[0].key);
      var rest := StampTimes(peaks[1..], t, offset);
      ([t] + rest.0, rest.1)
  }

  /** `{ createdAt: new Date(...).toISOString(), _count: count }` for each peak. */
  function Stamp(peaks: seq<Group<int>>, now: int, offset: int): (r: seq<ChartPoint>)
    ensures |r| == |peaks|
    ensures forall i :: 0 <= i < |peaks| ==>
              r[i].count == peaks[i].count && r[i].createdAt == IsoString(StampTimes(peaks, now, offset).0[i])
  {
    var times := StampTimes(peaks, now, offset).0;
    seq(|peaks|, i requires 0 <= i < |peaks| => ChartPoint(IsoString(times[i]), peaks[i].count))
  }

  /**
    Because `setHours` keeps the local day, the `k`-th stamp is hour
    `peaks[k]` of the request's day, and `now` ends on the last peak's hour.
   */
  lemma {:induction false} StampTimesSpec(peaks: seq<Group<int>>, now: int, offset: int)
    requires forall i :: 0 <= i < |peaks| ==> 0 <= peaks[i].key < 24
    ensures forall i :: 0 <= i < |peaks| ==> StampTimes(peaks, now, offset).0[i] == SetHours(now, offset, peaks[i].key)
    ensures StampTimes(peaks, now, offset).1 == if peaks == [] then now else SetHours(now, offset, peaks[|peaks| - 1].key)
  {
    if peaks != [] {
      var t := SetHours(now, offset, peaks[0].key);
      var tail := peaks[1..];
      var rest := StampTimes(tail, t, offset);
      StampTimesSpec(tail, t, offset);
      assert StampTimes(peaks, now, offset) == ([t] + rest.0, rest.1);
      forall i | 0 <= i < |peaks| ensures StampTimes(peaks, now, offset).0[i] == SetHours(now, offset, peaks[i].key) {
        if i > 0 {
          assert peaks[i] == tail[i - 1];
          SetHoursTwice(now, offset, peaks[0].key, tail[i - 1].key);
        }
      }
      if tail != [] {
        SetHoursTwice(now, offset, peaks[0].key, tail[|tail| - 1].key);
      }
    }
  }

  /**
    Each chart point of a peak is that peak's count at the ISO instant of its
    hour on the request's local day.
   */
  lemma StampPoints(peaks: seq<Group<int>>, now: int, offset: int)
    requires forall i :: 0 <= i < |peaks| ==> 0 <= peaks[i].key < 24
    ensures forall i :: 0 <= i < |peaks| ==>
              && Stamp(peaks, now, offset)[i].count == peaks[i].count
              && Stamp(peaks, now, offset)[i].createdAt == IsoString(SetHours(now, offset, peaks[i].key))
  {
    StampTimesSpec(peaks, now, offset);
  }

  /** At most three peaks, by descending count, none outranked by an hour left out. */
  lemma PeakHoursRanked(window: seq<Access>, offset: int)
    ensures |PeakHours(window, offset)| <= 3
    ensures forall i, j :: 0 <= i < j < |PeakHours(window, offset)| ==>
              PeakHours(window, offset)[i].count >= PeakHours(window, offset)[j].count
    ensures forall g, t :: g in HourCounts(HoursOf(window, offset), 0) && g !in PeakHours(window, offset) && t in PeakHours(window, offset) ==>
              g.count <= t.count
  {
    TopByCount(HourCounts(HoursOf(window, offset), 0), 3);
  }

  /** `TopBy` with the group count as key, in terms of the counts. */
  lemma TopByCount(gs: seq<Group<int>>, n: nat)
    ensures |TopBy(gs, CountOf, n)| <= n
    ensures forall i, j :: 0 <= i < j < |TopBy(gs, CountOf, n)| ==> TopBy(gs, CountOf, n)[i].count >= TopBy(gs, CountOf, n)[j].count
    ensures forall g, t :: g in gs && g !in TopBy(gs, CountOf, n) && t in TopBy(gs, CountOf, n) ==> g.count <= t.count
  {
    var top := TopBy(gs, CountOf, n);
    TopByContents(gs, CountOf, n);
    TopByOrder(gs, CountOf, n);
    TopByBest(gs, CountOf, n);
    forall g, t | g in gs && g !in top && t in top ensures g.count <= t.count {
      assert CountOf(g) <= CountOf(t);
    }
  }

  /**
    Each peak is an hour of the day with its number of accesses in the
    window, at least one, and no hour is listed twice.
   */
  lemma PeakHoursCounted(window: seq<Access>, offset: int)
    ensures forall i :: 0 <= i < |PeakHours(window, offset)| ==>
              0 <= PeakHours(window, offset)[i].key < 24 &&
              PeakHours(window, offset)[i].count == Occurrences(HoursOf(window, offset), PeakHours(window, offset)[i].key) >= 1
    ensures forall i, j :: 0 <= i < j < |PeakHours(window, offset)| ==>
              PeakHours(window, offset)[i].key != PeakHours(window, offset)[j].key
  {
    var hs := HoursOf(window, offset);
    TopHours(HourCounts(hs, 0), hs, CountOf, 3);
  }

  /**
    The chart of this route reads the year of each ISO stamp (the text
    before the first `:` is `YYYY-MM-DDTHH`, and `parseInt` stops at the
    first `-`), so it orders the peaks by their UTC year, not by hour.
   */
  lemma ChartKeyIsYear(now: int, offset: int, h: int, count: nat)
    ensures ChartKey(ChartPoint(IsoString(SetHours(now, offset, h)), count)) == Int(UtcYear(SetHours(now, offset, h)))
  {
    IsoFirstFieldIsYear(SetHours(now, offset, h));
  }

  /**
    So when all the peaks fall in one UTC year, every chart key ties and the
    chart shows the peaks in their rank order, by descending count.
   */
  lemma PeakChartInRankOrder(peaks: seq<Group<int>>, now: int, offset: int)
    requires forall i :: 0 <= i < |peaks| ==> 0 <= peaks[i].key < 24
    requires forall i, j :: 0 <= i < |peaks| && 0 <= j < |peaks| ==>
               UtcYear(SetHours(now, offset, peaks[i].key)) == UtcYear(SetHours(now, offset, peaks[j].key))
    ensures ChartOrder(Stamp(peaks, now, offset)) == Stamp(peaks, now, offset)
  {
    var stamped := Stamp(peaks, now, offset);
    StampPoints(peaks, now, offset);
    forall i | 0 <= i < |stamped|
      ensures ChartKey(stamped[i]) == Int(UtcYear(SetHours(now, offset, peaks[i].key)))
    {
      ChartKeyIsYear(now, offset, peaks[i].key, peaks[i].count);
    }
    ChartOrderSameKey(stamped);
  }

  // ---------------------------------------------------------------------
  // Time series

  /** The bucket width: a day for `30d`, six hours for `7d`, an hour otherwise. */
  function Interval(range: string): (w: int)
    ensures w > 0
    ensures range == "30d" ==> w == 86400000
    ensures range == "7d" ==> w == 21600000
    ensures range != "30d" && range != "7d" ==> w == 3600000
  {
    if range == "30d" then DayMs else if range == "7d" then 6 * HourMs else HourMs
  }

  /** The number of buckets: 30, 28 or 24. */
  function Points(range: string): nat {
    if range == "30d" then 30 else if range == "7d" then 28 else 24
  }

  /** The start of bucket `j` (oldest first): `now - i * interval` for `i = points - 1 - j`. */
  function BucketStart(anchor: int, range: string, j: int): int {
    anchor - (Points(range) - 1 - j) * Interval(range)
  }

  /**
    The series spans as much time as the window, but shifted one interval
    later: its first bucket starts one interval after the window start, and
    its last bucket ends one interval after the anchor.
   */
  lemma SeriesSpan(anchor: int, range: string)
    ensures Points(range) * Interval(range) == anchor - WindowStart(anchor, range)
    ensures BucketStart(anchor, range, 0) == WindowStart(anchor, range) + Interval(range)
    ensures BucketStart(anchor, range, Points(range) - 1) + Interval(range) == anchor + Interval(range)
  {
  }

  datatype Series = Series(labels: seq<string>, counts: seq<nat>)

  /**
    The loop `for (i = points - 1; i >= 0; i--)`: for each bucket, the count
    of the restricted accesses in `[start, start + interval)`, and the label
    `localeDate(start)` for `30d`, else the zero-padded local hour of `start`
    followed by `:00`.
   */
  function TimeSeries(accesses: seq<Access>, r: Restriction, anchor: int, range: string, offset: int,
                      localeDate: int -> string): (s: Series)
    ensures |s.labels| == Points(range) && |s.counts| == Points(range)
  {
    var n := Points(range);
    Series(
      seq(n, j requires 0 <= j < n =>
        if range == "30d" then localeDate(BucketStart(anchor, range, j))
        else HourLabel(LocalHour(BucketStart(anchor, range, j), offset))),
      BucketCounts(accesses, r, anchor, range))
  }

  /**
    One label per bucket: the locale date of its start for `30d`, otherwise
    its start's local hour in two digits followed by `:00`.
   */
  lemma TimeLabels(accesses: seq<Access>, r: Restriction, anchor: int, range: string, offset: int,
                   localeDate: int -> string, j: int)
    requires 0 <= j < Points(range)
    ensures var l := TimeSeries(accesses, r, anchor, range, offset, localeDate).labels[j];
            && (range == "30d" ==> l == localeDate(BucketStart(anchor, range, j)))
            && (range != "30d" ==>
                  && |l| == 5 && l[2..] == ":00" && AllDigits(l[..2])
                  && DigitsValue(l[..2]) == LocalHour(BucketStart(anchor, range, j), offset))
  {
    if range != "30d" {
      HourLabelShape(LocalHour(BucketStart(anchor, range, j), offset));
    }
  }

  /** The count of each bucket, oldest first. */
  function BucketCounts(accesses: seq<Access>, r: Restriction, anchor: int, range: string): (s: seq<nat>)
    ensures |s| == Points(range)
    ensures forall j :: 0 <= j < Points(range) ==>
              s[j] == SpanCount(accesses, r, BucketStart(anchor, range, j), BucketStart(anchor, range, j) + Interval(range))
  {
    var n := Points(range);
    seq(n, j requires 0 <= j < n =>
      SpanCount(accesses, r, BucketStart(anchor, range, j), BucketStart(anchor, range, j) + Interval(range)))
  }

  /** Each bucket counts the restricted accesses stamped from its start to the next bucket's. */
  lemma BucketCountsCount(accesses: seq<Access>, r: Restriction, anchor: int, range: string, j: int)
    requires 0 <= j < Points(range)
    ensures BucketCounts(accesses, r, anchor, range)[j] ==
              Count(accesses, AccessIn(r, BucketStart(anchor, range, j), Some(BucketStart(anchor, range, j + 1))))
  {
    BucketsAdjacent(anchor, range, j);
    SpanCountIsCount(accesses, r, BucketStart(anchor, range, j), BucketStart(anchor, range, j + 1));
  }

  /** Consecutive buckets touch, and the newest starts at the anchor. */
  lemma BucketsAdjacent(anchor: int, range: string, j: int)
    ensures BucketStart(anchor, range, j) + Interval(range) == BucketStart(anchor, range, j + 1)
    ensures BucketStart(anchor, range, Points(range) - 1) == anchor
  {
  }

  /** The number of restricted accesses stamped in `[a, b)`, counted one row at a time. */
  function SpanCount(accesses: seq<Access>, r: Restriction, a: int, b: int): nat {
    if accesses == [] then 0
    else
      var x := accesses[|accesses| - 1];
      SpanCount(accesses[..|accesses| - 1], r, a, b) + (if InStore(r, x.storeId) && a <= x.createdAt < b then 1 else 0)
  }

  /** Counting one row at a time is counting the filtered rows. */
  lemma {:induction false} SpanCountIsCount(accesses: seq<Access>, r: Restriction, a: int, b: int)
    ensures SpanCount(accesses, r, a, b) == Count(accesses, AccessIn(r, a, Some(b)))
  {
    if accesses != [] {
      SpanCountIsCount(accesses[..|accesses| - 1], r, a, b);
    }
  }

  /** An empty span holds no access. */
  lemma {:induction false} SpanEmpty(accesses: seq<Access>, r: Restriction, a: int)
    ensures SpanCount(accesses, r, a, a) == 0
  {
    if accesses != [] {
      SpanEmpty(accesses[..|accesses| - 1], r, a);
    }
  }

  /** Counting a span is counting its two halves. */
  lemma {:induction false} SpanSplit(accesses: seq<Access>, r: Restriction, a: int, b: int, c: int)
    requires a <= b <= c
    ensures SpanCount(accesses, r, a, c) == SpanCount(accesses, r, a, b) + SpanCount(accesses, r, b, c)
  {
    if accesses != [] {
      SpanSplit(accesses[..|accesses| - 1], r, a, b, c);
    }
  }

  /** The first `k` bucket counts add up to the accesses in the span of those buckets. */
  lemma BucketPrefixSum(accesses: seq<Access>, r: Restriction, anchor: int, range: string, k: nat)
    requires k <= Points(range)
    ensures Sum(BucketCounts(accesses, r, anchor, range)[..k]) ==
              SpanCount(accesses, r, BucketStart(anchor, range, 0), BucketStart(anchor, range, 0) + k * Interval(range))
  {
    var s := BucketCounts(accesses, r, anchor, range);
    var from := BucketStart(anchor, range, 0);
    var w := Interval(range);
    BucketSpans(accesses, r, anchor, range);
    SpanPrefixSum(accesses, r, s, from, w, k);
  }

  /** Bucket `j` counts the span `j` intervals after the first bucket's start. */
  lemma BucketSpans(accesses: seq<Access>, r: Restriction, anchor: int, range: string)
    ensures forall j :: 0 <= j < Points(range) ==>
              BucketCounts(accesses, r, anchor, range)[j] ==
              SpanCount(accesses, r, BucketStart(anchor, range, 0) + j * Interval(range),
                        BucketStart(anchor, range, 0) + (j + 1) * Interval(range))
  {
    forall j | 0 <= j < Points(range)
      ensures BucketCounts(accesses, r, anchor, range)[j] ==
              SpanCount(accesses, r, BucketStart(anchor, range, 0) + j * Interval(range),
                        BucketStart(anchor, range, 0) + (j + 1) * Interval(range))
    {
      BucketStep(anchor, range, j);
    }
  }

  /**
    Counts of consecutive spans of width `w` starting at `from` add up, over
    the first `k`, to the count of the span they cover.
   */
  lemma {:induction false} SpanPrefixSum(accesses: seq<Access>, r: Restriction, s: seq<nat>, from: int, w: nat, k: nat)
    requires k <= |s|
    requires forall j :: 0 <= j < |s| ==> s[j] == SpanCount(accesses, r, from + j * w, from + (j + 1) * w)
    ensures Sum(s[..k]) == SpanCount(accesses, r, from, from + k * w)
  {
    if k == 0 {
      SpanEmpty(accesses, r, from);
    } else {
      SpanPrefixSum(accesses, r, s, from, w, k - 1);
      SumSnoc(s, k);
      assert (k - 1) * w <= k * w;
      assert from + (k - 1 + 1) * w == from + k * w;
      SpanSplit(accesses, r, from, from + (k - 1) * w, from + k * w);
    }
  }

  /** Bucket `j` starts `j` intervals after the first and ends where bucket `j + 1` starts. */
  lemma BucketStep(anchor: int, range: string, j: nat)
    ensures BucketStart(anchor, range, j) == BucketStart(anchor, range, 0) + j * Interval(range)
    ensures BucketStart(anchor, range, 0) <= BucketStart(anchor, range, j)
    ensures BucketStart(anchor, range, j) + Interval(range) == BucketStart(anchor, range, 0) + (j + 1) * Interval(range)
  {
    var w := Interval(range);
    var n := Points(range) - 1;
    assert (n - j) * w == n * w - j * w;
    assert j * w >= 0;
    assert (j + 1) * w == j * w + w;
  }

  lemma SumSnoc(s: seq<nat>, k: nat)
    requires 0 < k <= |s|
    ensures Sum(s[..k]) == Sum(s[..k - 1]) + s[k - 1]
  {
    assert s[..k][..k - 1] == s[..k - 1];
  }

  /**
    The buckets partition the span that ends one interval after the anchor:
    the series adds up to the accesses stamped in it. That span is not the
    reporting window when peaks moved the anchor.
   */
  lemma SeriesPartition(accesses: seq<Access>, r: Restriction, anchor: int, range: string, offset: int,
                        localeDate: int -> string)
    ensures Sum(TimeSeries(accesses, r, anchor, range, offset, localeDate).counts) ==
              Count(accesses, AccessIn(r, BucketStart(anchor, range, 0), Some(anchor + Interval(range))))
  {
    var s := BucketCounts(accesses, r, anchor, range);
    BucketPrefixSum(accesses, r, anchor, range, Points(range));
    assert s[..Points(range)] == s;
    BucketStep(anchor, range, Points(range) - 1);
    BucketsAdjacent(anchor, range, Points(range) - 1);
    SpanCountIsCount(accesses, r, BucketStart(anchor, range, 0), anchor + Interval(range));
  }

  // ---------------------------------------------------------------------
  // The handler

  /** `{ id, name }` of a store, for the selector. */
  datatype StoreRef = StoreRef(id: int, name: string)

  datatype Payload = Payload(
    kpis: seq<Kpi>, topClientes: seq<TopClient>, avgConfianca: Option<real>,
    horariosPico: seq<ChartPoint>, chartLabels: seq<string>, chartSeries: seq<nat>,
    timeLabels: seq<string>, timeSeries: seq<nat>, stores: seq<StoreRef>)

  /** The mean confidence of the rows (`_avg.confidence`), absent when there are none. */
  function AvgConfidence(rows: seq<Access>): (r: Option<real>)
    ensures r.None? <==> rows == []
  {
    if rows == [] then None else Some(ConfidenceSum(rows) / (|rows| as real))
  }

  function ConfidenceSum(rows: seq<Access>): real {
    if rows == [] then 0.0 else ConfidenceSum(rows[..|rows| - 1]) + rows[|rows| - 1].confidence
  }

  /** The response computed from the database, or nothing when a top-customer lookup is rejected. */
  function Compute(q: Query, db: Db, now: int, offset: int, localeDate: int -> string): Option<Payload> {
    var range := TimeRange(q);
    var start := WindowStart(now, range);
    var r := Restrict(q);
    var window := Filter(db.accesses, AccessIn(r, start, None));
    match TopClients(db.customers, TopGroups(window))
    case None => None
    case Some(clients) => Some(Respond(db, r, range, start, window, clients, now, offset, localeDate))
  }

  /** The response once the top customers are known. */
  function Respond(db: Db, r: Restriction, range: string, start: int, window: seq<Access>, clients: seq<TopClient>,
                   now: int, offset: int, localeDate: int -> string): Payload {
    var peaks := PeakHours(window, offset);
    var stamped := Stamp(peaks, now, offset);
    var chart := ProcessChartData(stamped);
    var series := TimeSeries(db.accesses, r, StampTimes(peaks, now, offset).1, range, offset, localeDate);
    Payload(
      Counters(db, r, start), clients, AvgConfidence(window),
      stamped, chart.labels, chart.series, series.labels, series.counts, StoreRefs(db.stores))
  }

  /** Every store as `{ id, name }`, in table order. */
  function StoreRefs(stores: seq<Store>): (refs: seq<StoreRef>)
    ensures |refs| == |stores|
    ensures forall i :: 0 <= i < |stores| ==> refs[i] == StoreRef(stores[i].id, stores[i].name)
  {
    seq(|stores|, i requires 0 <= i < |stores| => StoreRef(stores[i].id, stores[i].name))
  }

  const KpiError := "Erro ao buscar KPIs"

  /**
    The handler: a fresh cached answer is returned as it is; otherwise the
    response is computed, cached under the request's key and returned. Any
    failure is a 500 that caches nothing. The first component is the cache
    afterwards.
   */
  function Handle(q: Query, c: TtlCache.Cache<Payload>, db: Db, io: Io, now: int, offset: int,
                  localeDate: int -> string): (r: (TtlCache.Cache<Payload>, Reply<Payload>))
  {
    var key := CacheKey(q);
    var (c1, hit) := TtlCache.Get(c, key, now);
    if hit.Some? then (c1, Ok(hit.value))
    else if io.Down? then (c1, Fail(500, KpiError, Message(io.message)))
    else match Compute(q, db, now, offset, localeDate)
      case None => (c1, Fail(500, KpiError, RejectedArgument))
      case Some(p) => (TtlCache.Set(c1, key, p, None, now), Ok(p))
  }

  /** A fresh cached answer is returned without looking at the database. */
  lemma CacheHitShortCircuits(q: Query, c: TtlCache.Cache<Payload>, db1: Db, db2: Db, io1: Io, io2: Io,
                              now: int, offset: int, localeDate: int -> string)
    requires TtlCache.Get(c, CacheKey(q), now).1.Some?
    ensures Handle(q, c, db1, io1, now, offset, localeDate) == Handle(q, c, db2, io2, now, offset, localeDate)
    ensures Handle(q, c, db1, io1, now, offset, localeDate).1 == Ok(TtlCache.Get(c, CacheKey(q), now).1.value)
  {
  }

  /** A failure stores nothing: the request's key is not in the cache afterwards. */
  lemma FailureCachesNothing(q: Query, c: TtlCache.Cache<Payload>, db: Db, io: Io, now: int, offset: int,
                             localeDate: int -> string)
    ensures var (c2, r) := Handle(q, c, db, io, now, offset, localeDate);
            r.Fail? ==> r.status == 500 && c2 == TtlCache.Get(c, CacheKey(q), now).0 && CacheKey(q) !in c2.entries
  {
  }

  /**
    A computed answer is cached: the same query within the time to live
    gets the same payload back, whatever the database holds by then.
   */
  lemma RepeatWithinTtl(q: Query, c: TtlCache.Cache<Payload>, db: Db, db2: Db, io2: Io,
                        now: int, later: int, offset: int, localeDate: int -> string)
    requires TtlCache.Get(c, CacheKey(q), now).1.None?
    requires now <= later <= now + TtlCache.Ttl
    ensures var (c2, r) := Handle(q, c, db, Up, now, offset, localeDate);
            r.Ok? ==> Handle(q, c2, db2, io2, later, offset, localeDate).1 == r
  {
  }
}

=== FILE: kpis_new.dfy ===
/**
  The rewrite of `GET /api/dashboard/kpis` kept beside the route
  (`route.new.ts`): the same counters and cache, but the top customers and
  the peak hours come from the 100 newest accesses of the window that have a
  customer, the store id goes to the database unchecked, the mean confidence
  defaults to 0 and there is no time series.
 */
module KpisNew {
  import opened Wrappers
  import opened Js
  import opened Text
  import opened Sorting
  import opened Histogram
  import opened Records
  import opened Http
  import opened Charts
  import opened Kpis
  import TtlCache

  /**
    `storeId ? { storeId: parseInt(storeId) } : {}`. A store id that does not
    parse becomes a NaN condition, which the database client rejects.
   */
  function Scope(q: Query): (r: Option<Restriction>)
    ensures !HasStore(q) ==> r == Some(AnyStore)
    ensures HasStore(q) ==> (r.None? <==> ParseInt(q.storeId.value).NaN?)
    ensures HasStore(q) && ParseInt(q.storeId.value).Int? ==> r == Some(OnlyStore(ParseInt(q.storeId.value).value))
  {
    if !HasStore(q) then Some(AnyStore)
    else match ParseInt(q.storeId.value)
      case NaN => None
      case Int(v) => Some(OnlyStore(v))
  }

  /** The `take` of the access query. */
  const Take: nat := 100

  function CreatedAt(a: Access): int {
    a.createdAt
  }

  /** The accesses of the window that have a customer (`customerId: { not: null }`). */
  function WithCustomer(r: Restriction, start: int): Access -> bool {
    (a: Access) => AccessIn(r, start, None)(a) && a.customerId.Some?
  }

  /** `findMany({ where, orderBy: { createdAt: 'desc' }, take: 100 })`. */
  function Fetched(accesses: seq<Access>, r: Restriction, start: int): seq<Access> {
    Slice(NewestFirst(Filter(accesses, WithCustomer(r, start)), CreatedAt), Take)
  }

  /**
    The fetched rows are the 100 newest of the window's accesses that have a
    customer (all of them when there are fewer), newest first.
   */
  lemma FetchedSpec(accesses: seq<Access>, r: Restriction, start: int)
    ensures |Fetched(accesses, r, start)| ==
              if |Filter(accesses, WithCustomer(r, start))| <= Take then |Filter(accesses, WithCustomer(r, start))| else Take
    ensures multiset(Fetched(accesses, r, start)) <= multiset(Filter(accesses, WithCustomer(r, start)))
    ensures forall i, j :: 0 <= i < j < |Fetched(accesses, r, start)| ==>
              Fetched(accesses, r, start)[i].createdAt >= Fetched(accesses, r, start)[j].createdAt
    ensures forall x, y ::
              (x in Filter(accesses, WithCustomer(r, start)) && x !in Fetched(accesses, r, start) && y in Fetched(accesses, r, start))
              ==> x.createdAt <= y.createdAt
  {
    var rows := Filter(accesses, WithCustomer(r, start));
    var f := Fetched(accesses, r, start);
    assert f == TopBy(rows, CreatedAt, Take);
    TopByContents(rows, CreatedAt, Take);
    TopByOrder(rows, CreatedAt, Take);
    TopByBest(rows, CreatedAt, Take);
    forall i, j | 0 <= i < j < |f| ensures f[i].createdAt >= f[j].createdAt {
      assert CreatedAt(f[i]) >= CreatedAt(f[j]);
    }
    forall x, y | x in rows && x !in f && y in f ensures x.createdAt <= y.createdAt {
      assert CreatedAt(x) <= CreatedAt(y);
    }
  }

  /** Every fetched row is an access of the window with a customer. */
  lemma FetchedRows(accesses: seq<Access>, r: Restriction, start: int)
    ensures forall a :: a in Fetched(accesses, r, start) ==>
              a in accesses && AccessIn(r, start, None)(a) && a.customerId.Some?
  {
    var rows := Filter(accesses, WithCustomer(r, start));
    var f := Fetched(accesses, r, start);
    assert f == TopBy(rows, CreatedAt, Take);
    TopByContents(rows, CreatedAt, Take);
    forall a | a in f ensures a in accesses && AccessIn(r, start, None)(a) && a.customerId.Some? {
      assert a in multiset(rows);
    }
  }

  // ---------------------------------------------------------------------
  // Top customers

  /**
    The customer ids the grouping loop counts, in row order; a row whose
    `customerId` is falsy (absent or 0) is skipped.
   */
  function ClientIds(rows: seq<Access>): seq<int> {
    if rows == [] then []
    else
      var a := rows[|rows| - 1];
      ClientIds(rows[..|rows| - 1]) + (if a.customerId.Some? && a.customerId.value != 0 then [a.customerId.value] else [])
  }

  /** Id `k` is counted once per row of customer `k`, and 0 never. */
  lemma {:induction false} ClientIdsCount(rows: seq<Access>, k: int)
    ensures Occurrences(ClientIds(rows), k) == if k == 0 then 0 else Count(rows, (a: Access) => a.customerId == Some(k))
  {
    if rows != [] {
      var p := rows[..|rows| - 1];
      var a := rows[|rows| - 1];
      ClientIdsCount(p, k);
      if a.customerId.Some? && a.customerId.value != 0 {
        OccurrencesSnoc(ClientIds(p), a.customerId.value, k);
      } else {
        assert ClientIds(p) + [] == ClientIds(p);
      }
    }
  }

  /** A `topClientes` entry of this route. */
  datatype NewClient = NewClient(customerId: int, name: string, imageUrl: string, count: nat)

  const Unidentified := "Cliente não identificado"

  /**
    `customer?.name || 'Cliente não identificado'` and `customer?.imageUrl || ''`
    for the customer of the group's id, with the group's count.
   */
  function NewClientOf(customers: seq<Customer>, g: Group<int>): (t: NewClient)
    ensures t.customerId == g.key && t.count == g.count
    ensures t.name != ""
    ensures (forall i :: 0 <= i < |customers| ==> customers[i].id != g.key) ==> t.name == Unidentified && t.imageUrl == ""
    ensures forall j :: 0 <= j < |customers| && customers[j].id == g.key && (forall k :: 0 <= k < j ==> customers[k].id != g.key) ==>
              && t.imageUrl == customers[j].imageUrl
              && (customers[j].name != "" ==> t.name == customers[j].name)
              && (customers[j].name == "" ==> t.name == Unidentified)
  {
    match Find(customers, (c: Customer) => c.id == g.key)
    case None => NewClient(g.key, Unidentified, "", g.count)
    case Some(c) => NewClient(g.key, if c.name != "" then c.name else Unidentified, c.imageUrl, g.count)
  }

  /** The five customers with most fetched rows: the map's entries sorted by count, descending. */
  function TopIds(fetched: seq<Access>): seq<Group<int>> {
    TopBy(Tally(ClientIds(fetched)), CountOf, 5)
  }

  function NewClients(customers: seq<Customer>, top: seq<Group<int>>): (r: seq<NewClient>)
    ensures |r| == |top|
    ensures forall i :: 0 <= i < |top| ==> r[i] == NewClientOf(customers, top[i])
  {
    seq(|top|, i requires 0 <= i < |top| => NewClientOf(customers, top[i]))
  }

  /** At most five customers, by descending count, none outranked by a customer left out. */
  lemma TopIdsRanked(fetched: seq<Access>)
    ensures |TopIds(fetched)| <= 5
    ensures forall i, j :: 0 <= i < j < |TopIds(fetched)| ==> TopIds(fetched)[i].count >= TopIds(fetched)[j].count
    ensures forall g, t :: g in Tally(ClientIds(fetched)) && g !in TopIds(fetched) && t in TopIds(fetched) ==>
              g.count <= t.count
  {
    TopByCount(Tally(ClientIds(fetched)), 5);
  }

  /**
    Each listed customer is a nonzero id counted once per fetched row of
    that customer, at least once, and no customer is listed twice.
   */
  lemma TopIdsCounted(fetched: seq<Access>)
    ensures forall i :: 0 <= i < |TopIds(fetched)| ==>
              TopIds(fetched)[i].key != 0 &&
              TopIds(fetched)[i].count == Count(fetched, (a: Access) => a.customerId == Some(TopIds(fetched)[i].key)) >= 1
    ensures forall i, j :: 0 <= i < j < |TopIds(fetched)| ==> TopIds(fetched)[i].key != TopIds(fetched)[j].key
  {
    var ids := ClientIds(fetched);
    var top := TopIds(fetched);
    TopCounts(Tally(ids), ids, CountOf, 5);
    forall i | 0 <= i < |top|
      ensures top[i].key != 0 && top[i].count == Count(fetched, (a: Access) => a.customerId == Some(top[i].key)) >= 1
    {
      ClientIdsCount(fetched, top[i].key);
    }
  }

  /**
    Count ties among the top customers go to the most recent visitor. The
    fetched rows are newest first, and the map lists each customer where
    their newest row put them; the sort keeps that order among equal counts.
    So of two listed customers with equal counts, the one whose newest row
    comes first is listed first, and at a tie on the fifth place that
    customer is kept and the other left out.
   */
  lemma TopIdsTieOrder(fetched: seq<Access>)
    ensures forall i, j :: 0 <= i < j < |TopIds(fetched)| && TopIds(fetched)[i].count == TopIds(fetched)[j].count ==>
              FirstAt(ClientIds(fetched), TopIds(fetched)[i].key) < FirstAt(ClientIds(fetched), TopIds(fetched)[j].key)
    ensures forall g, t :: g in Tally(ClientIds(fetched)) && g !in TopIds(fetched) && t in TopIds(fetched) && g.count == t.count ==>
              FirstAt(ClientIds(fetched), t.key) < FirstAt(ClientIds(fetched), g.key)
  {
    TallyTopTies(ClientIds(fetched), 5);
  }

  /** Over a tally, the best `n` by count break ties by first appearance. */
  lemma TallyTopTies(s: seq<int>, n: nat)
    ensures forall i, j :: 0 <= i < j < |TopBy(Tally(s), CountOf, n)| && TopBy(Tally(s), CountOf, n)[i].count == TopBy(Tally(s), CountOf, n)[j].count ==>
              FirstAt(s, TopBy(Tally(s), CountOf, n)[i].key) < FirstAt(s, TopBy(Tally(s), CountOf, n)[j].key)
    ensures forall g, t :: g in Tally(s) && g !in TopBy(Tally(s), CountOf, n) && t in TopBy(Tally(s), CountOf, n) && g.count == t.count ==>
              FirstAt(s, t.key) < FirstAt(s, g.key)
  {
    TallyOrder(s);
    assert IncreasingBy(Tally(s), FirstSeen(s));
    TopByTieOrder(Tally(s), CountOf, n, FirstSeen(s));
  }

  /** The grouping counts every fetched row with a nonzero customer exactly once. */
  lemma GroupsTotal(fetched: seq<Access>)
    ensures Total(Tally(ClientIds(fetched))) == |ClientIds(fetched)| <= |fetched|
  {
    TallyTotal(ClientIds(fetched));
    ClientIdsLength(fetched);
  }

  lemma {:induction false} ClientIdsLength(rows: seq<Access>)
    ensures |ClientIds(rows)| <= |rows|
  {
    if rows != [] {
      ClientIdsLength(rows[..|rows| - 1]);
    }
  }

  // ---------------------------------------------------------------------
  // Peak hours

  /** The five busiest local hours among the fetched rows, from a `Map` keyed by hour. */
  function TopHoursOf(fetched: seq<Access>, offset: int): seq<Group<int>> {
    TopBy(Tally(HoursOf(fetched, offset)), CountOf, 5)
  }

  /** `{ createdAt: `${hour}:00`, _count: count }` for each busiest hour. */
  function HourPoints(top: seq<Group<int>>): (r: seq<ChartPoint>)
    ensures |r| == |top|
    ensures forall i :: 0 <= i < |top| ==> r[i] == ChartPoint(HourMark(top[i].key), top[i].count)
  {
    seq(|top|, i requires 0 <= i < |top| => ChartPoint(HourMark(top[i].key), top[i].count))
  }

  /** At most five hours, by descending count, none outranked by an hour left out. */
  lemma TopHoursRanked(fetched: seq<Access>, offset: int)
    ensures |TopHoursOf(fetched, offset)| <= 5
    ensures forall i, j :: 0 <= i < j < |TopHoursOf(fetched, offset)| ==>
              TopHoursOf(fetched, offset)[i].count >= TopHoursOf(fetched, offset)[j].count
    ensures forall g, t :: g in Tally(HoursOf(fetched, offset)) && g !in TopHoursOf(fetched, offset) && t in TopHoursOf(fetched, offset) ==>
              g.count <= t.count
  {
    TopByCount(Tally(HoursOf(fetched, offset)), 5);
  }

  /** Each listed hour is an hour of the day with its number of fetched rows, and no hour is listed twice. */
  lemma TopHoursCounted(fetched: seq<Access>, offset: int)
    ensures forall i :: 0 <= i < |TopHoursOf(fetched, offset)| ==>
              0 <= TopHoursOf(fetched, offset)[i].key < 24 &&
              TopHoursOf(fetched, offset)[i].count == Occurrences(HoursOf(fetched, offset), TopHoursOf(fetched, offset)[i].key) >= 1
    ensures forall i, j :: 0 <= i < j < |TopHoursOf(fetched, offset)| ==>
              TopHoursOf(fetched, offset)[i].key != TopHoursOf(fetched, offset)[j].key
  {
    var hs := HoursOf(fetched, offset);
    TopCounts(Tally(hs), hs, CountOf, 5);
    TopKeysIn(Tally(hs), hs, 5);
  }

  /** The keys of the best `n` groups are values of `s`; for local hours, hours of the day. */
  lemma TopKeysIn(gs: seq<Group<int>>, s: seq<int>, n: nat)
    requires forall i :: 0 <= i < |gs| ==> gs[i].key in s
    requires forall i :: 0 <= i < |s| ==> 0 <= s[i] < 24
    ensures forall i :: 0 <= i < |TopBy(gs, CountOf, n)| ==> 0 <= TopBy(gs, CountOf, n)[i].key < 24
  {
    var top := TopBy(gs, CountOf, n);
    TopByContents(gs, CountOf, n);
    forall i | 0 <= i < |top| ensures 0 <= top[i].key < 24 {
      assert top[i] in multiset(gs);
      var j :| 0 <= j < |gs| && gs[j] == top[i];
    }
  }

  /**
    Count ties among the peak hours go to the hour of the more recent
    access: of two listed hours with equal counts, the one whose newest
    fetched row comes first is listed first, and it is the one kept at a tie
    on the fifth place.
   */
  lemma TopHoursTieOrder(fetched: seq<Access>, offset: int)
    ensures forall i, j :: 0 <= i < j < |TopHoursOf(fetched, offset)| &&
                           TopHoursOf(fetched, offset)[i].count == TopHoursOf(fetched, offset)[j].count ==>
              FirstAt(HoursOf(fetched, offset), TopHoursOf(fetched, offset)[i].key) <
              FirstAt(HoursOf(fetched, offset), TopHoursOf(fetched, offset)[j].key)
    ensures forall g, t :: g in Tally(HoursOf(fetched, offset)) && g !in TopHoursOf(fetched, offset) &&
                           t in TopHoursOf(fetched, offset) && g.count == t.count ==>
              FirstAt(HoursOf(fetched, offset), t.key) < FirstAt(HoursOf(fetched, offset), g.key)
  {
    TallyTopTies(HoursOf(fetched, offset), 5);
  }

  /** The hour counts add up to the number of fetched rows. */
  lemma HoursTotal(fetched: seq<Access>, offset: int)
    ensures Total(Tally(HoursOf(fetched, offset))) == |fetched|
  {
    TallyTotal(HoursOf(fetched, offset));
  }

  /**
    Unlike the route it replaces, the chart here reads the hour back from
    each point, so `processChartData` orders the peaks by ascending hour.
   */
  lemma HourChartSorted(top: seq<Group<int>>)
    ensures forall i, j :: 0 <= i < j < |top| ==>
              KeyValue(ChartOrder(HourPoints(top))[i]) <= KeyValue(ChartOrder(HourPoints(top))[j])
    ensures forall i :: 0 <= i < |top| ==> ChartKey(HourPoints(top)[i]) == Int(top[i].key)
  {
    var pts := HourPoints(top);
    forall i | 0 <= i < |top| ensures ChartKey(pts[i]) == Int(top[i].key) {
      HourMarkKey(top[i].key, top[i].count);
    }
    ChartOrderSorted(pts);
  }

  // ---------------------------------------------------------------------
  // The handler

  /** `_avg.confidence || 0`: the mean confidence, 0 when the window is empty. */
  function AvgOrZero(rows: seq<Access>): (r: real)
    ensures rows == [] ==> r == 0.0
    ensures rows != [] ==> r * (|rows| as real) == ConfidenceSum(rows)
  {
    match AvgConfidence(rows)
    case None => 0.0
    case Some(v) => v
  }

  datatype NewPayload = NewPayload(
    kpis: seq<Kpi>, topClientes: seq<NewClient>, avgConfianca: real,
    horariosPico: seq<ChartPoint>, labels: seq<string>, series: seq<nat>)

  /** The response computed from the database, or nothing when the store id is rejected. */
  function ComputeNew(q: Query, db: Db, now: int, offset: int): Option<NewPayload> {
    match Scope(q)
    case None => None
    case Some(r) =>
      var start := WindowStart(now, TimeRange(q));
      var fetched := Fetched(db.accesses, r, start);
      var hours := HourPoints(TopHoursOf(fetched, offset));
      var chart := ProcessChartData(hours);
      Some(NewPayload(
        Counters(db, r, start), NewClients(db.customers, TopIds(fetched)),
        AvgOrZero(Filter(db.accesses, AccessIn(r, start, None))), hours, chart.labels, chart.series))
  }

  /**
    The handler: a fresh cached answer is returned as it is; otherwise the
    response is computed, cached under the request's key and returned. Any
    failure is a 500 that caches nothing.
   */
  function HandleNew(q: Query, c: TtlCache.Cache<NewPayload>, db: Db, io: Io, now: int, offset: int)
    : (r: (TtlCache.Cache<NewPayload>, Reply<NewPayload>))
  {
    var key := CacheKey(q);
    var (c1, hit) := TtlCache.Get(c, key, now);
    if hit.Some? then (c1, Ok(hit.value))
    else if io.Down? then (c1, Fail(500, KpiError, Message(io.message)))
    else match ComputeNew(q, db, now, offset)
      case None => (c1, Fail(500, KpiError, RejectedArgument))
      case Some(p) => (TtlCache.Set(c1, key, p, None, now), Ok(p))
  }

  /** A store id that does not parse fails the request, unless a fresh answer was cached under it. */
  lemma UnparsedStoreFails(q: Query, c: TtlCache.Cache<NewPayload>, db: Db, io: Io, now: int, offset: int)
    requires HasStore(q) && ParseInt(q.storeId.value).NaN?
    requires TtlCache.Get(c, CacheKey(q), now).1.None?
    ensures HandleNew(q, c, db, io, now, offset).1.Fail?
    ensures HandleNew(q, c, db, io, now, offset).1.status == 500
    ensures CacheKey(q) !in HandleNew(q, c, db, io, now, offset).0.entries
  {
  }

  /** A computed answer is served again, unchanged, to the same query within the time to live. */
  lemma RepeatWithinTtlNew(q: Query, c: TtlCache.Cache<NewPayload>, db: Db, db2: Db, io2: Io,
                           now: int, later: int, offset: int)
    requires TtlCache.Get(c, CacheKey(q), now).1.None?
    requires now <= later <= now + TtlCache.Ttl
    ensures var (c2, r) := HandleNew(q, c, db, Up, now, offset);
            r.Ok? ==> HandleNew(q, c2, db2, io2, later, offset).1 == r
  {
  }

  /** A parsed store id, or none, always yields an answer when the database is up. */
  lemma AnswersWhenUp(q: Query, c: TtlCache.Cache<NewPayload>, db: Db, now: int, offset: int)
    requires !HasStore(q) || ParseInt(q.storeId.value).Int?
    ensures HandleNew(q, c, db, Up, now, offset).1.Ok?
  {
  }
}

=== FILE: link_route.dfy ===
/**
  `POST /api/technician/link`: a technician links an unlinked device, found by
  its serial number, to a store, which also activates it.
 */
module LinkRoute {
  import opened Wrappers
  import opened Js
  import opened Text
  import opened Records
  import opened Http
  import opened DevicesRoute

  const Required := "serialNumber e storeId são obrigatórios"

  const NotFound := "Dispositivo não encontrado"

  const AlreadyLinked := "Dispositivo já vinculado a uma loja"

  const LinkError := "Erro ao vincular dispositivo"

  /** The fields of the request body. */
  datatype LinkBody = LinkBody(serialNumber: Option<string>, storeId: JsValue)

  function WithSerial(serial: string): Device -> bool {
    (d: Device) => d.serialNumber == serial
  }

  /** `if (device.storeId)`: linked to a store with a non-zero id. */
  predicate Linked(d: Device) {
    d.storeId.Some? && d.storeId.value != 0
  }

  /** The devices with the one at `i` replaced. */
  function Replace(devices: seq<Device>, i: nat, d: Device): (r: seq<Device>)
    requires i < |devices|
    ensures |r| == |devices| && r[i] == d
    ensures forall j :: 0 <= j < |devices| && j != i ==> r[j] == devices[j]
  {
    devices[..i] + [d] + devices[i + 1..]
  }

  function Link(b: LinkBody, db: Db, io: Io): (r: (Db, Reply<Device>))
    ensures r.1.Fail? ==> r.0 == db
    ensures b.serialNumber.None? || b.serialNumber.value == "" || !Truthy(b.storeId) ==>
              r.1 == Fail(400, Required, NoDetails)
    ensures r.1.Ok? ==> r.1.body.status == "ACTIVE" && r.1.body.storeId.Some?
    ensures r.1.Ok? ==> StoreExists(db.stores, r.1.body.storeId.value)
    ensures r.1.Ok? ==> ToNumber(b.storeId) == Int(r.1.body.storeId.value)
  {
    if b.serialNumber.None? || b.serialNumber.value == "" || !Truthy(b.storeId) then
      (db, Fail(400, Required, NoDetails))
    else if io.Down? then (db, Fail(500, LinkError, NoDetails))
    else
      var i := FirstIndex(db.devices, WithSerial(b.serialNumber.value));
      if i < 0 then (db, Fail(404, NotFound, NoDetails))
      else
        var d := db.devices[i];
        if Linked(d) then (db, Fail(400, AlreadyLinked, NoDetails))
        else match ToNumber(b.storeId)
          case NaN => (db, Fail(500, LinkError, NoDetails))
          case Int(n) =>
            if !StoreExists(db.stores, n) then (db, Fail(500, LinkError, NoDetails))
            else
              var updated := d.(storeId := Some(n), status := "ACTIVE");
              (db.(devices := Replace(db.devices, i, updated)), Ok(updated))
  }

  /** An unknown serial number is answered with 404. */
  lemma UnknownSerial(b: LinkBody, db: Db)
    requires b.serialNumber.Some? && b.serialNumber.value != "" && Truthy(b.storeId)
    requires forall j :: 0 <= j < |db.devices| ==> db.devices[j].serialNumber != b.serialNumber.value
    ensures Link(b, db, Up) == (db, Fail(404, NotFound, NoDetails))
  {
  }

  /** A device already linked to a store is refused with 400 and left as it is. */
  lemma LinkedRefused(b: LinkBody, db: Db, i: nat)
    requires b.serialNumber.Some? && b.serialNumber.value != "" && Truthy(b.storeId)
    requires i < |db.devices| && db.devices[i].serialNumber == b.serialNumber.value && Linked(db.devices[i])
    requires UniqueSerials(db.devices)
    ensures Link(b, db, Up) == (db, Fail(400, AlreadyLinked, NoDetails))
  {
    var k := FirstIndex(db.devices, WithSerial(b.serialNumber.value));
    assert WithSerial(b.serialNumber.value)(db.devices[i]);
    assert k == i;
  }

  /**
    A successful link writes exactly the device with that serial number, now
    at the given store and active; every other row of every table is as it
    was.
   */
  lemma LinkWritesOneDevice(b: LinkBody, db: Db, io: Io)
    requires Link(b, db, io).1.Ok?
    ensures var r := Link(b, db, io);
            exists i :: 0 <= i < |db.devices| && db.devices[i].serialNumber == b.serialNumber.value
              && !Linked(db.devices[i])
              && r.1.body == db.devices[i].(storeId := Some(ToNumber(b.storeId).value), status := "ACTIVE")
              && r.0 == db.(devices := r.0.devices)
              && |r.0.devices| == |db.devices|
              && r.0.devices[i] == r.1.body
              && (forall j :: 0 <= j < |db.devices| && j != i ==> r.0.devices[j] == db.devices[j])
  {
    var i := FirstIndex(db.devices, WithSerial(b.serialNumber.value));
    assert 0 <= i < |db.devices|;
  }

  /** The serial numbers are untouched by a link, so they stay unique. */
  lemma LinkKeepsSerialsUnique(b: LinkBody, db: Db, io: Io)
    requires UniqueSerials(db.devices)
    ensures UniqueSerials(Link(b, db, io).0.devices)
  {
    var r := Link(b, db, io);
    if r.1.Ok? {
      LinkWritesOneDevice(b, db, io);
      var i :| 0 <= i < |db.devices| && db.devices[i].serialNumber == b.serialNumber.value
        && r.0.devices[i] == r.1.body
        && (forall j :: 0 <= j < |db.devices| && j != i ==> r.0.devices[j] == db.devices[j]);
      assert forall j :: 0 <= j < |db.devices| ==> r.0.devices[j].serialNumber == db.devices[j].serialNumber;
    }
  }

  /**
    A link cannot be repeated: once a device is linked to a store (store ids
    being positive, as an autoincrement assigns them), linking its serial
    number again is refused.
   */
  lemma LinkTwiceRefused(b: LinkBody, db: Db, io: Io)
    requires forall k :: 0 <= k < |db.stores| ==> db.stores[k].id >= 1
    requires Link(b, db, io).1.Ok?
    ensures Link(b, Link(b, db, io).0, Up) == (Link(b, db, io).0, Fail(400, AlreadyLinked, NoDetails))
  {
    var db2 := Link(b, db, io).0;
    var serial := b.serialNumber.value;
    var i := FirstIndex(db.devices, WithSerial(serial));
    assert 0 <= i < |db.devices|;
    var n := ToNumber(b.storeId).value;
    assert StoreExists(db.stores, n);
    assert n >= 1;
    assert db2.devices[i].serialNumber == serial;
    assert Linked(db2.devices[i]);
    var k := FirstIndex(db2.devices, WithSerial(serial));
    assert WithSerial(serial)(db2.devices[i]);
    assert forall j :: 0 <= j < i ==> db2.devices[j] == db.devices[j] && !WithSerial(serial)(db.devices[j]);
    assert k == i;
  }
}

=== FILE: navbar.dfy ===
/**
  The role-based navigation menus: the dashboard sidebar and the older header
  navigation bar. Each shows the entries of a fixed table whose roles include
  the signed-in user's role, in table order.
 */
module Navbar {
  import opened Records

  /** A menu entry: its `label` text (here `title`), its link and the roles it is shown to. */
  datatype MenuItem = MenuItem(title: string, href: string, roles: seq<string>)

  const Everyone: seq<string> := ["ADM", "LOJISTA", "TECNICO"]

  /** The entries of the dashboard sidebar. */
  const Sidebar: seq<MenuItem> := [
    MenuItem("Dashboard", "/dashboard", Everyone),
    MenuItem("Lojas", "/dashboard/lojas", ["ADM", "LOJISTA"]),
    MenuItem("Clientes", "/dashboard/clientes", ["ADM", "LOJISTA"]),
    MenuItem("Tráfego", "/dashboard/trafego", ["ADM", "LOJISTA"]),
    MenuItem("Vincular Dispositivo", "/dashboard/vinculacao", ["ADM", "TECNICO"]),
    MenuItem("Dispositivos", "/dashboard/dispositivos", ["ADM", "LOJISTA"]),
    MenuItem("Config. do Sistema", "/dashboard/config-sistema", ["ADM"]),
    MenuItem("Configurações", "/dashboard/configuracoes", Everyone)
  ]

  /** The entries of the header navigation bar. */
  const Header: seq<MenuItem> := [
    MenuItem("Home", "/dashboard", Everyone),
    MenuItem("Gerenciar Lojistas", "/dashboard/lojistas", ["ADM"]),
    MenuItem("Técnico", "/dashboard/tecnico", ["TECNICO"]),
    MenuItem("Configurações", "/dashboard/configuracoes", Everyone)
  ]

  function ShownTo(role: string): MenuItem -> bool {
    (m: MenuItem) => role in m.roles
  }

  /** The entries shown to a role, in table order. */
  function Visible(items: seq<MenuItem>, role: string): (r: seq<MenuItem>)
    ensures |r| <= |items|
  {
    if items == [] then []
    else (if role in items[0].roles then [items[0]] else []) + Visible(items[1..], role)
  }

  /** The menu filter is the table filter `items.filter(...)`. */
  lemma {:induction false} VisibleIsFilter(items: seq<MenuItem>, role: string)
    ensures Visible(items, role) == Filter(items, ShownTo(role))
  {
    if items != [] {
      VisibleIsFilter(items[1..], role);
      assert items == [items[0]] + items[1..];
      FilterCons(items[0], items[1..], ShownTo(role));
    }
  }

  function Titles(items: seq<MenuItem>): (r: seq<string>)
    ensures |r| == |items|
    ensures forall i :: 0 <= i < |items| ==> r[i] == items[i].title
  {
    seq(|items|, i requires 0 <= i < |items| => items[i].title)
  }

  /**
    An entry is shown exactly when it is in the table and lists the role, and
    the shown entries keep the table's order.
   */
  lemma VisibleSpec(items: seq<MenuItem>, role: string)
    ensures forall m :: m in Visible(items, role) <==> m in items && role in m.roles
    ensures Subsequence(Visible(items, role), items)
  {
    VisibleIsFilter(items, role);
    forall m | m in items && role in m.roles
      ensures m in Visible(items, role)
    {
      var i :| 0 <= i < |items| && items[i] == m;
    }
    FilterIsSubsequence(items, ShownTo(role));
  }

  /** A role that no entry lists sees an empty menu. */
  lemma {:induction false} UnlistedRoleSeesNothing(items: seq<MenuItem>, role: string)
    requires forall i :: 0 <= i < |items| ==> role !in items[i].roles
    ensures Visible(items, role) == []
  {
    if items != [] {
      UnlistedRoleSeesNothing(items[1..], role);
    }
  }

  // ---------------------------------------------------------------------
  // The sidebar

  /** A role every entry lists sees the whole table. */
  lemma {:induction false} ListedEverywhereSeesAll(items: seq<MenuItem>, role: string)
    requires forall i :: 0 <= i < |items| ==> role in items[i].roles
    ensures Visible(items, role) == items
  {
    if items != [] {
      ListedEverywhereSeesAll(items[1..], role);
      assert items == [items[0]] + items[1..];
    }
  }

  /** An administrator sees the whole sidebar. */
  lemma SidebarAdm()
    ensures Visible(Sidebar, "ADM") == Sidebar
  {
    assert forall i :: 0 <= i < |Sidebar| ==> Sidebar[i].roles[0] == "ADM";
    ListedEverywhereSeesAll(Sidebar, "ADM");
  }

  /** The last four sidebar entries a shop owner sees. */
  lemma SidebarLojistaTail()
    ensures Visible(Sidebar[4..], "LOJISTA") == [Sidebar[5], Sidebar[7]]
  {
    assert Visible(Sidebar[7..], "LOJISTA") == [Sidebar[7]];
    assert Visible(Sidebar[6..], "LOJISTA") == [Sidebar[7]];
    assert Visible(Sidebar[5..], "LOJISTA") == [Sidebar[5], Sidebar[7]];
  }

  lemma SidebarLojista()
    ensures Titles(Visible(Sidebar, "LOJISTA")) ==
              ["Dashboard", "Lojas", "Clientes", "Tráfego", "Dispositivos", "Configurações"]
  {
    SidebarLojistaTail();
    assert Visible(Sidebar[3..], "LOJISTA") == [Sidebar[3], Sidebar[5], Sidebar[7]];
    assert Visible(Sidebar[2..], "LOJISTA") == [Sidebar[2], Sidebar[3], Sidebar[5], Sidebar[7]];
    assert Visible(Sidebar[1..], "LOJISTA") == [Sidebar[1], Sidebar[2], Sidebar[3], Sidebar[5], Sidebar[7]];
    assert Visible(Sidebar, "LOJISTA") == [Sidebar[0], Sidebar[1], Sidebar[2], Sidebar[3], Sidebar[5], Sidebar[7]];
  }

  lemma SidebarTecnico()
    ensures Titles(Visible(Sidebar, "TECNICO")) == ["Dashboard", "Vincular Dispositivo", "Configurações"]
  {
    assert Visible(Sidebar[7..], "TECNICO") == [Sidebar[7]];
    assert Visible(Sidebar[6..], "TECNICO") == [Sidebar[7]];
    assert Visible(Sidebar[5..], "TECNICO") == [Sidebar[7]];
    assert Visible(Sidebar[4..], "TECNICO") == [Sidebar[4], Sidebar[7]];
    assert Visible(Sidebar[3..], "TECNICO") == [Sidebar[4], Sidebar[7]];
    assert Visible(Sidebar[2..], "TECNICO") == [Sidebar[4], Sidebar[7]];
    assert Visible(Sidebar[1..], "TECNICO") == [Sidebar[4], Sidebar[7]];
    assert Visible(Sidebar, "TECNICO") == [Sidebar[0], Sidebar[4], Sidebar[7]];
  }

  /** A title is shown only through an entry that has it and lists the role. */
  lemma TitleShown(items: seq<MenuItem>, role: string, t: string)
    requires t in Titles(Visible(items, role))
    ensures exists i :: 0 <= i < |items| && items[i].title == t && role in items[i].roles
  {
    var v := Visible(items, role);
    VisibleSpec(items, role);
    var k :| 0 <= k < |v| && Titles(v)[k] == t;
    assert v[k] in items;
    var i :| 0 <= i < |items| && items[i] == v[k];
  }

  /** Only an administrator sees the system settings. */
  lemma SystemSettingsAdminOnly(role: string)
    ensures "Config. do Sistema" in Titles(Visible(Sidebar, role)) ==> role == "ADM"
  {
    if "Config. do Sistema" in Titles(Visible(Sidebar, role)) {
      TitleShown(Sidebar, role, "Config. do Sistema");
      var i :| 0 <= i < |Sidebar| && Sidebar[i].title == "Config. do Sistema" && role in Sidebar[i].roles;
      assert i == 6;
    }
  }

  /** A role outside the three sees nothing in the sidebar. */
  lemma SidebarUnknownRole(role: string)
    requires role !in Everyone
    ensures Visible(Sidebar, role) == []
  {
    UnlistedRoleSeesNothing(Sidebar, role);
  }

  // ---------------------------------------------------------------------
  // The header bar

  lemma HeaderAdm()
    ensures Titles(Visible(Header, "ADM")) == ["Home", "Gerenciar Lojistas", "Configurações"]
  {
    assert Visible(Header[3..], "ADM") == [Header[3]];
    assert Visible(Header[2..], "ADM") == [Header[3]];
    assert Visible(Header[1..], "ADM") == [Header[1], Header[3]];
  }

  lemma HeaderLojista()
    ensures Titles(Visible(Header, "LOJISTA")) == ["Home", "Configurações"]
  {
    assert Visible(Header[3..], "LOJISTA") == [Header[3]];
    assert Visible(Header[2..], "LOJISTA") == [Header[3]];
    assert Visible(Header[1..], "LOJISTA") == [Header[3]];
  }

  lemma HeaderTecnico()
    ensures Titles(Visible(Header, "TECNICO")) == ["Home", "Técnico", "Configurações"]
  {
    assert Visible(Header[3..], "TECNICO") == [Header[3]];
    assert Visible(Header[2..], "TECNICO") == [Header[2], Header[3]];
    assert Visible(Header[1..], "TECNICO") == [Header[2], Header[3]];
  }

  /** A role outside the three, such as `ADMIN`, sees nothing in the header bar. */
  lemma HeaderUnknownRole(role: string)
    requires role !in Everyone
    ensures Visible(Header, role) == []
  {
    UnlistedRoleSeesNothing(Header, role);
  }
}

=== FILE: numbers.dfy ===
/**
  The slice of JavaScript value semantics the routes rely on: numbers that are
  either integers or NaN, truthiness, and the `Number(...)` conversion of a
  request-body value.
 */
module Js {

  /** A JavaScript number restricted to the integers, plus NaN. */
  datatype JsNum = Int(value: int) | NaN {

    /** `if (n)`: zero and NaN are falsy. */
    predicate Truthy() {
      Int? && value != 0
    }
  }

  /** A request-body field as it arrives from `request.json()`. */
  datatype JsValue = Undefined | Null | Num(num: JsNum) | Str(str: string)

  /** JavaScript truthiness of a body field. */
  predicate Truthy(v: JsValue) {
    match v
    case Undefined => false
    case Null => false
    case Num(n) => n.Truthy()
    case Str(s) => s != ""
  }
}

=== FILE: records.dfy ===
/**
  The rows of the database tables the routes read and write, and the query
  shapes they use: filtering (`where`), `findFirst`/`findUnique`,
  `orderBy: { createdAt: 'desc' }` and the id a `create` assigns. A table is
  an immutable sequence of rows in insertion order; instants are
  milliseconds since the epoch.
 */
module Records {
  import opened Wrappers
  import opened Sorting

  datatype User = User(id: int, name: string, email: string, password: string, role: string, createdAt: int)

  /** A user as the routes hand it out: every column but the password. */
  datatype UserData = UserData(id: int, name: string, email: string, role: string, createdAt: int)

  /** The `select` of every column but `password`. */
  function Profile(u: User): (p: UserData)
    ensures p.id == u.id && p.name == u.name && p.email == u.email
    ensures p.role == u.role && p.createdAt == u.createdAt
  {
    UserData(u.id, u.name, u.email, u.role, u.createdAt)
  }

  /**
    The profile forgets exactly the password: two users have the same
    profile if and only if they differ at most in their passwords.
   */
  lemma ProfileIgnoresPassword(u: User, v: User)
    ensures Profile(u) == Profile(v) <==> u.(password := v.password) == v
  {
    if Profile(u) == Profile(v) {
      assert u.(password := v.password) == v;
    }
  }

  datatype Store = Store(id: int, name: string, address: string, ownerId: int, createdAt: int)

  /** A door device; `tag` is the source's `label` column (`label` is a Dafny keyword). */
  datatype Device = Device(
    id: int, tag: string, doorName: string, serialNumber: string,
    storeId: Option<int>, status: string, createdAt: int)

  datatype Customer = Customer(
    id: int, storeId: int, name: string, email: Option<string>, phone: Option<string>,
    imageUrl: string, status: string, createdAt: int)

  /** A face-recognition access (`FaceAccess`): who was seen, where, when and how surely. */
  datatype Access = Access(
    id: int, storeId: int, deviceId: int, customerId: Option<int>,
    capturedImageUrl: string, confidence: real, createdAt: int)

  datatype SystemConfig = SystemConfig(id: int, systemName: string, logoUrl: Option<string>)

  /** The tables, each in insertion order. */
  datatype Db = Db(
    users: seq<User>, stores: seq<Store>, devices: seq<Device>, customers: seq<Customer>,
    accesses: seq<Access>, configs: seq<SystemConfig>)

  // ---------------------------------------------------------------------
  // Queries

  /** The rows satisfying `p`, in table order (`findMany({ where })`). */
  function Filter<T>(s: seq<T>, p: T -> bool): (r: seq<T>)
    ensures |r| <= |s|
    ensures forall i :: 0 <= i < |r| ==> p(r[i]) && r[i] in s
    ensures forall i :: 0 <= i < |s| && p(s[i]) ==> s[i] in r
  {
    if s == [] then []
    else
      var f := Filter(s[..|s| - 1], p);
      assert forall x :: x in s[..|s| - 1] ==> x in s;
      assert forall i :: 0 <= i < |s| - 1 ==> s[i] == s[..|s| - 1][i];
      if p(s[|s| - 1]) then f + [s[|s| - 1]] else f
  }

  /** The condition "the key is `k`": the elements that tie at `k`. */
  function KeyIs<T>(key: T -> int, k: int): T -> bool {
    (y: T) => key(y) == k
  }

  /** Filtering a concatenation filters each part. */
  lemma {:induction false} FilterAppend<T>(a: seq<T>, b: seq<T>, p: T -> bool)
    ensures Filter(a + b, p) == Filter(a, p) + Filter(b, p)
  {
    if b != [] {
      var init := b[..|b| - 1];
      var last := b[|b| - 1];
      FilterAppend(a, init, p);
      assert (a + b)[..|a + b| - 1] == a + init;
      assert (a + b)[|a + b| - 1] == last;
      assert Filter(a + b, p) == Filter(a + init, p) + (if p(last) then [last] else []);
      assert Filter(b, p) == Filter(init, p) + (if p(last) then [last] else []);
    } else {
      assert a + b == a;
    }
  }

  /** The rows of a prefix that satisfy `p` are the first ones of the whole table. */
  lemma FilterPrefix<T>(s: seq<T>, m: nat, p: T -> bool)
    requires m <= |s|
    ensures |Filter(s[..m], p)| <= |Filter(s, p)|
    ensures Filter(s[..m], p) == Filter(s, p)[..|Filter(s[..m], p)|]
  {
    assert s == s[..m] + s[m..];
    FilterAppend(s[..m], s[m..], p);
  }

  /** The number of rows satisfying `p` (`count({ where })`). */
  function Count<T>(s: seq<T>, p: T -> bool): nat {
    |Filter(s, p)|
  }

  /** The sum of a sequence of counts. */
  function Sum(s: seq<nat>): nat {
    if s == [] then 0 else Sum(s[..|s| - 1]) + s[|s| - 1]
  }

  /** `r` is `s` with some elements left out, the rest in their order. */
  ghost predicate Subsequence<T>(r: seq<T>, s: seq<T>)
    decreases |s|
  {
    if r == [] then true
    else if s == [] then false
    else
      || (r[|r| - 1] == s[|s| - 1] && Subsequence(r[..|r| - 1], s[..|s| - 1]))
      || Subsequence(r, s[..|s| - 1])
  }

  lemma {:induction false} FilterIsSubsequence<T>(s: seq<T>, p: T -> bool)
    ensures Subsequence(Filter(s, p), s)
  {
    if s != [] {
      var f := Filter(s[..|s| - 1], p);
      FilterIsSubsequence(s[..|s| - 1], p);
      if p(s[|s| - 1]) {
        assert (f + [s[|s| - 1]])[..|f|] == f;
      }
    }
  }

  /** Filtering by a stronger condition is filtering the weaker condition's result. */
  lemma {:induction false} FilterStronger<T>(s: seq<T>, p: T -> bool, q: T -> bool)
    requires forall x :: q(x) ==> p(x)
    ensures Filter(s, q) == Filter(Filter(s, p), q)
  {
    if s != [] {
      var x := s[|s| - 1];
      var f := Filter(s[..|s| - 1], p);
      FilterStronger(s[..|s| - 1], p, q);
      if p(x) {
        assert (f + [x])[..|f|] == f;
      }
    }
  }

  /** Filtering a table with a first row filters that row, then the rest. */
  lemma {:induction false} FilterCons<T>(x: T, s: seq<T>, p: T -> bool)
    ensures Filter([x] + s, p) == (if p(x) then [x] else []) + Filter(s, p)
  {
    if s != [] {
      var init := s[..|s| - 1];
      FilterCons(x, init, p);
      assert ([x] + s)[..|[x] + s| - 1] == [x] + init;
    }
  }

  /** A condition every row meets keeps the whole table. */
  lemma {:induction false} FilterAll<T>(s: seq<T>, p: T -> bool)
    requires forall x :: p(x)
    ensures Filter(s, p) == s
  {
    if s != [] {
      FilterAll(s[..|s| - 1], p);
    }
  }

  /** A filter keeps as many rows as the table has exactly when every row passes it. */
  lemma {:induction false} FilterFull<T>(s: seq<T>, p: T -> bool)
    ensures |Filter(s, p)| == |s| <==> forall i :: 0 <= i < |s| ==> p(s[i])
  {
    if s != [] {
      var init := s[..|s| - 1];
      FilterFull(init, p);
      assert forall i :: 0 <= i < |init| ==> init[i] == s[i];
      if !p(s[|s| - 1]) {
        assert |Filter(s, p)| <= |init|;
      }
    }
  }

  /** Conditions that agree on every row select the same rows. */
  lemma {:induction false} FilterSame<T>(s: seq<T>, p: T -> bool, q: T -> bool)
    requires forall x :: p(x) == q(x)
    ensures Filter(s, p) == Filter(s, q)
  {
    if s != [] {
      FilterSame(s[..|s| - 1], p, q);
    }
  }

  /** Counting rows that satisfy one of two exclusive conditions adds the two counts. */
  lemma {:induction false} CountSplit<T>(s: seq<T>, p: T -> bool, q: T -> bool, pq: T -> bool)
    requires forall x :: pq(x) <==> p(x) || q(x)
    requires forall x :: !(p(x) && q(x))
    ensures Count(s, pq) == Count(s, p) + Count(s, q)
  {
    if s != [] {
      CountSplit(s[..|s| - 1], p, q, pq);
    }
  }

  /** The position of the first row satisfying `p`, or -1. */
  function FirstIndex<T>(s: seq<T>, p: T -> bool): (i: int)
    ensures -1 <= i < |s|
    ensures i >= 0 ==> p(s[i])
    ensures forall j :: 0 <= j < |s| && (i < 0 || j < i) ==> !p(s[j])
  {
    if s == [] then -1
    else if p(s[0]) then 0
    else
      var i := FirstIndex(s[1..], p);
      if i < 0 then -1 else i + 1
  }

  /** The first row satisfying `p` (`findFirst`, and `findUnique` on a unique column). */
  function Find<T>(s: seq<T>, p: T -> bool): (r: Option<T>)
    ensures r.Some? ==> r.value in s && p(r.value)
    ensures r.None? ==> forall j :: 0 <= j < |s| ==> !p(s[j])
    ensures forall i :: 0 <= i < |s| && p(s[i]) && (forall j :: 0 <= j < i ==> !p(s[j])) ==> r == Some(s[i])
  {
    var i := FirstIndex(s, p);
    if i < 0 then None else Some(s[i])
  }

  /** The ids of a table's rows, in table order. */
  function Ids<T>(rows: seq<T>, id: T -> int): (ids: seq<int>)
    ensures |ids| == |rows|
    ensures forall i :: 0 <= i < |rows| ==> ids[i] == id(rows[i])
  {
    seq(|rows|, i requires 0 <= i < |rows| => id(rows[i]))
  }

  /** An id above every id in use (the next value of an autoincrement column). */
  function FreshId(ids: seq<int>): (r: int)
    ensures r >= 1
    ensures forall i :: 0 <= i < |ids| ==> ids[i] < r
  {
    if ids == [] then 1
    else
      var r := FreshId(ids[..|ids| - 1]);
      assert forall i :: 0 <= i < |ids| - 1 ==> ids[i] == ids[..|ids| - 1][i];
      if ids[|ids| - 1] < r then r else ids[|ids| - 1] + 1
  }

  // ---------------------------------------------------------------------
  // Stability of `SortBy`

  /** No row satisfies `p`, so none is kept. */
  lemma {:induction false} FilterNone<T>(s: seq<T>, p: T -> bool)
    requires forall i :: 0 <= i < |s| ==> !p(s[i])
    ensures Filter(s, p) == []
  {
    if s != [] {
      FilterNone(s[..|s| - 1], p);
    }
  }

  /** Inserting into a key-sorted sequence places `x` after every element with its key. */
  lemma {:induction false} InsertAfterTies<T>(x: T, t: seq<T>, before: (T, T) -> bool, key: T -> int, k: int)
    requires SortedByKey(t, key)
    requires forall y :: y in t ==> (before(x, y) <==> key(x) < key(y))
    ensures Filter(Insert(x, t, before), KeyIs(key, k)) == Filter(t, KeyIs(key, k)) + (if key(x) == k then [x] else [])
  {
    var p := KeyIs(key, k);
    if t == [] {
      FilterCons(x, t, p);
    } else if before(x, t[0]) {
      assert t[0] in t;
      InsertInFront(x, t, before, key, k);
    } else {
      var rest := t[1..];
      SortedTail(t, key);
      forall y | y in rest ensures before(x, y) <==> key(x) < key(y) {
        assert y in t;
      }
      InsertAfterTies(x, rest, before, key, k);
      InsertPast(x, t, before, p);
      var head := if p(t[0]) then [t[0]] else [];
      var tail := if key(x) == k then [x] else [];
      calc {
        Filter(Insert(x, t, before), p);
        head + Filter(Insert(x, rest, before), p);
        head + (Filter(rest, p) + tail);
        (head + Filter(rest, p)) + tail;
        Filter(t, p) + tail;
      }
    }
  }

  /** `x` goes in front of a sorted sequence whose keys all exceed its own. */
  lemma InsertInFront<T>(x: T, t: seq<T>, before: (T, T) -> bool, key: T -> int, k: int)
    requires t != [] && SortedByKey(t, key) && before(x, t[0]) && key(x) < key(t[0])
    ensures Filter(Insert(x, t, before), KeyIs(key, k)) == Filter(t, KeyIs(key, k)) + (if key(x) == k then [x] else [])
  {
    var p := KeyIs(key, k);
    FilterCons(x, t, p);
    if key(x) == k {
      forall i | 0 <= i < |t| ensures !p(t[i]) {
        assert key(t[0]) <= key(t[i]);
      }
      FilterNone(t, p);
    }
  }

  lemma SortedTail<T>(t: seq<T>, key: T -> int)
    requires t != [] && SortedByKey(t, key)
    ensures SortedByKey(t[1..], key)
  {
    forall i, j | 0 <= i < j < |t| - 1 ensures key(t[1..][i]) <= key(t[1..][j]) {
      assert t[1..][i] == t[i + 1] && t[1..][j] == t[j + 1];
    }
  }

  /** Insertion that passes the first element keeps it first in any filter. */
  lemma InsertPast<T>(x: T, t: seq<T>, before: (T, T) -> bool, p: T -> bool)
    requires t != [] && !before(x, t[0])
    ensures Filter(Insert(x, t, before), p) == (if p(t[0]) then [t[0]] else []) + Filter(Insert(x, t[1..], before), p)
    ensures Filter(t, p) == (if p(t[0]) then [t[0]] else []) + Filter(t[1..], p)
  {
    assert t == [t[0]] + t[1..];
    assert Insert(x, t, before) == [t[0]] + Insert(x, t[1..], before);
    FilterCons(t[0], Insert(x, t[1..], before), p);
    FilterCons(t[0], t[1..], p);
  }

  /**
    `SortBy` is stable: for a comparator that orders by a key, the elements
    that tie on any key value come out in their input order.
   */
  lemma {:induction false} SortByStable<T>(s: seq<T>, before: (T, T) -> bool, key: T -> int, k: int)
    requires OrdersByKey(s, before, key)
    ensures Filter(SortBy(s, before), KeyIs(key, k)) == Filter(s, KeyIs(key, k))
  {
    if s != [] {
      var init := s[..|s| - 1];
      var x := s[|s| - 1];
      assert forall y :: y in init ==> y in s;
      SortByStable(init, before, key, k);
      var q := SortBy(init, before);
      SortBySorted(init, before, key);
      forall y | y in q ensures before(x, y) <==> key(x) < key(y) {
        assert y in multiset(q);
        assert y in init;
      }
      InsertAfterTies(x, q, before, key, k);
    }
  }

  /** The key that orders `Descending(key)` ascending. */
  function Negated<T>(key: T -> int): T -> int {
    (x: T) => -key(x)
  }

  /** Ties on the negated key are ties on the key itself. */
  lemma NegatedTies<T>(s: seq<T>, key: T -> int, k: int)
    ensures Filter(s, KeyIs(Negated(key), -k)) == Filter(s, KeyIs(key, k))
  {
    FilterSame(s, KeyIs(Negated(key), -k), KeyIs(key, k));
  }

  /** Sorting by descending key is stable too. */
  lemma DescendingStable<T>(s: seq<T>, key: T -> int, k: int)
    ensures Filter(SortBy(s, Descending(key)), KeyIs(key, k)) == Filter(s, KeyIs(key, k))
  {
    assert OrdersByKey(s, Descending(key), Negated(key));
    SortByStable(s, Descending(key), Negated(key), -k);
    NegatedTies(SortBy(s, Descending(key)), key, k);
    NegatedTies(s, key, k);
  }

  /**
    `TopBy` keeps tied entries in input order: the kept entries with key `k`
    are the first entries with key `k` in the input.
   */
  lemma TopByStable<T>(s: seq<T>, key: T -> int, n: nat, k: int)
    ensures var kept := Filter(TopBy(s, key, n), KeyIs(key, k));
            |kept| <= |Filter(s, KeyIs(key, k))| && kept == Filter(s, KeyIs(key, k))[..|kept|]
  {
    var q := SortBy(s, Descending(key));
    var top := TopBy(s, key, n);
    assert top == q[..|top|];
    DescendingStable(s, key, k);
    FilterPrefix(q, |top|, KeyIs(key, k));
  }

  /** `rank` strictly increases along `s`. */
  ghost predicate IncreasingBy<T>(s: seq<T>, rank: T -> int) {
    forall i, j :: 0 <= i < j < |s| ==> rank(s[i]) < rank(s[j])
  }

  /** Filtering keeps a sequence of increasing rank increasing. */
  lemma {:induction false} FilterIncreasing<T>(s: seq<T>, p: T -> bool, rank: T -> int)
    requires IncreasingBy(s, rank)
    ensures IncreasingBy(Filter(s, p), rank)
  {
    if s != [] {
      var init := s[..|s| - 1];
      var last := s[|s| - 1];
      forall i, j | 0 <= i < j < |init| ensures rank(init[i]) < rank(init[j]) {
        assert init[i] == s[i] && init[j] == s[j];
      }
      FilterIncreasing(init, p, rank);
      var f := Filter(init, p);
      forall m | 0 <= m < |f| ensures rank(f[m]) < rank(last) {
        var k :| 0 <= k < |init| && init[k] == f[m];
        assert init[k] == s[k];
      }
    }
  }

  /**
    When the rows of `t` that satisfy `p` come in increasing rank, any two
    of them are in increasing rank wherever they stand in `t`.
   */
  lemma {:induction false} IncreasingFilterOrders<T>(t: seq<T>, p: T -> bool, rank: T -> int, i: nat, j: nat)
    requires i < j < |t| && p(t[i]) && p(t[j])
    requires IncreasingBy(Filter(t, p), rank)
    ensures rank(t[i]) < rank(t[j])
  {
    var init := t[..|t| - 1];
    var f := Filter(init, p);
    assert init[i] == t[i];
    if j < |t| - 1 {
      assert init[j] == t[j];
      forall a, b | 0 <= a < b < |f| ensures rank(f[a]) < rank(f[b]) {
        assert f[a] == Filter(t, p)[a] && f[b] == Filter(t, p)[b];
      }
      IncreasingFilterOrders(init, p, rank, i, j);
    } else {
      var a :| 0 <= a < |f| && f[a] == t[i];
      assert Filter(t, p) == f + [t[j]];
      assert Filter(t, p)[a] == t[i] && Filter(t, p)[|f|] == t[j];
    }
  }

  /**
    Ties in `TopBy` are broken by input position: over an input whose
    `rank` increases, entries kept with equal keys are in increasing rank,
    and a tied entry left out ranks after every tied entry kept.
   */
  lemma TopByTieOrder<T>(s: seq<T>, key: T -> int, n: nat, rank: T -> int)
    requires IncreasingBy(s, rank)
    ensures forall i, j :: 0 <= i < j < |TopBy(s, key, n)| && key(TopBy(s, key, n)[i]) == key(TopBy(s, key, n)[j]) ==>
              rank(TopBy(s, key, n)[i]) < rank(TopBy(s, key, n)[j])
    ensures forall x, y :: x in s && x !in TopBy(s, key, n) && y in TopBy(s, key, n) && key(x) == key(y) ==>
              rank(y) < rank(x)
  {
    var top := TopBy(s, key, n);
    forall i, j | 0 <= i < j < |top| && key(top[i]) == key(top[j]) ensures rank(top[i]) < rank(top[j]) {
      TopTiesIncreasing(s, key, n, rank, key(top[i]));
      IncreasingFilterOrders(top, KeyIs(key, key(top[i])), rank, i, j);
    }
    forall x, y | x in s && x !in top && y in top && key(x) == key(y) ensures rank(y) < rank(x) {
      LeftOutRanksAfter(s, key, n, rank, x, y);
    }
  }

  /** The kept entries with key `k` come in increasing rank. */
  lemma TopTiesIncreasing<T>(s: seq<T>, key: T -> int, n: nat, rank: T -> int, k: int)
    requires IncreasingBy(s, rank)
    ensures IncreasingBy(Filter(TopBy(s, key, n), KeyIs(key, k)), rank)
  {
    var f := Filter(s, KeyIs(key, k));
    var kept := Filter(TopBy(s, key, n), KeyIs(key, k));
    TopByStable(s, key, n, k);
    FilterIncreasing(s, KeyIs(key, k), rank);
    forall a, b | 0 <= a < b < |kept| ensures rank(kept[a]) < rank(kept[b]) {
      assert kept[a] == f[a] && kept[b] == f[b];
    }
  }

  /** A tied entry left out of `TopBy` ranks after a tied entry kept. */
  lemma LeftOutRanksAfter<T>(s: seq<T>, key: T -> int, n: nat, rank: T -> int, x: T, y: T)
    requires IncreasingBy(s, rank)
    requires x in s && x !in TopBy(s, key, n) && y in TopBy(s, key, n) && key(x) == key(y)
    ensures rank(y) < rank(x)
  {
    var top := TopBy(s, key, n);
    var p := KeyIs(key, key(y));
    var f := Filter(s, p);
    var kept := Filter(top, p);
    TopByStable(s, key, n, key(y));
    FilterIncreasing(s, p, rank);
    var ix :| 0 <= ix < |s| && s[ix] == x;
    var a :| 0 <= a < |f| && f[a] == x;
    var iy :| 0 <= iy < |top| && top[iy] == y;
    var b :| 0 <= b < |kept| && kept[b] == y;
    forall c | 0 <= c < |kept| ensures f[c] in top {
      assert f[c] == kept[c];
    }
    assert a >= |kept|;
    assert f[b] == y;
  }

  /**
    `orderBy: { createdAt: 'desc' }`. The database returns rows stamped alike
    in an order of its own; the model chooses table order for them, and only
    the descending order of the stamps is promised.
   */
  function NewestFirst<T>(s: seq<T>, createdAt: T -> int): seq<T> {
    SortBy(s, Descending(createdAt))
  }

  /** The newest-first order holds the same rows, each no older than the next. */
  lemma NewestFirstSorted<T>(s: seq<T>, createdAt: T -> int)
    ensures multiset(NewestFirst(s, createdAt)) == multiset(s)
    ensures forall i, j :: 0 <= i < j < |s| ==>
              createdAt(NewestFirst(s, createdAt)[i]) >= createdAt(NewestFirst(s, createdAt)[j])
  {
    var key := (x: T) => -createdAt(x);
    assert OrdersByKey(s, Descending(createdAt), key);
    SortBySorted(s, Descending(createdAt), key);
  }

  /** A filtered query ordered newest first returns the matching rows, each once, and only them. */
  lemma NewestFirstFilter<T>(s: seq<T>, p: T -> bool, createdAt: T -> int)
    ensures multiset(NewestFirst(Filter(s, p), createdAt)) == multiset(Filter(s, p))
    ensures forall i :: 0 <= i < |NewestFirst(Filter(s, p), createdAt)| ==> p(NewestFirst(Filter(s, p), createdAt)[i])
    ensures forall i, j :: 0 <= i < j < |NewestFirst(Filter(s, p), createdAt)| ==>
              createdAt(NewestFirst(Filter(s, p), createdAt)[i]) >= createdAt(NewestFirst(Filter(s, p), createdAt)[j])
  {
    var f := Filter(s, p);
    NewestFirstSorted(f, createdAt);
    var o := NewestFirst(f, createdAt);
    forall i | 0 <= i < |o|
      ensures p(o[i])
    {
      assert o[i] in multiset(f);
      var k :| 0 <= k < |f| && f[k] == o[i];
    }
  }
}

=== FILE: recover_route.dfy ===
/**
  `POST /api/auth/recover`: a password-recovery request. The answer never
  reveals whether the e-mail is registered; for a registered one a recovery
  token is signed (and only logged). Token signing is a parameter.
 */
module RecoverRoute {
  import opened Wrappers
  import opened Records
  import opened Http

  const Required := "Email é obrigatório"

  const InternalError := "Erro interno do servidor"

  const Sent := "Se o email estiver cadastrado, você receberá um link de recuperação"

  /** One hour, the lifetime of a recovery token, in seconds (`expiresIn: '1h'`). */
  const TokenLifetime: nat := 3600

  /** What a recovery token is signed over, and for how long it is valid. */
  datatype TokenRequest = TokenRequest(userId: int, email: string, expiresIn: nat)

  /** The answer, and the token signed on the way, if any. */
  datatype Outcome = Outcome(reply: Reply<string>, token: Option<TokenRequest>)

  function WithEmail(email: string): User -> bool {
    (u: User) => u.email == email
  }

  /** The handler; it reads the user table and writes nothing. */
  function Recover(email: Option<string>, users: seq<User>, io: Io): (o: Outcome)
    ensures email.None? || email.value == "" ==> o.reply == Fail(400, Required, NoDetails)
    ensures o.reply.Ok? ==> o.reply.body == Sent
    ensures o.token.Some? ==> o.reply == Ok(Sent)
  {
    if email.None? || email.value == "" then Outcome(Fail(400, Required, NoDetails), None)
    else if io.Down? then Outcome(Fail(500, InternalError, NoDetails), None)
    else
      var user := Find(users, WithEmail(email.value));
      if user.None? then Outcome(Ok(Sent), None)
      else Outcome(Ok(Sent), Some(TokenRequest(user.value.id, user.value.email, TokenLifetime)))
  }

  /** Registered or not, an e-mail gets the same answer. */
  lemma SameAnswerEitherWay(email: string, users1: seq<User>, users2: seq<User>)
    requires email != ""
    ensures Recover(Some(email), users1, Up).reply == Recover(Some(email), users2, Up).reply == Ok(Sent)
  {
  }

  /**
    A token is signed exactly for a registered e-mail, over that user's id and
    e-mail, valid for one hour.
   */
  lemma TokenForRegisteredOnly(email: string, users: seq<User>)
    requires email != ""
    ensures Recover(Some(email), users, Up).token.Some? <==> exists u :: u in users && u.email == email
    ensures Recover(Some(email), users, Up).token.Some? ==>
              var t := Recover(Some(email), users, Up).token.value;
              && t.email == email && t.expiresIn == 3600
              && exists u :: u in users && u.id == t.userId && u.email == email
  {
    var p := WithEmail(email);
    forall u | u in users && u.email == email
      ensures Find(users, p).Some?
    {
      var j :| 0 <= j < |users| && users[j] == u;
      assert p(users[j]);
    }
  }
}

=== FILE: register_route.dfy ===
/**
  `POST /api/auth/register` (user registration) and `GET /api/auth/register`
  (the user list, for any authenticated user). Password hashing is a
  parameter.
 */
module RegisterRoute {
  import opened Wrappers
  import opened Js
  import opened Text
  import opened Sorting
  import opened Records
  import opened Http
  import Auth

  const Required := "Nome, email e senha são obrigatórios"

  const Taken := "Email já cadastrado"

  const InternalError := "Erro interno do servidor"

  const Created := "Usuário criado com sucesso"

  const Roles: set<string> := {"ADM", "LOJISTA", "TECNICO"}

  /** The body fields; `role` is kept as sent, since only an absent role takes the default. */
  datatype Registration = Registration(
    name: Option<string>, email: Option<string>, password: Option<string>, role: JsValue)

  /** The success body: the message and the new user without its password. */
  datatype Registered = Registered(message: string, user: UserData)

  predicate Present(s: Option<string>) {
    s.Some? && s.value != ""
  }

  /** `role = 'LOJISTA'` in the destructuring: the default replaces only an absent role. */
  function RoleOf(v: JsValue): Option<string> {
    match v
    case Undefined => Some("LOJISTA")
    case Str(s) => Some(s)
    case _ => None
  }

  /** The e-mail addresses are pairwise different (the column is unique). */
  predicate UniqueEmails(users: seq<User>) {
    forall i, j :: 0 <= i < j < |users| ==> users[i].email != users[j].email
  }

  predicate EmailUsed(users: seq<User>, email: string) {
    exists i :: 0 <= i < |users| && users[i].email == email
  }

  /**
    Registration: 400 without a name, an e-mail or a password, 400 for an
    e-mail in use; otherwise the user is stored with the hashed password and
    a role the database knows, and handed back without the password.
   */
  function Register(b: Registration, db: Db, io: Io, hash: string -> string, now: int): (r: (Db, Reply<Registered>))
    ensures r.1.Fail? ==> r.0 == db
    ensures !Present(b.name) || !Present(b.email) || !Present(b.password) ==> r.1 == Fail(400, Required, NoDetails)
    ensures io.Up? && Present(b.name) && Present(b.password) && Present(b.email) && EmailUsed(db.users, b.email.value) ==>
              r.1 == Fail(400, Taken, NoDetails)
    ensures r.1.Ok? ==> r.1.body.message == Created
  {
    if !Present(b.name) || !Present(b.email) || !Present(b.password) then (db, Fail(400, Required, NoDetails))
    else if io.Down? then (db, Fail(500, InternalError, NoDetails))
    else if EmailUsed(db.users, b.email.value) then (db, Fail(400, Taken, NoDetails))
    else
      var role := RoleOf(b.role);
      if role.None? || role.value !in Roles then (db, Fail(500, InternalError, NoDetails))
      else
        var u := User(FreshId(Ids(db.users, (u: User) => u.id)), b.name.value, b.email.value, hash(b.password.value), role.value, now);
        (db.(users := db.users + [u]), Ok(Registered(Created, Profile(u))))
  }

  /**
    A registration appends one user: a fresh id, the given name and e-mail,
    the hash of the given password, the given role or LOJISTA when none was
    sent; the reply is that user's profile. No other table changes.
   */
  lemma RegisterSpec(b: Registration, db: Db, io: Io, hash: string -> string, now: int)
    requires Register(b, db, io, hash, now).1.Ok?
    ensures var (db2, r) := Register(b, db, io, hash, now);
            exists u: User ::
              && db2 == db.(users := db.users + [u])
              && (forall i :: 0 <= i < |db.users| ==> db.users[i].id < u.id)
              && Some(u.name) == b.name && Some(u.email) == b.email
              && u.password == hash(b.password.value)
              && (b.role == Undefined ==> u.role == "LOJISTA")
              && (b.role.Str? ==> u.role == b.role.str)
              && u.role in Roles
              && r.body.user == Profile(u)
  {
  }

  /** Registration keeps the e-mail addresses unique. */
  lemma RegisterKeepsEmailsUnique(b: Registration, db: Db, io: Io, hash: string -> string, now: int)
    requires UniqueEmails(db.users)
    ensures UniqueEmails(Register(b, db, io, hash, now).0.users)
  {
    var (db2, r) := Register(b, db, io, hash, now);
    if r.Ok? {
      var us := db2.users;
      forall i, j | 0 <= i < j < |us|
        ensures us[i].email != us[j].email
      {
        if j == |db.users| {
          assert us[i] == db.users[i];
          assert !EmailUsed(db.users, b.email.value);
        } else {
          assert us[i] == db.users[i] && us[j] == db.users[j];
        }
      }
    }
  }

  // ---------------------------------------------------------------------
  // Listing

  function CreatedAt(u: User): int {
    u.createdAt
  }

  function Profiles(users: seq<User>): (r: seq<UserData>)
    ensures |r| == |users|
    ensures forall i :: 0 <= i < |users| ==> r[i] == Profile(users[i])
  {
    seq(|users|, i requires 0 <= i < |users| => Profile(users[i]))
  }

  /** The handler behind the guard: every user without the password, newest first. */
  function ListHandler(db: Db, io: Io): Auth.Session -> Reply<seq<UserData>> {
    (s: Auth.Session) =>
      if io.Down? then Fail(500, InternalError, NoDetails) else Ok(Profiles(NewestFirst(db.users, CreatedAt)))
  }

  function ListUsers(header: Option<string>, verify: string -> Option<Auth.Claims>, db: Db, io: Io): Reply<seq<UserData>> {
    Auth.RequireAuth(ListHandler(db, io), header, verify, db.users)
  }

  /** Any authenticated user, whatever the role, gets the list; anyone else gets 401. */
  lemma ListNeedsOnlyAuthentication(header: Option<string>, verify: string -> Option<Auth.Claims>, db: Db)
    ensures Auth.Authenticate(header, verify, db.users).Some? ==>
              ListUsers(header, verify, db, Up) == Ok(Profiles(NewestFirst(db.users, CreatedAt)))
    ensures Auth.Authenticate(header, verify, db.users).None? ==>
              ListUsers(header, verify, db, Up) == Fail(401, Auth.Unauthorized, NoDetails)
  {
  }
}

=== FILE: reset_route.dfy ===
/**
  `POST /api/auth/reset`: a password reset with a recovery token. Token
  verification and password hashing are parameters.
 */
module ResetRoute {
  import opened Wrappers
  import opened Records
  import opened Http

  const Required := "Token e nova senha são obrigatórios"

  const BadToken := "Token inválido ou expirado"

  const NoUser := "Usuário não encontrado"

  const InternalError := "Erro interno do servidor"

  const Changed := "Senha alterada com sucesso"

  datatype ResetBody = ResetBody(token: Option<string>, newPassword: Option<string>)

  predicate Present(s: Option<string>) {
    s.Some? && s.value != ""
  }

  function WithId(id: int): User -> bool {
    (u: User) => u.id == id
  }

  /**
    The handler: 400 without a token or a password, 400 for a token that does
    not verify, 404 when its user is gone; otherwise that user's password
    becomes the hash of the new one. `verify` gives the user id a token was
    signed for, or None when it is invalid or expired.
   */
  function Reset(b: ResetBody, db: Db, io: Io, verify: string -> Option<int>, hash: string -> string): (r: (Db, Reply<string>))
    ensures r.1.Fail? ==> r.0 == db
    ensures !Present(b.token) || !Present(b.newPassword) ==> r.1 == Fail(400, Required, NoDetails)
    ensures Present(b.token) && Present(b.newPassword) && verify(b.token.value).None? ==> r.1 == Fail(400, BadToken, NoDetails)
    ensures r.1.Ok? ==> r.1.body == Changed
  {
    if !Present(b.token) || !Present(b.newPassword) then (db, Fail(400, Required, NoDetails))
    else
      var id := verify(b.token.value);
      if id.None? then (db, Fail(400, BadToken, NoDetails))
      else if io.Down? then (db, Fail(500, InternalError, NoDetails))
      else
        var i := FirstIndex(db.users, WithId(id.value));
        if i < 0 then (db, Fail(404, NoUser, NoDetails))
        else
          var users := db.users[..i] + [db.users[i].(password := hash(b.newPassword.value))] + db.users[i + 1..];
          (db.(users := users), Ok(Changed))
  }

  /** A verified token for a user that does not exist is answered with 404. */
  lemma MissingUser(b: ResetBody, db: Db, verify: string -> Option<int>, hash: string -> string)
    requires Present(b.token) && Present(b.newPassword) && verify(b.token.value).Some?
    requires forall u :: u in db.users ==> u.id != verify(b.token.value).value
    ensures Reset(b, db, Up, verify, hash) == (db, Fail(404, NoUser, NoDetails))
  {
  }

  /**
    A reset changes one thing: the password of the user the token names,
    which becomes the hash of the new password. Every other column of that
    user, every other user and every other table stays as it was.
   */
  lemma ResetChangesOnlyThatPassword(b: ResetBody, db: Db, io: Io, verify: string -> Option<int>, hash: string -> string)
    requires Reset(b, db, io, verify, hash).1.Ok?
    ensures var db2 := Reset(b, db, io, verify, hash).0;
            && db2 == db.(users := db2.users)
            && |db2.users| == |db.users|
            && exists i :: 0 <= i < |db.users| && db.users[i].id == verify(b.token.value).value
                 && db2.users[i] == db.users[i].(password := hash(b.newPassword.value))
                 && (forall j :: 0 <= j < |db.users| && j != i ==> db2.users[j] == db.users[j])
  {
    var i := FirstIndex(db.users, WithId(verify(b.token.value).value));
    var db2 := Reset(b, db, io, verify, hash).0;
    assert 0 <= i < |db.users|;
    assert forall j :: 0 <= j < |db.users| && j != i ==> db2.users[j] == db.users[j];
  }
}

=== FILE: sorting.dfy ===
/**
  `Array.prototype.sort` with a comparator, as the routes use it. Since
  ES2019 the sort is stable; `SortBy` is the insertion sort that keeps equal
  elements in their input order (proved in the `Records` module, which
  defines the filtering the statement needs). `before(a, b)` holds when the
  comparator returns a negative number for `(a, b)`.
 */
module Sorting {

  function Insert<T>(x: T, s: seq<T>, before: (T, T) -> bool): (r: seq<T>)
    ensures multiset(r) == multiset(s) + multiset{x}
    ensures |r| == |s| + 1
  {
    if s == [] || before(x, s[0]) then [x] + s
    else
      assert s == [s[0]] + s[1..];
      [s[0]] + Insert(x, s[1..], before)
  }

  /** `[...s].sort(cmp)`. */
  function SortBy<T>(s: seq<T>, before: (T, T) -> bool): (r: seq<T>)
    ensures multiset(r) == multiset(s)
    ensures |r| == |s|
  {
    if s == [] then []
    else
      assert s == s[..|s| - 1] + [s[|s| - 1]];
      Insert(s[|s| - 1], SortBy(s[..|s| - 1], before), before)
  }

  /** `s.slice(0, n)`. */
  function Slice<T>(s: seq<T>, n: nat): (r: seq<T>)
    ensures |r| <= n && |r| <= |s|
    ensures |s| <= n ==> r == s
    ensures n <= |s| ==> |r| == n
    ensures r == s[..|r|]
  {
    if |s| <= n then s else s[..n]
  }

  ghost predicate SortedByKey<T>(s: seq<T>, key: T -> int) {
    forall i, j :: 0 <= i < j < |s| ==> key(s[i]) <= key(s[j])
  }

  /** On the elements of `s`, the comparator orders by ascending `key`. */
  ghost predicate OrdersByKey<T>(s: seq<T>, before: (T, T) -> bool, key: T -> int) {
    forall a, b :: a in s && b in s ==> (before(a, b) <==> key(a) < key(b))
  }

  ghost predicate AdjacentSorted<T>(s: seq<T>, key: T -> int) {
    forall i :: 0 < i < |s| ==> key(s[i - 1]) <= key(s[i])
  }

  lemma {:induction false} AdjacentIsSorted<T>(s: seq<T>, key: T -> int)
    requires AdjacentSorted(s, key)
    ensures SortedByKey(s, key)
  {
    if s != [] {
      var t := s[1..];
      assert AdjacentSorted(t, key) by {
        forall i | 0 < i < |t| ensures key(t[i - 1]) <= key(t[i]) {
          assert t[i - 1] == s[i] && t[i] == s[i + 1];
        }
      }
      AdjacentIsSorted(t, key);
      forall i, j | 0 <= i < j < |s| ensures key(s[i]) <= key(s[j]) {
        if i == 0 {
          if j > 1 {
            assert key(t[0]) <= key(t[j - 1]);
          }
        } else {
          assert s[i] == t[i - 1] && s[j] == t[j - 1];
        }
      }
    }
  }

  lemma {:induction false} InsertSorted<T>(x: T, s: seq<T>, before: (T, T) -> bool, key: T -> int)
    requires AdjacentSorted(s, key)
    requires forall y :: y in s ==> (before(x, y) <==> key(x) < key(y))
    ensures AdjacentSorted(Insert(x, s, before), key)
    ensures Insert(x, s, before)[0] == x || (s != [] && Insert(x, s, before)[0] == s[0])
  {
    if s != [] && !before(x, s[0]) {
      var t := s[1..];
      assert AdjacentSorted(t, key) by {
        forall i | 0 < i < |t| ensures key(t[i - 1]) <= key(t[i]) {
          assert t[i - 1] == s[i] && t[i] == s[i + 1];
        }
      }
      assert forall y :: y in t ==> y in s;
      InsertSorted(x, t, before, key);
      var u := Insert(x, t, before);
      assert s[0] in s;
      if t != [] {
        assert t[0] == s[1];
      }
      var r := [s[0]] + u;
      assert Insert(x, s, before) == r;
      forall i | 0 < i < |r| ensures key(r[i - 1]) <= key(r[i]) {
        if i > 1 {
          assert r[i - 1] == u[i - 2] && r[i] == u[i - 1];
        }
      }
    } else if s != [] {
      assert s[0] in s;
      var r := [x] + s;
      forall i | 0 < i < |r| ensures key(r[i - 1]) <= key(r[i]) {
        if i > 1 {
          assert r[i - 1] == s[i - 2] && r[i] == s[i - 1];
        }
      }
    }
  }

  lemma {:induction false} SortByAdjacent<T>(s: seq<T>, before: (T, T) -> bool, key: T -> int)
    requires OrdersByKey(s, before, key)
    ensures AdjacentSorted(SortBy(s, before), key)
  {
    if s != [] {
      var p := s[..|s| - 1];
      var x := s[|s| - 1];
      assert forall y :: y in p ==> y in s;
      SortByAdjacent(p, before, key);
      var q := SortBy(p, before);
      forall y | y in q ensures before(x, y) <==> key(x) < key(y) {
        assert y in multiset(q);
        assert y in p;
      }
      InsertSorted(x, q, before, key);
    }
  }

  /** A comparator that orders by a key makes `SortBy` return its elements by ascending key. */
  lemma SortBySorted<T>(s: seq<T>, before: (T, T) -> bool, key: T -> int)
    requires OrdersByKey(s, before, key)
    ensures SortedByKey(SortBy(s, before), key)
  {
    SortByAdjacent(s, before, key);
    AdjacentIsSorted(SortBy(s, before), key);
  }

  /**
    Taking the first `n` of a sorted sequence keeps the best: an element of
    the input left out has a key no smaller than any element kept.
   */
  lemma SliceOfSortedIsTop<T>(s: seq<T>, before: (T, T) -> bool, key: T -> int, n: nat)
    requires OrdersByKey(s, before, key)
    ensures forall x, y :: x in s && x !in Slice(SortBy(s, before), n) && y in Slice(SortBy(s, before), n)
              ==> key(y) <= key(x)
  {
    var q := SortBy(s, before);
    var r := Slice(q, n);
    SortBySorted(s, before, key);
    forall x, y | x in s && x !in r && y in r ensures key(y) <= key(x) {
      assert x in multiset(q);
      var j :| 0 <= j < |q| && q[j] == x;
      var i :| 0 <= i < |r| && r[i] == y;
      assert q[i] == y;
    }
  }

  /** The comparator `(a, b) => key(b) - key(a)`: larger keys first. */
  function Descending<T>(key: T -> int): (T, T) -> bool {
    (a: T, b: T) => key(a) > key(b)
  }

  /** `[...s].sort((a, b) => key(b) - key(a)).slice(0, n)`: the `n` entries with the largest keys. */
  function TopBy<T>(s: seq<T>, key: T -> int, n: nat): seq<T> {
    Slice(SortBy(s, Descending(key)), n)
  }

  /**
    `TopBy` keeps `n` of the entries (all, when there are fewer), by
    descending key, and no entry left out has a larger key than one kept.
   */
  lemma TopBySpec<T>(s: seq<T>, key: T -> int, n: nat)
    ensures multiset(TopBy(s, key, n)) <= multiset(s)
    ensures |TopBy(s, key, n)| == if |s| <= n then |s| else n
    ensures forall i, j :: 0 <= i < j < |TopBy(s, key, n)| ==> key(TopBy(s, key, n)[i]) >= key(TopBy(s, key, n)[j])
    ensures forall x, y :: x in s && x !in TopBy(s, key, n) && y in TopBy(s, key, n) ==> key(x) <= key(y)
  {
    TopByContents(s, key, n);
    TopByOrder(s, key, n);
    TopByBest(s, key, n);
  }

  lemma TopByContents<T>(s: seq<T>, key: T -> int, n: nat)
    ensures multiset(TopBy(s, key, n)) <= multiset(s)
    ensures |TopBy(s, key, n)| == if |s| <= n then |s| else n
  {
    var q := SortBy(s, Descending(key));
    var r := TopBy(s, key, n);
    assert q == r + q[|r|..];
    assert multiset(q) == multiset(r) + multiset(q[|r|..]);
  }

  lemma TopByOrder<T>(s: seq<T>, key: T -> int, n: nat)
    ensures forall i, j :: 0 <= i < j < |TopBy(s, key, n)| ==> key(TopBy(s, key, n)[i]) >= key(TopBy(s, key, n)[j])
  {
    var neg := (x: T) => -key(x);
    var q := SortBy(s, Descending(key));
    var r := TopBy(s, key, n);
    assert OrdersByKey(s, Descending(key), neg);
    SortBySorted(s, Descending(key), neg);
    forall i, j | 0 <= i < j < |r| ensures key(r[i]) >= key(r[j]) {
      assert r[i] == q[i] && r[j] == q[j];
    }
  }

  lemma TopByBest<T>(s: seq<T>, key: T -> int, n: nat)
    ensures forall x, y :: x in s && x !in TopBy(s, key, n) && y in TopBy(s, key, n) ==> key(x) <= key(y)
  {
    var neg := (x: T) => -key(x);
    assert OrdersByKey(s, Descending(key), neg);
    SliceOfSortedIsTop(s, Descending(key), neg, n);
  }
}

=== FILE: stores_route.dfy ===
/**
  `GET /api/stores` (the stores, optionally of one owner, newest first) and
  `POST /api/stores` (store creation, the owner defaulting to the first shop
  owner).
 */
module StoresRoute {
  import opened Wrappers
  import opened Js
  import opened Text
  import opened Sorting
  import opened Records
  import opened Http

  const ConnectError := "Erro de conexão com o banco de dados"

  const QueryError := "Erro ao buscar lojas no banco de dados"

  const Required := "Nome e endereço são obrigatórios"

  const NoOwner := "Nenhum lojista encontrado para ser proprietário"

  const CreateError := "Erro ao criar loja"

  function CreatedAt(s: Store): int {
    s.createdAt
  }

  // ---------------------------------------------------------------------
  // Listing

  function OwnedBy(owner: Option<JsNum>): Store -> bool
    requires owner != Some(NaN)
  {
    (s: Store) => owner.None? || s.ownerId == owner.value.value
  }

  /** The stores an owner condition selects, newest first. */
  function Owned(stores: seq<Store>, owner: Option<JsNum>): seq<Store>
    requires owner != Some(NaN)
  {
    NewestFirst(Filter(stores, OwnedBy(owner)), CreatedAt)
  }

  /** The listing; the connection is checked first, then a NaN owner id fails the query. */
  function List(ownerId: Option<string>, db: Db, io: Io): (r: Reply<seq<Store>>)
    ensures r.Ok? <==> io.Up? && NumberParam(ownerId) != Some(NaN)
    ensures io.Down? ==> r.status == 500 && r.error == ConnectError
    ensures io.Up? && NumberParam(ownerId) == Some(NaN) ==> r == Fail(500, QueryError, RejectedArgument)
  {
    var owner := NumberParam(ownerId);
    if io.Down? then Fail(500, ConnectError, Message(io.message))
    else if owner == Some(NaN) then Fail(500, QueryError, RejectedArgument)
    else Ok(Owned(db.stores, owner))
  }

  /**
    The owner condition keeps exactly the owner's stores, or every store when
    no owner is given, each once and newest first.
   */
  lemma OwnedSpec(stores: seq<Store>, owner: Option<JsNum>)
    requires owner != Some(NaN)
    ensures multiset(Owned(stores, owner)) == multiset(Filter(stores, OwnedBy(owner)))
    ensures owner.None? ==> Owned(stores, owner) == NewestFirst(stores, CreatedAt)
    ensures forall i :: 0 <= i < |Owned(stores, owner)| && owner.Some? ==> Owned(stores, owner)[i].ownerId == owner.value.value
    ensures forall i, j :: 0 <= i < j < |Owned(stores, owner)| ==> Owned(stores, owner)[i].createdAt >= Owned(stores, owner)[j].createdAt
  {
    var p := OwnedBy(owner);
    NewestFirstFilter(stores, p, CreatedAt);
    if owner.None? {
      FilterAll(stores, p);
    } else {
      assert forall i :: 0 <= i < |Owned(stores, owner)| ==> p(Owned(stores, owner)[i]);
    }
  }

  // ---------------------------------------------------------------------
  // Creation

  datatype NewStore = NewStore(name: Option<string>, address: Option<string>, ownerId: JsValue)

  predicate Present(s: Option<string>) {
    s.Some? && s.value != ""
  }

  function IsLojista(u: User): bool {
    u.role == "LOJISTA"
  }

  predicate UserExists(users: seq<User>, id: int) {
    exists i :: 0 <= i < |users| && users[i].id == id
  }

  /** `rawOwnerId ? Number(rawOwnerId) : null`, as an owner id when it is truthy. */
  function GivenOwner(raw: JsValue): Option<int> {
    if Truthy(raw) && ToNumber(raw).Truthy() then Some(ToNumber(raw).value) else None
  }

  /** Appends the store the database writes, if its owner exists. */
  function Insert(name: string, address: string, owner: int, db: Db, now: int): (r: (Db, Reply<Store>))
    ensures r.1.Fail? ==> r.0 == db && r.1 == Fail(500, CreateError, ConstraintViolation)
    ensures r.1.Ok? <==> UserExists(db.users, owner)
    ensures r.1.Ok? ==> r.0 == db.(stores := db.stores + [r.1.body])
    ensures r.1.Ok? ==> r.1.body.name == name && r.1.body.address == address && r.1.body.ownerId == owner
    ensures r.1.Ok? ==> forall i :: 0 <= i < |db.stores| ==> db.stores[i].id < r.1.body.id
  {
    if !UserExists(db.users, owner) then (db, Fail(500, CreateError, ConstraintViolation))
    else
      var s := Store(FreshId(Ids(db.stores, (s: Store) => s.id)), name, address, owner, now);
      (db.(stores := db.stores + [s]), Ok(s))
  }

  /**
    Creation: 400 without a name or an address; the owner is the given id
    when that is a truthy number, otherwise the first shop owner, and 400
    when there is none.
   */
  function Create(b: NewStore, db: Db, io: Io, now: int): (r: (Db, Reply<Store>))
    ensures r.1.Fail? ==> r.0 == db
    ensures !Present(b.name) || !Present(b.address) ==> r.1 == Fail(400, Required, NoDetails)
    ensures r.1.Ok? ==> r.0 == db.(stores := db.stores + [r.1.body])
    ensures r.1.Ok? ==> Some(r.1.body.name) == b.name && Some(r.1.body.address) == b.address
    ensures r.1.Ok? ==> UserExists(db.users, r.1.body.ownerId)
  {
    if !Present(b.name) || !Present(b.address) then (db, Fail(400, Required, NoDetails))
    else if io.Down? then (db, Fail(500, CreateError, Message(io.message)))
    else
      var given := GivenOwner(b.ownerId);
      if given.Some? then Insert(b.name.value, b.address.value, given.value, db, now)
      else
        var first := Find(db.users, IsLojista);
        if first.None? then (db, Fail(400, NoOwner, NoDetails))
        else Insert(b.name.value, b.address.value, first.value.id, db, now)
  }

  /** The owner a creation resolves to: the given one, else the first shop owner in table order. */
  lemma CreateOwner(b: NewStore, db: Db, now: int)
    requires Present(b.name) && Present(b.address)
    ensures GivenOwner(b.ownerId).Some? ==>
              Create(b, db, Up, now) == Insert(b.name.value, b.address.value, GivenOwner(b.ownerId).value, db, now)
    ensures GivenOwner(b.ownerId).None? && (exists i :: 0 <= i < |db.users| && IsLojista(db.users[i])) ==>
              var k := FirstIndex(db.users, IsLojista);
              && 0 <= k < |db.users| && IsLojista(db.users[k])
              && (forall j :: 0 <= j < k ==> !IsLojista(db.users[j]))
              && Create(b, db, Up, now) == Insert(b.name.value, b.address.value, db.users[k].id, db, now)
  {
  }

  /** With no usable owner id and no shop owner, the request is refused with 400 and nothing is written. */
  lemma NoOwnerRefused(b: NewStore, db: Db, now: int)
    requires Present(b.name) && Present(b.address) && GivenOwner(b.ownerId).None?
    requires forall i :: 0 <= i < |db.users| ==> !IsLojista(db.users[i])
    ensures Create(b, db, Up, now) == (db, Fail(400, NoOwner, NoDetails))
  {
  }

  /** An owner id that is not a number is not refused: the store goes to the first shop owner instead. */
  lemma NonNumericOwnerFallsBack(b: NewStore, db: Db, now: int)
    requires Present(b.name) && Present(b.address)
    requires b.ownerId.Str? && NumberOf(b.ownerId.str) == NaN
    ensures Create(b, db, Up, now) == Create(b.(ownerId := Undefined), db, Up, now)
  {
  }
}

=== FILE: stores_route_new.dfy ===
/**
  The second version of the stores route: the same listing without the
  separate connection check, and a creation whose owner fallback never
  answers 400; with no owner at all, the write itself fails.
 */
module StoresRouteNew {
  import opened Wrappers
  import opened Js
  import opened Text
  import opened Records
  import opened Http
  import StoresRoute

  const ListError := "Erro ao listar lojas"

  function List(ownerId: Option<string>, db: Db, io: Io): (r: Reply<seq<Store>>)
    ensures r.Ok? <==> io.Up? && NumberParam(ownerId) != Some(NaN)
    ensures r.Fail? ==> r.status == 500 && r.error == ListError
  {
    var owner := NumberParam(ownerId);
    if io.Down? then Fail(500, ListError, Message(io.message))
    else if owner == Some(NaN) then Fail(500, ListError, RejectedArgument)
    else Ok(StoresRoute.Owned(db.stores, owner))
  }

  /** Both versions list the same stores whenever they answer. */
  lemma ListsAgree(ownerId: Option<string>, db: Db)
    ensures List(ownerId, db, Up).Ok? == StoresRoute.List(ownerId, db, Up).Ok?
    ensures List(ownerId, db, Up).Ok? ==> List(ownerId, db, Up).body == StoresRoute.List(ownerId, db, Up).body
  {
  }

  /**
    `finalOwnerId = ownerId`, replaced by the first shop owner's id when it
    is falsy and there is one; the result goes through `Number(...)`.
   */
  function OwnerValue(raw: JsValue, users: seq<User>): JsNum {
    if Truthy(raw) then ToNumber(raw)
    else
      var first := Find(users, StoresRoute.IsLojista);
      if first.Some? then Int(first.value.id) else ToNumber(raw)
  }

  function Create(b: StoresRoute.NewStore, db: Db, io: Io, now: int): (r: (Db, Reply<Store>))
    ensures r.1.Fail? ==> r.0 == db
    ensures !StoresRoute.Present(b.name) || !StoresRoute.Present(b.address) ==>
              r.1 == Fail(400, StoresRoute.Required, NoDetails)
    ensures r.1.Fail? && r.1.status != 400 ==> r.1.status == 500 && r.1.error == StoresRoute.CreateError
  {
    if !StoresRoute.Present(b.name) || !StoresRoute.Present(b.address) then
      (db, Fail(400, StoresRoute.Required, NoDetails))
    else if io.Down? then (db, Fail(500, StoresRoute.CreateError, Message(io.message)))
    else match OwnerValue(b.ownerId, db.users)
      case NaN => (db, Fail(500, StoresRoute.CreateError, RejectedArgument))
      case Int(owner) => StoresRoute.Insert(b.name.value, b.address.value, owner, db, now)
  }

  /**
    With no owner id and no shop owner the store is written with owner
    `Number(undefined)`, which the database refuses: 500, nothing written.
   */
  lemma AbsentOwnerFails(b: StoresRoute.NewStore, db: Db, now: int)
    requires StoresRoute.Present(b.name) && StoresRoute.Present(b.address) && b.ownerId == Undefined
    requires forall i :: 0 <= i < |db.users| ==> !StoresRoute.IsLojista(db.users[i])
    ensures Create(b, db, Up, now) == (db, Fail(500, StoresRoute.CreateError, RejectedArgument))
  {
  }

  /**
    Where the first version answers 400 for want of an owner, this one
    answers 500; given a numeric owner id, or no id while a shop owner
    exists, both versions write the same store.
   */
  lemma CreatesAgree(b: StoresRoute.NewStore, db: Db, now: int)
    requires StoresRoute.Present(b.name) && StoresRoute.Present(b.address)
    ensures (b.ownerId.Num? && b.ownerId.num.Truthy()) ==> Create(b, db, Up, now) == StoresRoute.Create(b, db, Up, now)
    ensures (b.ownerId == Undefined && exists i :: 0 <= i < |db.users| && StoresRoute.IsLojista(db.users[i])) ==>
              Create(b, db, Up, now) == StoresRoute.Create(b, db, Up, now)
    ensures StoresRoute.Create(b, db, Up, now).1 == Fail(400, StoresRoute.NoOwner, NoDetails) && b.ownerId == Undefined ==>
              Create(b, db, Up, now).1.Fail? && Create(b, db, Up, now).1.status == 500
  {
  }
}

=== FILE: system_config.dfy ===
/**
  `GET /api/system/config` and `PUT /api/system/config`: the single system
  configuration row, created on first read, and its partial update.
 */
module SystemConfigRoute {
  import opened Wrappers
  import opened Records
  import opened Http

  const DefaultName := "Lavo System"

  const ReadError := "Erro ao buscar configuração"

  const SaveError := "Erro ao salvar configuração"

  /** The configuration table holds at most one row, and that row has id 1. */
  predicate Singleton(configs: seq<SystemConfig>) {
    configs == [] || (|configs| == 1 && configs[0].id == 1)
  }

  /** The first row, or a new default row with id 1 when the table is empty. */
  function Read(db: Db, io: Io): (r: (Db, Reply<SystemConfig>))
    ensures r.1.Fail? ==> r.0 == db && r.1 == Fail(500, ReadError, NoDetails)
    ensures io.Up? && db.configs != [] ==> r == (db, Ok(db.configs[0]))
    ensures io.Up? && db.configs == [] ==>
              r == (db.(configs := [SystemConfig(1, DefaultName, None)]), Ok(SystemConfig(1, DefaultName, None)))
  {
    if io.Down? then (db, Fail(500, ReadError, NoDetails))
    else if db.configs != [] then (db, Ok(db.configs[0]))
    else
      var c := SystemConfig(1, DefaultName, None);
      (db.(configs := [c]), Ok(c))
  }

  /** Reading twice gives the same row and writes nothing the second time. */
  lemma ReadTwice(db: Db)
    ensures var (db1, r1) := Read(db, Up);
            Read(db1, Up) == (db1, r1)
  {
  }

  /**
    The body of an update; None stands for both `null` and an absent field,
    which `??` treats alike.
   */
  datatype ConfigBody = ConfigBody(systemName: Option<string>, logoUrl: Option<string>)

  function IndexOfId(configs: seq<SystemConfig>, id: int): (i: int)
    ensures -1 <= i < |configs|
    ensures i >= 0 ==> configs[i].id == id
    ensures i < 0 ==> forall j :: 0 <= j < |configs| ==> configs[j].id != id
  {
    if configs == [] then -1
    else if configs[0].id == id then 0
    else
      var i := IndexOfId(configs[1..], id);
      if i < 0 then -1 else i + 1
  }

  /** The `update` branch: each field given replaces the stored one; a missing one is kept. */
  function Updated(c: SystemConfig, b: ConfigBody): SystemConfig {
    c.(systemName := b.systemName.GetOr(c.systemName), logoUrl := if b.logoUrl.Some? then b.logoUrl else c.logoUrl)
  }

  /** The `create` branch: id 1, the name or the default when it is empty, the logo or none. */
  function Fresh(b: ConfigBody): SystemConfig {
    SystemConfig(1, if b.systemName.Some? && b.systemName.value != "" then b.systemName.value else DefaultName, b.logoUrl)
  }

  /** `upsert` on id 1. */
  function Save(b: ConfigBody, db: Db, io: Io): (r: (Db, Reply<SystemConfig>))
    ensures r.1.Fail? ==> r.0 == db && r.1 == Fail(500, SaveError, NoDetails)
    ensures r.1.Ok? ==> r.1.body.id == 1 && r.1.body in r.0.configs
    ensures r.1.Ok? ==> r.0 == db.(configs := r.0.configs)
  {
    if io.Down? then (db, Fail(500, SaveError, NoDetails))
    else
      var i := IndexOfId(db.configs, 1);
      if i >= 0 then
        var c := Updated(db.configs[i], b);
        (db.(configs := db.configs[..i] + [c] + db.configs[i + 1..]), Ok(c))
      else
        var c := Fresh(b);
        (db.(configs := db.configs + [c]), Ok(c))
  }

  /**
    On an existing row, a field that is given is written and one that is
    null or absent keeps its value, so the logo cannot be cleared.
   */
  lemma SaveKeepsMissingFields(b: ConfigBody, c: SystemConfig, db: Db)
    requires db.configs == [c] && c.id == 1
    ensures var r := Save(b, db, Up).1.body;
            && r.id == 1
            && (b.systemName.Some? ==> r.systemName == b.systemName.value)
            && (b.systemName.None? ==> r.systemName == c.systemName)
            && (b.logoUrl.Some? ==> r.logoUrl == b.logoUrl)
            && (b.logoUrl.None? ==> r.logoUrl == c.logoUrl)
    ensures Save(b, db, Up).0.configs == [Save(b, db, Up).1.body]
  {
  }

  /** On an empty table the row is created with the default name for an empty one and no logo when none is given. */
  lemma SaveCreates(b: ConfigBody, db: Db)
    requires db.configs == []
    ensures Save(b, db, Up).0.configs == [Save(b, db, Up).1.body]
    ensures var r := Save(b, db, Up).1.body;
            && r.id == 1
            && (b.systemName.None? || b.systemName.value == "" ==> r.systemName == DefaultName)
            && (b.systemName.Some? && b.systemName.value != "" ==> r.systemName == b.systemName.value)
            && r.logoUrl == b.logoUrl
  {
  }

  /** Reading and saving keep the table a single row with id 1. */
  lemma SingletonKept(b: ConfigBody, db: Db, io: Io)
    requires Singleton(db.configs)
    ensures Singleton(Read(db, io).0.configs)
    ensures Singleton(Save(b, db, io).0.configs)
  {
    if io.Up? && db.configs != [] {
      assert IndexOfId(db.configs, 1) == 0;
    }
  }

  /** What a save answers is what a following read returns, while the table is a singleton. */
  lemma ReadAfterSave(b: ConfigBody, db: Db)
    requires Singleton(db.configs)
    ensures var (db1, r) := Save(b, db, Up);
            Read(db1, Up) == (db1, r)
  {
    if db.configs != [] {
      assert IndexOfId(db.configs, 1) == 0;
    }
  }

  /**
    Saving the same body twice leaves what the first save left, except when
    the first save created the row from an empty name: the create branch
    wrote the default name, the update branch then writes the empty one.
   */
  lemma SaveIdempotent(b: ConfigBody, db: Db)
    requires Singleton(db.configs)
    requires db.configs != [] || b.systemName != Some("")
    ensures var (db1, r1) := Save(b, db, Up);
            Save(b, db1, Up) == (db1, r1)
  {
    var (db1, r1) := Save(b, db, Up);
    if db.configs != [] {
      assert IndexOfId(db.configs, 1) == 0;
    }
    assert db1.configs == [r1.body];
    assert IndexOfId(db1.configs, 1) == 0;
    assert Updated(r1.body, b) == r1.body;
    assert db1.configs[..0] + [r1.body] + db1.configs[1..] == db1.configs;
  }

  /** The exception: an empty name on an empty table is the default after one save and empty after two. */
  lemma EmptyNameTwice(b: ConfigBody, db: Db)
    requires db.configs == [] && b.systemName == Some("")
    ensures Save(b, db, Up).1.body.systemName == DefaultName
    ensures Save(b, Save(b, db, Up).0, Up).1.body.systemName == ""
  {
    var db1 := Save(b, db, Up).0;
    assert IndexOfId(db1.configs, 1) == 0;
  }
}

=== FILE: text.dfy ===
/**
  String operations of JavaScript that the routes and pages use, over
  `string` = `seq<char>`: decimal rendering (`String(n)`, `padStart`),
  `parseInt`, `Number`, `toLowerCase`, `includes`, `startsWith` and
  `split(sep)[0]`.
 */
module Text {
  import opened Wrappers
  import opened Js

  predicate IsDigit(c: char) {
    '0' <= c <= '9'
  }

  predicate AllDigits(s: string) {
    forall i :: 0 <= i < |s| ==> IsDigit(s[i])
  }

  /** The white-space characters `parseInt` and `Number` skip (the ASCII ones). */
  predicate IsSpace(c: char) {
    c == ' ' || c == '\t' || c == '\n' || c == '\r' || c == '\U{B}' || c == '\U{C}'
  }

  function DigitChar(d: nat): (c: char)
    requires d < 10
    ensures IsDigit(c) && c as int - '0' as int == d
  {
    ('0' as int + d) as char
  }

  function DigitValue(c: char): nat
    requires IsDigit(c)
  {
    c as int - '0' as int
  }

  // ---------------------------------------------------------------------
  // Decimal rendering

  /** `n.toString()` for a non-negative integer. */
  function NatToString(n: nat): (s: string)
    ensures 1 <= |s| && AllDigits(s)
  {
    if n < 10 then [DigitChar(n)] else NatToString(n / 10) + [DigitChar(n % 10)]
  }

  /** `String(n)` for an integer. */
  function IntToString(n: int): string {
    if n < 0 then "-" + NatToString(-n) else NatToString(n)
  }

  /** The value of a string of decimal digits (most significant first). */
  function DigitsValue(s: string): nat
    requires AllDigits(s)
  {
    if s == [] then 0 else 10 * DigitsValue(s[..|s| - 1]) + DigitValue(s[|s| - 1])
  }

  lemma {:induction false} NatToStringValue(n: nat)
    ensures DigitsValue(NatToString(n)) == n
  {
    if n >= 10 {
      var s := NatToString(n / 10);
      NatToStringValue(n / 10);
      var t := s + [DigitChar(n % 10)];
      assert t[..|t| - 1] == s;
    }
  }

  /** `s.padStart(width, fill)`. */
  function PadStart(s: string, width: nat, fill: char): (r: string)
    ensures |r| == if |s| >= width then |s| else width
    ensures r[|r| - |s|..] == s
    ensures forall i :: 0 <= i < |r| - |s| ==> r[i] == fill
  {
    if |s| >= width then s else seq(width - |s|, _ => fill) + s
  }

  /** A non-negative integer as at least `width` digits, zero-padded on the left. */
  function PadNat(n: nat, width: nat): (r: string)
    ensures AllDigits(r) && |r| >= width
  {
    PadStart(NatToString(n), width, '0')
  }

  lemma {:induction false} ZerosValue(z: string)
    requires forall i :: 0 <= i < |z| ==> z[i] == '0'
    ensures AllDigits(z) && DigitsValue(z) == 0
  {
    if z != [] {
      ZerosValue(z[..|z| - 1]);
    }
  }

  lemma {:induction false} LeadingZerosValue(z: string, s: string)
    requires forall i :: 0 <= i < |z| ==> z[i] == '0'
    requires AllDigits(s)
    ensures AllDigits(z + s) && DigitsValue(z + s) == DigitsValue(s)
  {
    if s == [] {
      assert z + s == z;
      ZerosValue(z);
    } else {
      var t := z + s;
      assert t[..|t| - 1] == z + s[..|s| - 1];
      LeadingZerosValue(z, s[..|s| - 1]);
    }
  }

  /** Numbers below 100 need at most two digits, so padding to two gives exactly two. */
  lemma PadTwoDigits(n: nat)
    requires n < 100
    ensures |PadNat(n, 2)| == 2
  {
    if n >= 10 {
      assert NatToString(n) == NatToString(n / 10) + [DigitChar(n % 10)];
    }
  }

  lemma PadNatValue(n: nat, width: nat)
    ensures DigitsValue(PadNat(n, width)) == n
  {
    var s := NatToString(n);
    var r := PadNat(n, width);
    var z := r[..|r| - |s|];
    assert r == z + s;
    LeadingZerosValue(z, s);
    NatToStringValue(n);
  }

  // ---------------------------------------------------------------------
  // Parsing

  /** The number of decimal digits at the head of `s`. */
  function DigitRun(s: string): (k: nat)
    ensures k <= |s| && AllDigits(s[..k])
    ensures k < |s| ==> !IsDigit(s[k])
  {
    if s == [] || !IsDigit(s[0]) then 0
    else
      var k := 1 + DigitRun(s[1..]);
      assert s[..k] == [s[0]] + s[1..][..k - 1];
      k
  }

  /** `s` with its leading white space removed. */
  function TrimStart(s: string): (r: string)
    ensures |r| <= |s| && r == s[|s| - |r|..]
    ensures r != [] ==> !IsSpace(r[0])
  {
    if s != [] && IsSpace(s[0]) then TrimStart(s[1..]) else s
  }

  /** `s` with its trailing white space removed. */
  function TrimEnd(s: string): (r: string)
    ensures |r| <= |s| && r == s[..|r|]
    ensures r != [] ==> !IsSpace(r[|r| - 1])
  {
    if s != [] && IsSpace(s[|s| - 1]) then TrimEnd(s[..|s| - 1]) else s
  }

  /** Digits with an optional leading sign, read as an integer. */
  function SignedValue(negative: bool, digits: string): int
    requires AllDigits(digits)
  {
    var v: int := DigitsValue(digits);
    if negative then -v else v
  }

  /**
    `parseInt(s)` (radix 10): skip leading white space, read an optional sign
    and the longest run of digits; NaN when there is no digit.
   */
  function ParseInt(s: string): JsNum {
    var t := TrimStart(s);
    var signed := t != [] && (t[0] == '-' || t[0] == '+');
    var body := if signed then t[1..] else t;
    var k := DigitRun(body);
    if k == 0 then NaN else Int(SignedValue(signed && t[0] == '-', body[..k]))
  }

  /**
    `Number(s)`: the whole string, white space trimmed, must be an optionally
    signed digit string; the empty string is 0; anything else is NaN.
   */
  function NumberOf(s: string): JsNum {
    var t := TrimEnd(TrimStart(s));
    var signed := t != [] && (t[0] == '-' || t[0] == '+');
    var body := if signed then t[1..] else t;
    if t == [] then Int(0)
    else if body != [] && AllDigits(body) then Int(SignedValue(signed && t[0] == '-', body))
    else NaN
  }

  /**
    A numeric query parameter: None when it is absent or empty (no
    condition), otherwise `Number` of it, which may be NaN.
   */
  function NumberParam(p: Option<string>): (r: Option<JsNum>)
    ensures r.None? <==> p.None? || p.value == ""
    ensures r.Some? ==> r.value == NumberOf(p.value)
  {
    if p.Some? && p.value != "" then Some(NumberOf(p.value)) else None
  }

  /** `Number(v)` of a request-body value. */
  function ToNumber(v: JsValue): JsNum {
    match v
    case Undefined => NaN
    case Null => Int(0)
    case Num(n) => n
    case Str(s) => NumberOf(s)
  }

  lemma NoLeadingSpace(s: string)
    requires s != [] && !IsSpace(s[0])
    ensures TrimStart(s) == s
  {
  }

  lemma NoTrailingSpace(s: string)
    requires s != [] && !IsSpace(s[|s| - 1])
    ensures TrimEnd(s) == s
  {
  }

  /** The text after an optional sign, as `parseInt` and `Number` see it. */
  lemma SignSplit(negative: bool, digits: string, rest: string)
    requires digits != [] && AllDigits(digits)
    ensures var s := (if negative then "-" else "") + digits + rest;
            && s != [] && !IsSpace(s[0])
            && (s[0] == '-' || s[0] == '+') == negative
            && (negative ==> s[0] == '-' && s[1..] == digits + rest)
            && (!negative ==> s == digits + rest)
  {
    var s := (if negative then "-" else "") + digits + rest;
    if negative {
      assert s[0] == '-';
      assert s[1..] == digits + rest;
    } else {
      assert s == digits + rest;
      assert IsDigit(s[0]);
    }
  }

  /** An optionally negated digit string is read back by `parseInt` whatever non-digit follows it. */
  lemma ParseIntPrefix(negative: bool, digits: string, rest: string)
    requires digits != [] && AllDigits(digits)
    requires rest != [] ==> !IsDigit(rest[0])
    ensures ParseInt((if negative then "-" else "") + digits + rest) == Int(SignedValue(negative, digits))
  {
    var s := (if negative then "-" else "") + digits + rest;
    var body := digits + rest;
    SignSplit(negative, digits, rest);
    DigitRunOfDigits(digits, rest);
    assert body[..|digits|] == digits;
    if negative {
      assert s == "-" + body;
      NegativeSteps(body, |digits|);
    } else {
      assert s == body;
      UnsignedSteps(body, |digits|);
    }
  }

  lemma NegativeSteps(body: string, k: nat)
    requires DigitRun(body) == k && k > 0
    ensures ParseInt("-" + body) == Int(SignedValue(true, body[..k]))
  {
    var s := "-" + body;
    assert !IsSpace(s[0]);
    NoLeadingSpace(s);
    assert s[1..] == body;
    ParseIntSteps(s, true, body, k);
  }

  lemma UnsignedSteps(body: string, k: nat)
    requires DigitRun(body) == k && k > 0
    ensures ParseInt(body) == Int(SignedValue(false, body[..k]))
  {
    assert IsDigit(body[0]) && !IsSpace(body[0]);
    NoLeadingSpace(body);
    ParseIntSteps(body, false, body, k);
  }

  /** `parseInt` of text with no leading space, given its sign, its unsigned part and that part's digit run. */
  lemma ParseIntSteps(s: string, negative: bool, body: string, k: nat)
    requires TrimStart(s) == s && s != []
    requires (s[0] == '-' || s[0] == '+') <==> (negative || s[0] == '+')
    requires negative ==> s[0] == '-'
    requires body == if s[0] == '-' || s[0] == '+' then s[1..] else s
    requires DigitRun(body) == k && k > 0
    ensures ParseInt(s) == Int(SignedValue(negative, body[..k]))
  {
  }

  /** A digit string after a `+` sign is read back by `parseInt` whatever non-digit follows it. */
  lemma ParseIntPlusPrefix(digits: string, rest: string)
    requires digits != [] && AllDigits(digits)
    requires rest != [] ==> !IsDigit(rest[0])
    ensures ParseInt("+" + digits + rest) == Int(DigitsValue(digits))
  {
    var body := digits + rest;
    assert "+" + digits + rest == "+" + body;
    DigitRunOfDigits(digits, rest);
    assert body[..|digits|] == digits;
    PlusSteps(body, |digits|);
  }

  lemma PlusSteps(body: string, k: nat)
    requires DigitRun(body) == k && k > 0
    ensures ParseInt("+" + body) == Int(SignedValue(false, body[..k]))
  {
    var s := "+" + body;
    assert !IsSpace(s[0]);
    NoLeadingSpace(s);
    assert s[1..] == body;
    ParseIntSteps(s, false, body, k);
  }

  lemma {:induction false} DigitRunOfDigits(digits: string, rest: string)
    requires AllDigits(digits)
    requires rest != [] ==> !IsDigit(rest[0])
    ensures DigitRun(digits + rest) == |digits|
  {
    if digits != [] {
      assert (digits + rest)[1..] == digits[1..] + rest;
      DigitRunOfDigits(digits[1..], rest);
    }
  }

  /** `parseInt(String(n)) == n`. */
  lemma ParseIntOfIntString(n: int)
    ensures ParseInt(IntToString(n)) == Int(n)
  {
    NatToStringValue(if n < 0 then -n else n);
    if n < 0 {
      ParseIntPrefix(true, NatToString(-n), "");
      assert "-" + NatToString(-n) + "" == IntToString(n);
    } else {
      ParseIntPrefix(false, NatToString(n), "");
      assert "" + NatToString(n) + "" == IntToString(n);
    }
  }

  /** `Number` reads an optionally negated digit string back. */
  lemma NumberOfSigned(negative: bool, digits: string)
    requires digits != [] && AllDigits(digits)
    ensures NumberOf((if negative then "-" else "") + digits) == Int(SignedValue(negative, digits))
  {
    var s := (if negative then "-" else "") + digits;
    SignSplit(negative, digits, "");
    assert s == (if negative then "-" else "") + digits + "";
    NoLeadingSpace(s);
    assert s[|s| - 1] == digits[|digits| - 1];
    NoTrailingSpace(s);
  }

  /** `Number(String(n)) == n`. */
  lemma NumberOfIntString(n: int)
    ensures NumberOf(IntToString(n)) == Int(n)
  {
    NatToStringValue(if n < 0 then -n else n);
    if n < 0 {
      NumberOfSigned(true, NatToString(-n));
    } else {
      NumberOfSigned(false, NatToString(n));
      assert "" + NatToString(n) == IntToString(n);
    }
  }

  // ---------------------------------------------------------------------
  // Searching and case

  /** `s.startsWith(p)`. */
  predicate StartsWith(s: string, p: string) {
    |p| <= |s| && s[..|p|] == p
  }

  /** `s.includes(sub)`. */
  predicate Contains(s: string, sub: string) {
    exists i :: 0 <= i <= |s| && OccursAt(s, sub, i)
  }

  /** `sub` occurs in `s` starting at index `i`. */
  predicate OccursAt(s: string, sub: string, i: nat) {
    i + |sub| <= |s| && s[i..i + |sub|] == sub
  }

  lemma ContainsEmpty(s: string)
    ensures Contains(s, "")
  {
    assert OccursAt(s, "", 0);
  }

  /** A string containing `t + u` also contains `t`. */
  lemma ContainsPrefixOfNeedle(s: string, t: string, u: string)
    requires Contains(s, t + u)
    ensures Contains(s, t)
  {
    var i :| 0 <= i <= |s| && OccursAt(s, t + u, i);
    assert s[i..i + |t|] == (t + u)[..|t|];
    assert OccursAt(s, t, i);
  }

  /** `c.toLowerCase()` for ASCII and Latin-1 capitals. */
  function LowerChar(c: char): char {
    if 'A' <= c <= 'Z' || ('À' <= c <= 'Þ' && c != '×') then (c as int + 32) as char else c
  }

  /** `s.toLowerCase()`. */
  function ToLower(s: string): (r: string)
    ensures |r| == |s|
    ensures forall i :: 0 <= i < |s| ==> r[i] == LowerChar(s[i])
  {
    seq(|s|, i requires 0 <= i < |s| => LowerChar(s[i]))
  }

  /** Lower-casing twice is lower-casing once: no lower-cased character is mapped again. */
  lemma ToLowerIdempotent(s: string)
    ensures ToLower(ToLower(s)) == ToLower(s)
  {
    assert forall i :: 0 <= i < |s| ==> LowerChar(LowerChar(s[i])) == LowerChar(s[i]);
  }

  lemma ToLowerConcat(a: string, b: string)
    ensures ToLower(a + b) == ToLower(a) + ToLower(b)
  {
  }

  /** `s.split(sep)[0]`: the text before the first `sep`, or all of `s`. */
  function FirstField(s: string, sep: char): (r: string)
    ensures |r| <= |s| && r == s[..|r|]
    ensures sep !in r
    ensures |r| < |s| ==> s[|r|] == sep
  {
    if s == [] || s[0] == sep then [] else [s[0]] + FirstField(s[1..], sep)
  }

  lemma {:induction false} FirstFieldAfter(p: string, s: string, sep: char)
    requires sep !in p
    ensures FirstField(p + s, sep) == p + FirstField(s, sep)
  {
    if p == [] {
      assert p + s == s;
    } else {
      var q := p + s;
      assert p[0] in p;
      assert q[0] == p[0] && q[1..] == p[1..] + s;
      FirstFieldAfter(p[1..], s, sep);
      assert FirstField(q, sep) == [p[0]] + FirstField(q[1..], sep);
      assert p == [p[0]] + p[1..];
    }
  }
}

=== FILE: traffic.dfy ===
/**
  The hourly chart of the traffic page: an object with one bucket per local
  hour of the 24 hours ending at the current one, keyed `HH:00` and filled in
  the order `for (i = 23; i >= 0; i--)` creates them, then one increment per
  access whose local hour has a bucket. The keys are not integer-like, so
  `Object.keys` returns them in insertion order. Instants are milliseconds
  since the epoch, `offset` the fixed time zone of the browser.
 */
module Traffic {
  import opened Clock
  import opened Histogram
  import opened Charts

  /** `d.getHours().toString().padStart(2, '0') + ':00'`. */
  function HourKey(t: int, offset: int): string {
    HourLabel(LocalHour(t, offset))
  }

  /** `buckets[key] = v`: an existing key keeps its place, a new one goes last. */
  function Put(b: seq<Group<string>>, k: string, v: nat): (r: seq<Group<string>>)
    ensures IndexOf(b, k) < 0 ==> r == b + [Group(k, v)]
    ensures IndexOf(b, k) >= 0 ==> r == b[IndexOf(b, k) := Group(k, v)]
  {
    var i := IndexOf(b, k);
    if i < 0 then b + [Group(k, v)] else b[i := Group(k, v)]
  }

  /** `if (key in buckets) buckets[key] += 1`. */
  function Tick(b: seq<Group<string>>, k: string): (r: seq<Group<string>>)
    ensures |r| == |b|
    ensures forall j :: 0 <= j < |b| ==> r[j].key == b[j].key
  {
    var i := IndexOf(b, k);
    if i < 0 then b else b[i := Group(k, b[i].count + 1)]
  }

  /** The key the loop creates at turn `j + 1`, `i = 23 - j` hours before `now`. */
  function LoopKey(now: int, offset: int, j: int): string {
    HourKey(now - (23 - j) * HourMs, offset)
  }

  /** The 24 keys of the loop, in the order it creates them. */
  function LoopKeys(now: int, offset: int): (ks: seq<string>)
    ensures |ks| == 24
    ensures forall j :: 0 <= j < 24 ==> ks[j] == LoopKey(now, offset, j)
  {
    seq(24, j requires 0 <= j < 24 => LoopKey(now, offset, j))
  }

  /** `buckets[key] = 0` for each key in turn. */
  function Start(keys: seq<string>): seq<Group<string>> {
    if keys == [] then [] else Put(Start(keys[..|keys| - 1]), keys[|keys| - 1], 0)
  }

  /** `accesses.forEach(...)`: one `Tick` per access key, in order. */
  function Fill(b: seq<Group<string>>, keys: seq<string>): (r: seq<Group<string>>)
    ensures |r| == |b|
    ensures forall j :: 0 <= j < |b| ==> r[j].key == b[j].key
  {
    if keys == [] then b
    else Tick(Fill(b, keys[..|keys| - 1]), keys[|keys| - 1])
  }

  /** The filled buckets of the accesses stamped `stamps`, at the instant `now`. */
  function Buckets(now: int, offset: int, stamps: seq<int>): seq<Group<string>> {
    Fill(Start(LoopKeys(now, offset)), StampKeys(stamps, offset))
  }

  datatype HourChart = HourChart(labels: seq<string>, data: seq<nat>)

  /** `labels: Object.keys(buckets)`, `data: Object.values(buckets)`. */
  function TrafficChart(now: int, offset: int, stamps: seq<int>): (c: HourChart)
    ensures |c.labels| == |c.data| == |Buckets(now, offset, stamps)|
    ensures forall j :: 0 <= j < |c.labels| ==>
              c.labels[j] == Buckets(now, offset, stamps)[j].key && c.data[j] == Buckets(now, offset, stamps)[j].count
  {
    var b := Buckets(now, offset, stamps);
    HourChart(seq(|b|, j requires 0 <= j < |b| => b[j].key), seq(|b|, j requires 0 <= j < |b| => b[j].count))
  }

  /** The bucket keys of the accesses, in order. */
  function StampKeys(stamps: seq<int>, offset: int): (ks: seq<string>)
    ensures |ks| == |stamps|
    ensures forall i :: 0 <= i < |stamps| ==> ks[i] == HourKey(stamps[i], offset)
  {
    seq(|stamps|, i requires 0 <= i < |stamps| => HourKey(stamps[i], offset))
  }

  // ---------------------------------------------------------------------
  // The hours of the last day

  /** `i` hours back, the local hour is `i` less, round the clock (a fixed offset has no DST jumps). */
  lemma HourBack(now: int, offset: int, i: int)
    ensures LocalHour(now - i * HourMs, offset) == (LocalHour(now, offset) - i) % 24
  {
    var x := now + offset;
    var q := x / HourMs;
    DivModUnique(x - i * HourMs, HourMs, q - i, x % HourMs);
    var h := q % 24;
    DivModUnique(q - i, 24, q / 24 + (h - i) / 24, (h - i) % 24);
  }

  /** Going back fewer than 24 distinct numbers of hours gives distinct hours. */
  lemma BackDistinct(h: int, a: int, b: int)
    requires 0 <= a < b < 24
    ensures (h - a) % 24 != (h - b) % 24
  {
    var d := b - a;
    var qa := (h - a) / 24;
    var qb := (h - b) / 24;
    assert h - a == 24 * qa + (h - a) % 24;
    assert h - b == 24 * qb + (h - b) % 24;
  }

  /** The loop's 24 keys differ from each other. */
  lemma KeysDistinct(now: int, offset: int, i: int, j: int)
    requires 0 <= i < j < 24
    ensures LoopKey(now, offset, i) != LoopKey(now, offset, j)
  {
    var h := LocalHour(now, offset);
    var la := LocalHour(now - (23 - i) * HourMs, offset);
    var lb := LocalHour(now - (23 - j) * HourMs, offset);
    HourBack(now, offset, 23 - i);
    HourBack(now, offset, 23 - j);
    BackDistinct(h, 23 - j, 23 - i);
    assert la != lb;
    if HourLabel(la) == HourLabel(lb) {
      HourLabelInjective(la, lb);
    }
  }

  /** Every hour of the day is one of the loop's 24 hours. */
  lemma EveryHourIsBack(now: int, offset: int, h: int)
    requires 0 <= h < 24
    ensures 0 <= (LocalHour(now, offset) - h) % 24 < 24
    ensures LocalHour(now - ((LocalHour(now, offset) - h) % 24) * HourMs, offset) == h
  {
    var i := (LocalHour(now, offset) - h) % 24;
    HourBack(now, offset, i);
  }

  /** Distinct keys give one zero bucket per key, in order. */
  lemma {:induction false} StartShape(keys: seq<string>)
    requires forall i, j :: 0 <= i < j < |keys| ==> keys[i] != keys[j]
    ensures |Start(keys)| == |keys|
    ensures forall j :: 0 <= j < |keys| ==> Start(keys)[j] == Group(keys[j], 0)
  {
    if keys != [] {
      var p := keys[..|keys| - 1];
      var k := keys[|keys| - 1];
      var b := Start(p);
      StartShape(p);
      forall j | 0 <= j < |b| ensures b[j].key != k {
        assert b[j].key == keys[j];
      }
      assert !HasKey(b, k);
      assert Start(keys) == b + [Group(k, 0)];
    }
  }

  /** The loop's keys differ pairwise. */
  lemma LoopKeysDistinct(now: int, offset: int)
    ensures forall i, j :: 0 <= i < j < 24 ==> LoopKeys(now, offset)[i] != LoopKeys(now, offset)[j]
  {
    forall i, j | 0 <= i < j < 24 ensures LoopKeys(now, offset)[i] != LoopKeys(now, offset)[j] {
      KeysDistinct(now, offset, i, j);
    }
  }

  // ---------------------------------------------------------------------
  // Filling

  /** Keys that differ pairwise. */
  ghost predicate UniqueKeys(b: seq<Group<string>>) {
    forall i, j :: 0 <= i < j < |b| ==> b[i].key != b[j].key
  }

  /** A `Tick` adds one to the bucket of its key, when there is one, and to no other. */
  lemma TickCount(b: seq<Group<string>>, k: string, j: int)
    requires UniqueKeys(b) && 0 <= j < |b|
    ensures Tick(b, k)[j].count == b[j].count + (if b[j].key == k then 1 else 0)
  {
  }

  /** Each bucket ends with its start value plus the accesses of its key. */
  lemma {:induction false} FillCounts(b: seq<Group<string>>, keys: seq<string>, j: int)
    requires UniqueKeys(b) && 0 <= j < |b|
    ensures Fill(b, keys)[j].count == b[j].count + Occurrences(keys, b[j].key)
  {
    if keys != [] {
      var p := keys[..|keys| - 1];
      var f := Fill(b, p);
      FillCounts(b, p, j);
      assert UniqueKeys(f);
      TickCount(f, keys[|keys| - 1], j);
    }
  }

  /** When every key has a bucket, the buckets gain one count per key in all. */
  lemma {:induction false} FillTotal(b: seq<Group<string>>, keys: seq<string>)
    requires forall i :: 0 <= i < |keys| ==> HasKey(b, keys[i])
    ensures Total(Fill(b, keys)) == Total(b) + |keys|
  {
    if keys != [] {
      var p := keys[..|keys| - 1];
      var k := keys[|keys| - 1];
      var f := Fill(b, p);
      FillTotal(b, p);
      assert HasKey(b, k);
      var m :| 0 <= m < |b| && b[m].key == k;
      assert f[m].key == k;
      TickTotal(f, k);
    }
  }

  /** A `Tick` of a key that has a bucket adds one to the total. */
  lemma TickTotal(b: seq<Group<string>>, k: string)
    requires HasKey(b, k)
    ensures Total(Tick(b, k)) == Total(b) + 1
  {
    var i := IndexOf(b, k);
    TotalUpdate(b, i, Group(k, b[i].count + 1));
  }

  lemma {:induction false} ZeroTotal(b: seq<Group<string>>)
    requires forall j :: 0 <= j < |b| ==> b[j].count == 0
    ensures Total(b) == 0
  {
    if b != [] {
      ZeroTotal(b[..|b| - 1]);
    }
  }

  // ---------------------------------------------------------------------
  // The chart

  /**
    The chart has the 24 hours ending at the current one, oldest first, with
    distinct labels, the last the current hour; each value counts the
    accesses whose local hour has that label.
   */
  lemma TrafficChartSpec(now: int, offset: int, stamps: seq<int>)
    ensures |TrafficChart(now, offset, stamps).labels| == 24
    ensures forall j :: 0 <= j < 24 ==> TrafficChart(now, offset, stamps).labels[j] == LoopKey(now, offset, j)
    ensures TrafficChart(now, offset, stamps).labels[23] == HourKey(now, offset)
    ensures forall i, j :: 0 <= i < j < 24 ==> TrafficChart(now, offset, stamps).labels[i] != TrafficChart(now, offset, stamps).labels[j]
    ensures forall j :: 0 <= j < 24 ==>
              TrafficChart(now, offset, stamps).data[j] == Occurrences(StampKeys(stamps, offset), TrafficChart(now, offset, stamps).labels[j])
  {
    var s := Start(LoopKeys(now, offset));
    var c := TrafficChart(now, offset, stamps);
    StartBuckets(now, offset);
    forall j | 0 <= j < 24 ensures c.data[j] == Occurrences(StampKeys(stamps, offset), c.labels[j]) {
      FillCounts(s, StampKeys(stamps, offset), j);
    }
  }

  /** The loop leaves 24 zero buckets with distinct keys, the loop's keys in order. */
  lemma StartBuckets(now: int, offset: int)
    ensures |Start(LoopKeys(now, offset))| == 24
    ensures forall j :: 0 <= j < 24 ==> Start(LoopKeys(now, offset))[j] == Group(LoopKey(now, offset, j), 0)
    ensures UniqueKeys(Start(LoopKeys(now, offset)))
  {
    LoopKeysDistinct(now, offset);
    StartShape(LoopKeys(now, offset));
  }

  /**
    Every hour of the day has a bucket, so every access is counted, whatever
    its date: the values add up to the number of accesses.
   */
  lemma EveryAccessCounted(now: int, offset: int, stamps: seq<int>)
    ensures Total(Buckets(now, offset, stamps)) == |stamps|
  {
    var s := Start(LoopKeys(now, offset));
    StartBuckets(now, offset);
    forall i | 0 <= i < |stamps| ensures HasKey(s, HourKey(stamps[i], offset)) {
      HourHasBucket(now, offset, stamps[i]);
    }
    ZeroTotal(s);
    FillTotal(s, StampKeys(stamps, offset));
  }

  /** The hour of any instant is one of the loop's keys. */
  lemma HourHasBucket(now: int, offset: int, t: int)
    ensures HasKey(Start(LoopKeys(now, offset)), HourKey(t, offset))
  {
    var j := LoopIndex(now, offset, t);
    StartBuckets(now, offset);
    assert Start(LoopKeys(now, offset))[j].key == HourKey(t, offset);
  }

  /** The turn of the loop that creates the key of `t`'s hour. */
  function LoopIndex(now: int, offset: int, t: int): (j: int)
    ensures 0 <= j < 24 && LoopKey(now, offset, j) == HourKey(t, offset)
  {
    var back := (LocalHour(now, offset) - LocalHour(t, offset)) % 24;
    EveryHourIsBack(now, offset, LocalHour(t, offset));
    assert 23 - (23 - back) == back;
    23 - back
  }
}

=== FILE: user_search.dfy ===
/**
  The shop-owner management page: who may see it, and the search box that
  narrows the user list by name or e-mail, ignoring case.
 */
module UserSearch {
  import opened Wrappers
  import opened Text
  import opened Records

  // ---------------------------------------------------------------------
  // Search

  /** The lower-cased term occurs in the lower-cased name or the lower-cased e-mail. */
  predicate Matches(term: string, u: UserData) {
    Contains(ToLower(u.name), ToLower(term)) || Contains(ToLower(u.email), ToLower(term))
  }

  /** The users the list shows for a search term, in the order they arrived. */
  function Filtered(users: seq<UserData>, term: string): seq<UserData> {
    Filter(users, u => Matches(term, u))
  }

  /** A user is listed exactly when it is one of the users and matches the term. */
  lemma FilteredMembers(users: seq<UserData>, term: string)
    ensures forall u :: u in Filtered(users, term) <==> u in users && Matches(term, u)
  {
    var r := Filtered(users, term);
    forall u | u in users && Matches(term, u)
      ensures u in r
    {
      var i :| 0 <= i < |users| && users[i] == u;
    }
  }

  /** The listed users keep the order of the full list. */
  lemma FilteredInOrder(users: seq<UserData>, term: string)
    ensures Subsequence(Filtered(users, term), users)
  {
    FilterIsSubsequence(users, u => Matches(term, u));
  }

  /** An empty search box lists everyone. */
  lemma EmptyTermKeepsAll(users: seq<UserData>)
    ensures Filtered(users, "") == users
  {
    assert ToLower("") == "";
    forall u: UserData
      ensures Matches("", u)
    {
      ContainsEmpty(ToLower(u.name));
    }
    FilterAll(users, u => Matches("", u));
  }

  /** A user matching a term also matches every prefix of it. */
  lemma MatchesPrefix(t: string, s: string, u: UserData)
    requires Matches(t + s, u)
    ensures Matches(t, u)
  {
    ToLowerConcat(t, s);
    if Contains(ToLower(u.name), ToLower(t + s)) {
      ContainsPrefixOfNeedle(ToLower(u.name), ToLower(t), ToLower(s));
    } else {
      ContainsPrefixOfNeedle(ToLower(u.email), ToLower(t), ToLower(s));
    }
  }

  /**
    Typing more never brings a user back: the list for `t + s` is the list
    for `t` searched again with `t + s`, so it holds no user the list for
    `t` lacks.
   */
  lemma ExtendingNarrows(users: seq<UserData>, t: string, s: string)
    ensures Filtered(users, t + s) == Filter(Filtered(users, t), u => Matches(t + s, u))
    ensures forall u :: u in Filtered(users, t + s) ==> u in Filtered(users, t)
  {
    forall u | Matches(t + s, u)
      ensures Matches(t, u)
    {
      MatchesPrefix(t, s, u);
    }
    FilterStronger(users, u => Matches(t, u), u => Matches(t + s, u));
  }

  // ---------------------------------------------------------------------
  // Access to the page

  /** What the signed-in session holds: whether it is authenticated and the user's role, if a user is set. */
  datatype Session = Session(isAuthenticated: bool, role: Option<string>)

  predicate IsAdmin(s: Session) {
    s.isAuthenticated && s.role == Some("ADM")
  }

  /** What the page does once mounted: send the visitor elsewhere, or load the users. */
  datatype Visit = ToLogin | ToDashboard | LoadUsers

  function OnMount(s: Session): (v: Visit)
    ensures v == ToLogin <==> !s.isAuthenticated
    ensures v == LoadUsers <==> IsAdmin(s)
  {
    if !s.isAuthenticated then ToLogin
    else if s.role != Some("ADM") then ToDashboard
    else LoadUsers
  }

  /** The list the page renders, or None when it renders nothing. */
  function Rendered(s: Session, users: seq<UserData>, term: string): (r: Option<seq<UserData>>)
    ensures r.None? <==> !IsAdmin(s)
    ensures r.Some? ==> r.value == Filtered(users, term)
  {
    if !s.isAuthenticated || s.role != Some("ADM") then None else Some(Filtered(users, term))
  }

  /** The page shows a list exactly when it also loads the users, i.e. only to an administrator. */
  lemma RenderedOnlyWhenLoaded(s: Session, users: seq<UserData>, term: string)
    ensures Rendered(s, users, term).Some? <==> OnMount(s) == LoadUsers
  {
  }
}

=== FILE: wrappers.dfy ===
/** Optional values: JavaScript's `null`/`undefined` versus a present value. */
module Wrappers {

  datatype Option<+T> = None | Some(value: T) {

    /** The value, or `default` when absent (JavaScript's `x ?? default`). */
    function GetOr(default: T): T {
      match this
      case Some(v) => v
      case None => default
    }
  }
}
